=== FILE: README.md ===
# Personal finance core, in Dafny

This project models the rules at the heart of a personal finance
application. It has a Spring service layer and a React front end.

On the server side it models:

- the spreadsheet import and export of transactions and monthly plans
  (`ExcelService`);
- how a credit-card purchase is split into monthly installments, and the
  transaction search (`TransactionService`);
- how an account's current balance follows an edit of its initial balance
  (`AccountService`);
- the dashboard's totals for the previous, current and next month
  (`DashboardService`);
- the `"%d-%02d"` year-month key of a planning (`Planning`,
  `MonthlyPlanning`).

On the client side it models:

- the cumulative chart (`TransactionChart.jsx`);
- the filter form (`useTransactionFilters`);
- the row selection (`useSelection`);
- the list kept in step with the server (`useCrud`);
- the transaction form (`TransactionForm.jsx`);
- the five most recent transactions (`TransactionList.jsx`).

The modelling choices:

- Everything is immutable data and pure functions over sequences, sets and
  maps.
- Money is an exact decimal: an unscaled integer and a scale, as a
  `BigDecimal` holds it.
- Dates are proleptic Gregorian.
- The repositories and the security context become parameters: the stored
  records and the current user.
- HTTP replies and the browser's confirmation dialog become parameters.
- The clock is a parameter.

Modules, one per file:

| module | file | what it holds |
|---|---|---|
| `Wrappers` | wrappers.dfy | `Option` and `Result` |
| `Text` | text.dfy | digits, decimal rendering, trimming, case folding, substring search |
| `Decimals` | decimal.dfy | exact decimals, sums, HALF_UP division to cents |
| `Calendar` | calendar.dfy | dates and year-months, `plusMonths` with clamping, day steps, JavaScript's date normalisation, ISO text |
| `JavaNumbers` | javanumbers.dfy | `Double.toString`, `Double.parseDouble` with its infinities and NaN, `new BigDecimal(String)` with exponents, and the `(int)` cast, on exact decimals |
| `Domain` | domain.dfy | transactions, accounts, plannings, transaction types, the year-month key |
| `Ownership` | ownership.dfy | removing the records that the current user owns and that are listed by id |
| `Workbooks` | workbook.dfy | cells, rows, sheets, POI's case-insensitive sheet lookup |
| `ExcelService` | excel_service.dfy | sheet detection and selection, row parsing, export layout |
| `ExcelRoundTrip` | excel_roundtrip.dfy | export followed by import, and the planning-only workbook |
| `TransactionService` | transaction_service.dfy | save, installments, search, deletion |
| `AccountService` | account_service.dfy | save with balance adjustment, deletion |
| `DashboardService` | dashboard_service.dfy | monthly summaries |
| `TransactionChart` | chart.dfy | the time window and the cumulative series |
| `TransactionFilters` | filters.dfy | filter state and query parameters |
| `Selection` | selection.dfy | selected ids |
| `Crud` | crud.dfy | list transitions and error messages |
| `TransactionForm` | transaction_form.dfy | form loading, validation, payload, request |
| `TransactionList` | transaction_list.dfy | newest-first list of five, row markers and sign |

## Model

| member | source | states |
|---|---|---|
| ExcelService.CellText | src/main/java/br/com/fabioprada/financial/service/ExcelService.java:390-403 | A missing cell or a cell of an unsupported type reads as "". A string cell reads as its raw text. A numeric cell reads as Java's rendering of the double. A boolean cell reads as "true" or "false" according to its value. |
| ExcelService.ScanTransactionHeader | src/main/java/br/com/fabioprada/financial/service/ExcelService.java:173-198 | The scan over the header cells returns true exactly when row 0 exists and holds trimmed, case-insensitive "Nome", "Data" and "Valor" cells, each anywhere in the row. |
| ExcelService.ScanPlanningHeader | src/main/java/br/com/fabioprada/financial/service/ExcelService.java:200-227 | The scan returns true exactly when row 0 exists and holds "Mês" or "Mes", "Ano", "Categoria" and "Valor Estimado". |
| ExcelService.HasLabelBeforeExists | src/main/java/br/com/fabioprada/financial/service/ExcelService.java:179-196 | The header scan's running flag after i cells is true exactly when one of the first i cells matches the label. |
| Workbooks.SheetByName | src/main/java/br/com/fabioprada/financial/service/ExcelService.java:108 | The sheet looked up by name is the first one whose name equals it ignoring case, and there is none exactly when no sheet's name does. |
| ExcelService.FindSheet | src/main/java/br/com/fabioprada/financial/service/ExcelService.java:106-152 | The sheet with the canonical name is chosen when it passes the structure test. Otherwise the first passing sheet other than the skipped one is chosen. When nothing qualifies, there is none. A chosen sheet always passes the test. |
| ExcelService.CollectDataRows | src/main/java/br/com/fabioprada/financial/service/ExcelService.java:231-242 | The loop over the sheet yields exactly the present rows after the header row, in sheet order. |
| ExcelService.ParseTransactionRow | src/main/java/br/com/fabioprada/financial/service/ExcelService.java:240-319 | A row with cells 0 and 2 both absent is skipped. A row yields a transaction exactly when it has a name cell and a readable amount. The transaction's name, date, type, category and accounts are the readings of cells 0 to 6, and it has no id and no user. |
| ExcelService.ParseRefCell | src/main/java/br/com/fabioprada/financial/service/ExcelService.java:286-314 | An empty category or account text gives no reference. A non-empty text gives a reference carrying exactly that name and no id. |
| ExcelService.ParseAmountCell | src/main/java/br/com/fabioprada/financial/service/ExcelService.java:264-275 | A numeric cell gives `BigDecimal.valueOf` of its double. A string cell gives `new BigDecimal` of its text, exponent forms included. Any other cell, or no cell, gives no amount. |
| ExcelService.ParseDateCell | src/main/java/br/com/fabioprada/financial/service/ExcelService.java:250-262 | A date-formatted numeric cell gives its date. Any other cell gives `LocalDate.parse` of its text, which is a date `LocalDate` can hold or none. A missing cell gives none. |
| ExcelService.ParseTypeCell | src/main/java/br/com/fabioprada/financial/service/ExcelService.java:277-284 | A type is read only when the cell's text is exactly that constant's name. |
| ExcelService.ParseTransactions | src/main/java/br/com/fabioprada/financial/service/ExcelService.java:229-322 | Every imported transaction has a name and an amount. |
| ExcelService.ParseTransactionRowsAppend | src/main/java/br/com/fabioprada/financial/service/ExcelService.java:239-320 | Parsing follows row order: the transactions of two blocks of rows are those of the first block followed by those of the second. |
| ExcelService.ParseIntCell | src/main/java/br/com/fabioprada/financial/service/ExcelService.java:342-357 | A month or year cell reads as the `(int)` cast of `Double.parseDouble` of its text, always a Java `int`. Text that is not a number reads as 0. |
| ExcelService.IntCellExamples | src/main/java/br/com/fabioprada/financial/service/ExcelService.java:342-357 | "3d" reads as 3, "Infinity" as `Integer.MAX_VALUE`, "NaN" as 0 and "2.024E3" as 2024. |
| ExcelService.AmountCellExamples | src/main/java/br/com/fabioprada/financial/service/ExcelService.java:268-273 | "1E+3" reads as 1000 and "2.50e-1" as 0.250. |
| ExcelService.ParsePlanningRow | src/main/java/br/com/fabioprada/financial/service/ExcelService.java:330-385 | A row with cells 2 and 3 both absent is skipped. A planning is emitted exactly when month > 0, year > 0 and the estimated amount is readable. Its fields are the readings of cells 0 to 3. |
| ExcelService.ParsePlanning | src/main/java/br/com/fabioprada/financial/service/ExcelService.java:324-388 | Every imported planning has a month above 0, a year above 0 and an estimated amount. |
| ExcelService.ParsePlanningRowsAppend | src/main/java/br/com/fabioprada/financial/service/ExcelService.java:328-386 | Planning rows are parsed in row order. |
| ExcelService.ImportData | src/main/java/br/com/fabioprada/financial/service/ExcelService.java:97-171 | The transactions come from the selected transaction sheet, and there are none without one. The plannings come from the selected planning sheet, whose fallback search skips the transaction sheet, and there are none without one. |
| ExcelService.ExportTransactionRow | src/main/java/br/com/fabioprada/financial/service/ExcelService.java:48-67 | A transaction row is written exactly when the date, amount and type are set. The row has seven cells. |
| ExcelService.ExportPlanningRow | src/main/java/br/com/fabioprada/financial/service/ExcelService.java:78-87 | A planning row is written exactly when the estimated amount is set. The row has four cells. |
| ExcelService.ExportToExcel | src/main/java/br/com/fabioprada/financial/service/ExcelService.java:35-95 | Export succeeds exactly when every record can be written. The first sheet is "Transações" with the transaction header row. A "Planejamento" sheet with the planning header row follows exactly when plannings are given. |
| ExcelService.TransactionHeaderDetected | src/main/java/br/com/fabioprada/financial/service/ExcelService.java:27-29 | The exported transaction sheet passes the transaction structure test, whatever its data rows are. |
| ExcelService.PlanningHeaderDetected | src/main/java/br/com/fabioprada/financial/service/ExcelService.java:32-33 | The exported planning sheet passes the planning structure test. |
| ExcelService.TransactionHeaderRow | src/main/java/br/com/fabioprada/financial/service/ExcelService.java:41-46 | Any header row that starts with "Nome", "Data", "Valor" is detected as a transaction header. |
| ExcelService.PlanningHeaderRow | src/main/java/br/com/fabioprada/financial/service/ExcelService.java:71-76 | Any header row that starts with the four planning labels is detected as a planning header. |
| ExcelRoundTrip.ExportImportRoundTrip | src/main/java/br/com/fabioprada/financial/service/ExcelService.java:35-171 | Importing an exported workbook gives back every transaction and every planning, in order, for any dates `LocalDate` can hold. Only what the file does not carry is lost: ids, owners, installment fields and the ids of references. A null name comes back as "", and a reference with an empty name comes back as none. |
| ExcelRoundTrip.TransactionRowRoundTrip | src/main/java/br/com/fabioprada/financial/service/ExcelService.java:48-67 | One exported transaction row parses back to the same transaction. The amount comes back in canonical form. |
| ExcelRoundTrip.PlanningRowRoundTrip | src/main/java/br/com/fabioprada/financial/service/ExcelService.java:78-87 | One exported planning row parses back to the same planning. A month or year of 0 or less is dropped, as the import does. |
| Calendar.ParseFormatIso | src/main/java/br/com/fabioprada/financial/service/ExcelService.java:250-258 | `LocalDate.parse` inverts `LocalDate.toString` for every date `LocalDate` can hold: four plain year digits, a '-' before a negative year and a '+' before a year past 9999. |
| ExcelRoundTrip.DateCellRoundTrip | src/main/java/br/com/fabioprada/financial/service/ExcelService.java:52 | The ISO text written for any date `LocalDate` can hold, signed and extended years included, is read back as that date. |
| ExcelRoundTrip.PlanningHeadedNotTransaction | src/main/java/br/com/fabioprada/financial/service/ExcelService.java:173-227 | A sheet headed by the planning labels is a planning sheet and never a transaction sheet. |
| ExcelRoundTrip.PlanningOnlyImport | src/test/java/br/com/fabioprada/financial/service/ExcelServiceTest.java:19-56 | A workbook whose only sheet, under any name, has a planning header and one planning row imports no transactions and exactly that planning. |
| ExcelRoundTrip.MinhasMetasExample | src/test/java/br/com/fabioprada/financial/service/ExcelServiceTest.java:19-56 | The sheet "Minhas Metas" with month 1, year 2025, "Alimentação" and 1500.00 imports one planning with those values and amount 1500.0. |
| JavaNumbers.ParseDoubleToString | src/main/java/br/com/fabioprada/financial/service/ExcelService.java:264-275 | The text Java writes for a double is parsed back by `new BigDecimal` and by `Double.parseDouble` to the same value in canonical form. |
| JavaNumbers.DoubleReadsBigDecimalText | src/main/java/br/com/fabioprada/financial/service/ExcelService.java:342-357 | Every text `new BigDecimal` accepts for an amount is read by `Double.parseDouble` as the same number. |
| JavaNumbers.Shift | src/main/java/br/com/fabioprada/financial/service/ExcelService.java:268-273 | A numeral with exponent e denotes its significand times 10^e. The scale is the significand's scale less e whenever that is not negative. |
| JavaNumbers.CanonicalSameValue | src/main/java/br/com/fabioprada/financial/service/ExcelService.java:266-267 | `BigDecimal.valueOf` of a double keeps its numeric value. |
| JavaNumbers.DoubleToInt | src/main/java/br/com/fabioprada/financial/service/ExcelService.java:342-357 | The `(int)` cast gives 0 for NaN and the `int` bound on its side for an infinity. A finite value is truncated toward zero and saturated at the bounds of `int`. |
| JavaNumbers.TruncateBounds | src/main/java/br/com/fabioprada/financial/service/ExcelService.java:342-357 | Truncation drops the fraction: the magnitude of the result is the whole part of the magnitude. |
| JavaNumbers.IntegralCellRoundTrip | src/main/java/br/com/fabioprada/financial/service/ExcelService.java:81-82 | An `int` written as a numeric cell is read back as the same `int`. |
| Domain.TypeValueOfName | src/main/java/br/com/fabioprada/financial/service/TransactionService.java:56-63 | `TransactionType.valueOf` accepts exactly the constants' names, and each name gives its own constant. |
| Domain.YearMonthKeyShape | src/main/java/br/com/fabioprada/financial/model/MonthlyPlanning.java:33-35 | For a month in 1..12 the key is the decimal year, then "-", then exactly two digits that read as the month. |
| Domain.YearMonthKeyFourDigitYear | src/main/java/br/com/fabioprada/financial/model/Planning.java:29-31 | With a four-digit year the key has the shape YYYY-MM: seven characters. |
| Domain.YearMonthKeyInjective | src/main/java/br/com/fabioprada/financial/model/MonthlyPlanning.java:33-35 | Distinct (year, month) pairs with months in 1..12 have distinct keys. |
| Domain.PlanningKeysAgree | src/main/java/br/com/fabioprada/financial/model/Planning.java:29-31 | A `Planning` and a `MonthlyPlanning` of the same year and month have the same key. |
| DashboardService.PlannedValues | src/main/java/br/com/fabioprada/financial/model/MonthlyPlanning.java:37-39 | The values the budget adds up are the plannings' estimated amounts, unchanged and in order. |
| TransactionService.Save | src/main/java/br/com/fabioprada/financial/service/TransactionService.java:80-90 | Without a user, save fails. With no plan of more than one installment, exactly one record is saved: the transaction with the user set and nothing else changed. Otherwise it is split into installments. |
| TransactionService.SaveInstallments | src/main/java/br/com/fabioprada/financial/service/TransactionService.java:92-125 | Splitting fails exactly when the amount or the date is null. Otherwise N records are saved. Each carries the shared fields, the amount divided by N rounded HALF_UP to cents, and the date moved forward one month per installment. The first keeps its number or gets 1; the others are numbered 2..N. |
| TransactionService.InstallmentSchedule | src/main/java/br/com/fabioprada/financial/service/TransactionService.java:94-96 | With no installment number given, the installments are numbered 1..N in the order they are written. The one numbered n falls n - 1 months after the start month, and their dates strictly increase. |
| Calendar.DatePlusMonths | src/main/java/br/com/fabioprada/financial/service/TransactionService.java:120 | `plusMonths` lands in the target year-month, keeps the day when that month has it, and otherwise clamps to the month's last day. |
| TransactionService.InstallmentsAddUp | src/main/java/br/com/fabioprada/financial/service/TransactionService.java:99-101 | The installments add up to the original amount to within half a cent per installment, and the total has at most two decimals. |
| Decimals.RoundHalfUp | src/main/java/br/com/fabioprada/financial/service/TransactionService.java:99-100 | The division result is the HALF_UP rounding of the exact quotient. |
| Decimals.HalfUpUnique | src/main/java/br/com/fabioprada/financial/service/TransactionService.java:99-100 | HALF_UP rounding of a quotient has exactly one result. |
| TransactionService.SearchMeaning | src/main/java/br/com/fabioprada/financial/service/TransactionService.java:36-67 | A transaction is found exactly when there is a user who owns it and its name contains the filter ignoring case. Its date must lie within the given inclusive bounds, and its category and type must match. Null or empty filters and an unknown type name ask nothing. Without a user nothing is found. |
| TransactionService.WhereAppend | src/main/java/br/com/fabioprada/financial/service/TransactionService.java:41-67 | The search filter distributes over concatenation, so each match is returned once, in store order. |
| TransactionService.CriteriaMeaning | src/main/java/br/com/fabioprada/financial/service/TransactionService.java:42-64 | The conjunction of the predicates built for a filter holds exactly for the transactions the filter describes. |
| TransactionService.DeleteById | src/main/java/br/com/fabioprada/financial/service/TransactionService.java:127-130 | Exactly the record with that id owned by the current user is removed. Every other record stays, and without a user nothing changes. |
| TransactionService.DeleteMultiple | src/main/java/br/com/fabioprada/financial/service/TransactionService.java:132-139 | Deleting the ids one by one removes exactly the listed records the current user owns. Without a user nothing changes. |
| TransactionService.DeleteMultipleMeaning | src/main/java/br/com/fabioprada/financial/service/TransactionService.java:132-139 | A record survives exactly when it was stored and is not one of the user's own records with a listed id. |
| Ownership.RemoveOwnedTwice | src/main/java/br/com/fabioprada/financial/service/TransactionService.java:135-137 | Deleting one batch of ids and then another is the same as deleting both at once. |
| AccountService.SaveAccount | src/main/java/br/com/fabioprada/financial/service/AccountService.java:37-61 | Without a user, save fails; otherwise the account is saved with the user set. A new account's current balance is its initial balance. An id with no stored account fails with "not found". |
| AccountService.AdjustedBalance | src/main/java/br/com/fabioprada/financial/service/AccountService.java:46-54 | The adjustment fails, as the `NullPointerException` would, exactly when a balance it dereferences is null: either initial balance, or the stored current balance when the initial balance changed. |
| AccountService.BalanceOffsetPreserved | src/main/java/br/com/fabioprada/financial/service/AccountService.java:46-54 | An edit keeps current minus initial balance. An unchanged initial balance, compared by value, keeps the current balance. |
| AccountService.FindById | src/main/java/br/com/fabioprada/financial/service/AccountService.java:43-44 | The account is looked up by id alone, and is found exactly when a stored account has that id. |
| AccountService.DeleteById | src/main/java/br/com/fabioprada/financial/service/AccountService.java:63-66 | Only the current user's account with that id is removed. Without a user nothing changes. |
| DashboardService.GetMonthlySummaries | src/main/java/br/com/fabioprada/financial/service/DashboardService.java:32-55 | A principal that is not a user, or a user without an id, gives the empty map. Otherwise the map has the keys "previous", "current" and "next", summarising today's year-month, the one before and the one after. |
| DashboardService.SummaryMonths | src/main/java/br/com/fabioprada/financial/service/DashboardService.java:38-51 | The previous and next months wrap across year boundaries: December is followed by January of the next year, and January is preceded by December of the previous year. |
| DashboardService.InMonth | src/main/java/br/com/fabioprada/financial/service/DashboardService.java:70 | The month's transactions are the user's records dated in that year-month. A single stored record gives itself when it qualifies and nothing otherwise. |
| DashboardService.PlanningsInMonth | src/main/java/br/com/fabioprada/financial/service/DashboardService.java:71 | The month's plannings are the user's plannings for that year and month. A single stored planning gives itself when it qualifies and nothing otherwise. |
| DashboardService.InMonthAppend | src/main/java/br/com/fabioprada/financial/service/DashboardService.java:70 | Selecting the month's transactions distributes over concatenation, so each stored record counts once and in store order. |
| DashboardService.PlanningsInMonthAppend | src/main/java/br/com/fabioprada/financial/service/DashboardService.java:71 | Selecting the month's plannings distributes over concatenation, so each stored planning counts once toward the budget. |
| DashboardService.IncomeCounts | src/main/java/br/com/fabioprada/financial/service/DashboardService.java:73-76 | An ENTRADA record adds its amount to the income and leaves spending and budget alone. |
| DashboardService.SpendingCounts | src/main/java/br/com/fabioprada/financial/service/DashboardService.java:78-81 | A SAIDA record adds its amount to the spending and leaves income and budget alone. |
| DashboardService.OtherTypesIgnored | src/main/java/br/com/fabioprada/financial/service/DashboardService.java:73-81 | CARTAO, MOVIMENTACAO and untyped records change no total. |
| DashboardService.BudgetCounts | src/main/java/br/com/fabioprada/financial/service/DashboardService.java:83-85 | A planning adds its estimated amount to the budget. A planning without one makes the summary fail. |
| DashboardService.EmptyMonth | src/main/java/br/com/fabioprada/financial/service/DashboardService.java:73-85 | A month with no records and no plannings has three zero totals. |
| DashboardService.Summarize | src/main/java/br/com/fabioprada/financial/service/DashboardService.java:73-89 | A summary exists exactly when every summed amount is non-null. It is labelled with its month. |
| Calendar.NextAndPreviousMonth | src/main/java/br/com/fabioprada/financial/service/DashboardService.java:40-41 | `plusMonths(1)` and `minusMonths(1)` step one month and wrap the year. |
| Calendar.PlusMinusMonths | src/main/java/br/com/fabioprada/financial/service/DashboardService.java:40-41 | Adding n months and taking n away are inverse to each other. |
| TransactionChart.WindowStart | frontend/src/components/TransactionChart.jsx:10-29 | The window start is a valid date. For "Max" it is the epoch. For every other range it keeps the current time of day. |
| TransactionChart.WeekStart | frontend/src/components/TransactionChart.jsx:15-17 | For "1S" the start is seven days before today. |
| TransactionChart.MonthStartDay | frontend/src/components/TransactionChart.jsx:18-20 | For "1M" and unknown ranges, the start is the same day of the previous month whenever that month has the day. |
| TransactionChart.MonthStartBefore | frontend/src/components/TransactionChart.jsx:18-29 | For "1M" and unknown ranges, the start is before today even when the day overflows the previous month and rolls forward. |
| TransactionChart.YearStart | frontend/src/components/TransactionChart.jsx:21-23 | For "1A" the start is the same date a year earlier, and 29 February moves to 1 March. The start is before today. |
| TransactionChart.DayOfIsoText | frontend/src/components/TransactionChart.jsx:32-36 | A `YYYY-MM-DD` date string with a year from 100 to 9999 is read as exactly that local date. Years 0 to 99 are not: the `Date` constructor reads them as 1900 to 1999. |
| TransactionChart.Windowed | frontend/src/components/TransactionChart.jsx:31-41 | Exactly the readable transactions dated within [start, now] are kept, each with its classification and amount. A single transaction gives its entry when it is readable and in the window, and nothing otherwise. |
| TransactionChart.WindowedAppend | frontend/src/components/TransactionChart.jsx:31-41 | Windowing distributes over concatenation, so every transaction counts once and in input order, equal ones included. |
| TransactionChart.ChartData | frontend/src/components/TransactionChart.jsx:7-86 | Missing or empty input gives no points. Otherwise there is one point per date with a transaction, in strictly ascending order. Each point holds the running income, expense and transfer totals up to its date. The last point holds the window's totals. |
| TransactionChart.ChartForRange | frontend/src/components/TransactionChart.jsx:4-87 | The chart for a time range is the chart of the window that range selects. |
| TransactionChart.GroupDates | frontend/src/components/TransactionChart.jsx:43-65 | Grouping produces one bucket per distinct date, for exactly the dates present. |
| TransactionChart.GroupValues | frontend/src/components/TransactionChart.jsx:57-63 | Each bucket holds its date's income, expense and transfer totals. ENTRADA counts as income, SAIDA and CARTAO as expense, MOVIMENTACAO as transfer, and other types count nowhere. |
| TransactionChart.SortByDateCorrect | frontend/src/components/TransactionChart.jsx:67-68 | Sorting orders the buckets by strictly ascending date and keeps each series' total. |
| TransactionChart.Cumulate | frontend/src/components/TransactionChart.jsx:70-86 | Point k keeps bucket k's date, and its value in each series is the sum of that series over buckets 0..k. |
| TransactionChart.RunningTotalsGrow | frontend/src/components/TransactionChart.jsx:75-86 | With non-negative amounts, each series never decreases from one point to the next. |
| TransactionChart.OrderedDays | frontend/src/components/TransactionChart.jsx:43-68 | After grouping and sorting, the dates ascend, exactly the window's days are present, each day holds its totals, and each series' total is kept. |
| TransactionFilters.InitialFilters | frontend/src/hooks/useTransactionFilters.js:4-10 | The initial state has exactly the five fields, each taken from the initial filters or "". |
| TransactionFilters.HandleChange | frontend/src/hooks/useTransactionFilters.js:12-14 | A change sets that field to the value and leaves every other field as it was. |
| TransactionFilters.ClearFilters | frontend/src/hooks/useTransactionFilters.js:16-24 | Clearing leaves the five fields, all empty. |
| TransactionFilters.GetFilterParams | frontend/src/hooks/useTransactionFilters.js:26-34 | A parameter is sent exactly for each of the five fields that is non-empty, carrying its value verbatim. |
| TransactionFilters.ClearedSendsNothing | frontend/src/hooks/useTransactionFilters.js:16-34 | After clearing no parameter is sent. |
| TransactionFilters.ChangeParams | frontend/src/hooks/useTransactionFilters.js:12-34 | Changing a field changes only its parameter: a non-empty value is sent as given, and an empty value drops the parameter. |
| TransactionFilters.UnknownFieldNotSent | frontend/src/hooks/useTransactionFilters.js:12-34 | A field outside the five is kept in the state but never sent. |
| Selection.HandleSelect | frontend/src/hooks/useSelection.js:6-16 | Selecting toggles membership of that id and leaves every other id as it was. |
| Selection.ToggleTwice | frontend/src/hooks/useSelection.js:6-16 | Toggling the same id twice restores the selection. |
| Selection.HandleSelectAll | frontend/src/hooks/useSelection.js:18-24 | Checking selects exactly the shown ids, and unchecking selects nothing. |
| Selection.ClearedIsNotAll | frontend/src/hooks/useSelection.js:26-33 | After clearing, the header box is not checked. |
| Selection.SelectAllSelectsAll | frontend/src/hooks/useSelection.js:18-33 | Select-all over distinct ids checks the header box, whether the test is by contents or by size. |
| Selection.SelectAllThenDeselect | frontend/src/hooks/useSelection.js:6-33 | Select-all over N distinct ids followed by one deselect leaves N-1 selected and the header box unchecked. |
| Selection.SizeTestAgrees | frontend/src/hooks/useSelection.js:30-33 | While the selection holds only shown ids and no id is shown twice, the size test agrees with "every shown row is selected". |
| Selection.StaleSelectionFoolsSizeTest | frontend/src/hooks/useSelection.js:30-33 | After a reload, a selection of stale ids of the right size passes the size test although a shown row is unselected. |
| Crud.ErrorMessage | frontend/src/hooks/useCrud.js:31 | The message is the server's when it is non-empty, else the error's own when that is non-empty, else the fixed default. |
| Crud.FetchItems | frontend/src/hooks/useCrud.js:9-21 | A successful fetch replaces the list and clears the error. A failed fetch keeps the list and sets the fetch message. Loading ends either way. |
| Crud.AddItem | frontend/src/hooks/useCrud.js:23-35 | Success appends the returned item at the end and returns null. Failure keeps the list and both sets and returns a non-empty message. |
| Crud.UpdateItem | frontend/src/hooks/useCrud.js:37-49 | Success replaces every item with that id by the response and keeps the others and the length. Failure keeps the list. |
| Crud.UpdateIdempotent | frontend/src/hooks/useCrud.js:37-41 | Applying the same update twice gives the state one update gives. |
| Crud.DeleteItem | frontend/src/hooks/useCrud.js:51-66 | A declined dialog changes nothing and returns null. A confirmed, successful delete removes exactly the items with that id. A failure keeps the list and returns a non-empty message. |
| Crud.DeleteMultipleItems | frontend/src/hooks/useCrud.js:68-85 | A confirmed success removes exactly the listed ids, and neither the error nor loading changes. A failure returns the error object with the state unchanged. |
| Crud.Without | frontend/src/hooks/useCrud.js:74 | The kept items are exactly the listed items whose id is not to be deleted. |
| Crud.WithoutAppend | frontend/src/hooks/useCrud.js:74 | Filtering keeps the order of the remaining items. |
| Crud.AddThenDelete | frontend/src/hooks/useCrud.js:23-66 | Adding an item with a new id and then deleting that id restores the list. |
| Crud.DeleteMultipleAsSingles | frontend/src/hooks/useCrud.js:51-85 | Deleting two ids at once leaves the list that deleting them one after the other leaves. |
| TransactionForm.NewForm | frontend/src/components/TransactionForm.jsx:5-12 | A new form has an empty name, amount, category and account, type SAIDA, and today's date as ISO text. |
| TransactionForm.EditForm | frontend/src/components/TransactionForm.jsx:27-35 | In edit mode the account is the out-account's id, else the in-account's, else "". The category is the category's id, else "". |
| TransactionForm.Load | frontend/src/components/TransactionForm.jsx:17-46 | A failed load keeps the form and sets the load message. In edit mode the form is filled from the transaction. A new form defaults to the first account when there is one. |
| TransactionForm.HandleChange | frontend/src/components/TransactionForm.jsx:48-51 | A change sets exactly the named field. |
| TransactionForm.Submit | frontend/src/components/TransactionForm.jsx:53-81 | Submission is refused with "Please fill in all fields." exactly when one of the five fields is empty. Otherwise the payload carries `category {id}` and one account side, out for SAIDA and in for every other type. The request is a PUT to `/transactions/{id}` exactly when editing a transaction with a non-zero id, and otherwise a POST to `/transactions`. |
| TransactionForm.EditRoundTrip | frontend/src/components/TransactionForm.jsx:27-81 | Submitting an untouched edit form of a complete transaction sends it back by PUT with its own name, amount, date, type, category and account. |
| TransactionForm.OutAccountMovesIn | frontend/src/components/TransactionForm.jsx:34-69 | Editing a non-SAIDA transaction that had an out-account resubmits that account as the in-account. |
| TransactionForm.TypeChoiceDecidesSide | frontend/src/components/TransactionForm.jsx:48-69 | Choosing a type decides the side: out exactly for SAIDA. |
| TransactionForm.UntouchedNewFormRefused | frontend/src/components/TransactionForm.jsx:5-60 | A freshly loaded new form cannot be submitted until it is filled in. |
| TransactionForm.ZeroAmountRefused | frontend/src/components/TransactionForm.jsx:57-60 | An amount of 0 or "" is refused as empty. |
| TransactionForm.SaveErrorMessage | frontend/src/components/TransactionForm.jsx:83-86 | A failed save shows the server's message when it is non-empty, and otherwise the fixed default. |
| TransactionList.ListView | frontend/src/components/TransactionList.jsx:14-24 | Missing or empty input shows the empty-state message. Otherwise at most five rows are shown, each one of the input's transactions. |
| TransactionList.ShowsNewest | frontend/src/components/TransactionList.jsx:20 | The shown transactions are ordered newest first, are drawn from the input, and are no older than any transaction left out. |
| TransactionList.SortIsNewestFirst | frontend/src/components/TransactionList.jsx:20 | The copy is sorted by creation date, newest first, and is a permutation of the input. |
| TransactionList.DayStampOrder | frontend/src/components/TransactionList.jsx:20 | The sort key orders valid dates as the calendar does, and equal keys mean equal dates. |
| TransactionList.RowOf | frontend/src/components/TransactionList.jsx:30-46 | A row gets "- " exactly for SAIDA and "+ " otherwise. Its tone is success exactly for ENTRADA and danger exactly for SAIDA. A row never shows an empty category label, and a missing date shows no day. |
| TransactionList.CardExpenseListedWithPlus | frontend/src/components/TransactionList.jsx:42-46 | A CARTAO purchase, which the chart counts as an expense, is listed with "+ " and the info tone. |

## Left out

- HTTP, controllers, repositories and the Spring Security context. The stored records and the current user are parameters.
- JPA paging (`Pageable`, `Page`). The search returns every match, in stored order.
- The SQL `LIKE` pattern built from the name filter. A `%` or `_` typed by the user is a wildcard in SQL. Here it matches only itself.
- `TransactionService.DeleteMultiple`: a null id in the list is not modelled, because ids are integers here.
- SaveInstallments: the loop counter `i` of `for (int i = 2; i <= transaction.getTotalInstallments(); i++)` is unbounded here. When `totalInstallments` is `Integer.MAX_VALUE`, `i <= Integer.MAX_VALUE` always holds in Java. `i++` then wraps to `Integer.MIN_VALUE` and the loop never ends, while the model returns that many records.
- Apache POI I/O: byte streams, workbook creation and closing, logging to standard output, and the `IOException` paths. Whether a numeric cell is date-formatted is an input flag of the cell.
- `Double.toString` in E-notation, for magnitudes below 10^-3 or at least 10^7. Values are exact decimals and always render in plain notation, as Java renders values between those bounds.
- Floating point in general. JavaScript numbers, `parseFloat`, `BigDecimal.valueOf(double)` and `+=` on amounts are exact decimal arithmetic here. A parsed double keeps its exact decimal value. Binary rounding, overflow to infinity and underflow to zero are not modelled.
- JavaNumbers.ParseDouble: hexadecimal floating-point text such as `0x1p3` is not read and counts as no number, because its binary exponent is outside the decimal model.
- JavaNumbers.ParseBigDecimal: a positive exponent that would make the scale negative gives the same value at scale 0, because scales are natural numbers here. So `1E+3` is 1000 with scale 0, while Java keeps unscaled 1 with scale -3. Non-ASCII Unicode digits, which `new BigDecimal` also accepts, are not read.
- `Planning.getPlannedValue()`: only a controller reads it. The dashboard uses `MonthlyPlanning.getPlannedValue()`, which is modelled.
- TransactionForm.ParseFloat: the text is trimmed first, and then read only when all of it is a plain decimal numeral. The trim is Java's: it drops every character up to `' '` at both ends, control characters included. `parseFloat` skips only leading JavaScript whitespace, which includes the no-break space and other Unicode spaces but not control characters. `parseFloat` also accepts a numeric prefix followed by junk, exponents and "Infinity", and those are not modelled.
- Text.ToLower: folds ASCII and Latin-1 letters only, because Java's and SQL's full Unicode case tables are out of scope.
- The three-argument `findByYearAndMonth` query is not part of this model. The month's transactions are the user's records dated in that year-month, as the calling service asks.
- The "yyyy-MMMM" month title, `Intl.NumberFormat`, `toLocaleDateString` and other locale formatting. These are presentation only.
- Time zones and daylight saving. A `Date` is a local calendar date plus the milliseconds since local midnight. `new Date(0)` is taken as midnight of 1 January 1970 local time.
- The chart's `now` and `startDate` come from two `new Date()` calls. They are taken as one instant.
- The wall clock (`LocalDate.now()`, `new Date()`, `toISOString`). Today's date and the current moment are parameters. The new form's date is taken as a local date, although `toISOString` gives the UTC date.
- `new Date(text)` for strings that are not `YYYY-MM-DD`. Such a transaction counts as unreadable and is left out of the chart.
- TransactionList.ListView: requires every creation date to be a readable `YYYY-MM-DD` date, because the comparator's behaviour on `NaN` dates is not modelled.
- The order among same-date transactions in the list and the chart. The list is sorted by an insertion sort whose tie order need not match the browser's.
- JavaScript's strict equality between ids of different types. An id is an integer on both sides of `item.id === id`.
- The contents of the categories list the form loads. It only feeds the drop-down.
- The intermediate `loading` states of `useCrud`. Each operation is modelled by the state after its promise settles.
- `UserService`, `CategoryService`, `MonthlyPlanningService`, authentication, toasts, pages and presentational components. They are framework glue or rendering only.

## Findings

| source | as written | input that shows it | evidently intended | confidence | as-written member | corrected member |
|---|---|---|---|---|---|---|
| frontend/src/hooks/useSelection.js:30-33 | The header box counts as checked when the number of selected ids equals the number of shown items. | Select-all over rows 1 and 3. The list then reloads with rows 1 and 2. The selection {1, 3} has size 2, so the box shows checked although row 2 is unselected. | The box is checked exactly when every shown row is selected. | not executed | Selection.StaleSelectionFoolsSizeTest | Selection.SizeTestAgrees |

=== FILE: account_service.dfy ===
/** `AccountService`: saving an account, which keeps its current balance in
    step with edits of its initial balance, and owner-scoped deletion. The
    repository is the sequence of stored accounts and the authenticated user
    a parameter. */
module AccountService {
  import opened Wrappers
  import opened Decimals
  import opened Domain
  import opened Ownership

  /** `accountRepository.findById(id)`: the stored account with that id,
      whoever owns it. */
  function FindById(stored: seq<Account>, id: int): (r: Option<Account>)
    ensures r.Some? ==> r.value in stored && r.value.id == Some(id)
    ensures r.None? <==> forall i :: 0 <= i < |stored| ==> stored[i].id != Some(id)
  {
    if |stored| == 0 then None
    else if stored[0].id == Some(id) then Some(stored[0])
    else
      var rest := FindById(stored[1..], id);
      assert forall i :: 1 <= i < |stored| ==> stored[i] == stored[1..][i - 1];
      rest
  }

  /** The current balance `save` gives an edited account whose stored version
      is `existing`; `None` inside is a null balance, and an outer `None` a
      NullPointerException. */
  function AdjustedBalance(existing: Account, edited: Account): (r: Option<Option<Decimal>>)
    ensures r.None? <==>
      existing.initialBalance.None? || edited.initialBalance.None?
      || (!SameValue(existing.initialBalance.value, edited.initialBalance.value) && existing.currentBalance.None?)
  {
    match (existing.initialBalance, edited.initialBalance)
    case (Some(oldInitial), Some(newInitial)) =>
      if !SameValue(oldInitial, newInitial) then
        match existing.currentBalance
        case Some(current) => Some(Some(Add(current, Subtract(newInitial, oldInitial))))
        case None => None
      else
        Some(existing.currentBalance)
    case _ => None
  }

  /** `save`: the account written. It throws without an authenticated user,
      and for an id with no stored account. Apart from the owner and the
      current balance the account is written as submitted. */
  function SaveAccount(user: Option<UserId>, stored: seq<Account>, a: Account): (r: Result<Account, ServiceError>)
    ensures user.None? ==> r == Failure(NotAuthenticated)
    ensures r.Success? ==> r.value == a.(user := user, currentBalance := r.value.currentBalance)
    ensures user.Some? && a.id.None? ==> r.Success? && r.value.currentBalance == a.initialBalance
    ensures user.Some? && a.id.Some? && FindById(stored, a.id.value).None? ==> r == Failure(NotFound(a.id.value))
    ensures r.Failure? && r.error == NullValue ==> a.id.Some? && FindById(stored, a.id.value).Some?
  {
    match user
    case None => Failure(NotAuthenticated)
    case Some(_) =>
      var owned := a.(user := user);
      match a.id
      case None => Success(owned.(currentBalance := a.initialBalance))
      case Some(id) =>
        match FindById(stored, id)
        case None => Failure(NotFound(id))
        case Some(existing) =>
          match AdjustedBalance(existing, a)
          case None => Failure(NullValue)
          case Some(current) => Success(owned.(currentBalance := current))
  }

  /** Editing an account keeps the difference between its current and its
      initial balance: the current balance moves by exactly as much as the
      initial balance was changed, and stays as it was when the initial
      balance keeps its value. */
  lemma BalanceOffsetPreserved(user: Option<UserId>, stored: seq<Account>, a: Account, existing: Account)
    requires a.id.Some? && FindById(stored, a.id.value) == Some(existing)
    requires SaveAccount(user, stored, a).Success?
    requires existing.currentBalance.Some?
    ensures var saved := SaveAccount(user, stored, a).value;
      && saved.currentBalance.Some? && saved.initialBalance.Some? && existing.initialBalance.Some?
      && SameValue(Subtract(saved.currentBalance.value, saved.initialBalance.value),
                   Subtract(existing.currentBalance.value, existing.initialBalance.value))
    ensures var saved := SaveAccount(user, stored, a).value;
      SameValue(existing.initialBalance.value, a.initialBalance.value) ==> saved.currentBalance == existing.currentBalance
  {
    var saved := SaveAccount(user, stored, a).value;
    var c, o, n := existing.currentBalance.value, existing.initialBalance.value, a.initialBalance.value;
    var s := Max(Max(c.scale, o.scale), n.scale);
    var lhs := Subtract(saved.currentBalance.value, n);
    var rhs := Subtract(c, o);
    if !SameValue(o, n) {
      var moved := Add(c, Subtract(n, o));
      SubtractScaled(n, o, s);
      AddScaled(c, Subtract(n, o), s);
      SubtractScaled(moved, n, s);
    } else {
      CompareAtScale(o, n, s);
      SubtractScaled(c, n, s);
    }
    SubtractScaled(c, o, s);
    CompareAtScale(lhs, rhs, s);
  }

  function AccountKey(a: Account): Key
  {
    Key(a.id, a.user)
  }

  /** `deleteById`: the store afterwards. Only an account the current user
      owns is deleted; without a user nothing is. */
  function DeleteById(user: Option<UserId>, stored: seq<Account>, id: int): (r: seq<Account>)
    ensures user.None? ==> r == stored
    ensures forall i :: 0 <= i < |r| ==> r[i] in stored && !(r[i].id == Some(id) && user.Some? && r[i].user == user)
    ensures forall i :: 0 <= i < |stored| && !(stored[i].id == Some(id) && user.Some? && stored[i].user == user) ==>
      stored[i] in r
  {
    match user
    case None => stored
    case Some(u) => RemoveOwned(stored, AccountKey, u, {id})
  }
}

=== FILE: calendar.dfy ===
/** Proleptic Gregorian calendar dates as `java.time.LocalDate` and a
    JavaScript local `Date` at day precision see them: month arithmetic
    (`YearMonth.plusMonths`, `LocalDate.plusMonths`), day arithmetic (the
    overflow normalisation of `Date.setDate`/`setMonth`/`setFullYear`),
    ordering, and the ISO text form `yyyy-MM-dd`. */
module Calendar {
  import opened Wrappers
  import opened Text

  datatype Date = Date(year: int, month: int, day: int)

  datatype YearMonth = YearMonth(year: int, month: int)

  predicate IsLeap(year: int)
  {
    year % 4 == 0 && (year % 100 != 0 || year % 400 == 0)
  }

  function DaysInMonth(year: int, month: int): (n: int)
    requires 1 <= month <= 12
    ensures 28 <= n <= 31
  {
    if month == 2 then (if IsLeap(year) then 29 else 28)
    else if month == 4 || month == 6 || month == 9 || month == 11 then 30
    else 31
  }

  predicate ValidYearMonth(ym: YearMonth)
  {
    1 <= ym.month <= 12
  }

  predicate ValidDate(d: Date)
  {
    1 <= d.month <= 12 && 1 <= d.day <= DaysInMonth(d.year, d.month)
  }

  function YearMonthOf(d: Date): YearMonth
  {
    YearMonth(d.year, d.month)
  }

  // ---------------------------------------------------------------------------
  // Month arithmetic

  /** Months elapsed since January of year 0. */
  function MonthIndex(ym: YearMonth): int
  {
    ym.year * 12 + ym.month - 1
  }

  function FromMonthIndex(k: int): (ym: YearMonth)
    ensures ValidYearMonth(ym)
    ensures MonthIndex(ym) == k
  {
    YearMonth(k / 12, k % 12 + 1)
  }

  /** A valid year-month is determined by its month index. */
  lemma MonthIndexInjective(a: YearMonth, b: YearMonth)
    requires ValidYearMonth(a) && ValidYearMonth(b)
    requires MonthIndex(a) == MonthIndex(b)
    ensures a == b
  {
    assert a.year * 12 + (a.month - 1) == b.year * 12 + (b.month - 1);
    assert (a.year - b.year) * 12 == b.month - a.month;
  }

  /** `YearMonth.plusMonths(n)`: the year rolls over past December and back
      past January. */
  function PlusMonths(ym: YearMonth, n: int): (r: YearMonth)
    ensures ValidYearMonth(r)
  {
    FromMonthIndex(MonthIndex(ym) + n)
  }

  /** `YearMonth.minusMonths(n)`. */
  function MinusMonths(ym: YearMonth, n: int): (r: YearMonth)
    ensures ValidYearMonth(r)
  {
    PlusMonths(ym, -n)
  }

  /** Going forward and back the same number of months returns to the start. */
  lemma PlusMinusMonths(ym: YearMonth, n: int)
    requires ValidYearMonth(ym)
    ensures MinusMonths(PlusMonths(ym, n), n) == ym
    ensures PlusMonths(MinusMonths(ym, n), n) == ym
  {
    MonthIndexInjective(MinusMonths(PlusMonths(ym, n), n), ym);
    MonthIndexInjective(PlusMonths(MinusMonths(ym, n), n), ym);
  }

  /** The month after a month: the next month of the same year, or January of
      the next year after December; and symmetrically for the month before. */
  lemma NextAndPreviousMonth(ym: YearMonth)
    requires ValidYearMonth(ym)
    ensures PlusMonths(ym, 1) == if ym.month == 12 then YearMonth(ym.year + 1, 1) else YearMonth(ym.year, ym.month + 1)
    ensures MinusMonths(ym, 1) == if ym.month == 1 then YearMonth(ym.year - 1, 12) else YearMonth(ym.year, ym.month - 1)
  {
    var next := if ym.month == 12 then YearMonth(ym.year + 1, 1) else YearMonth(ym.year, ym.month + 1);
    var previous := if ym.month == 1 then YearMonth(ym.year - 1, 12) else YearMonth(ym.year, ym.month - 1);
    MonthIndexInjective(PlusMonths(ym, 1), next);
    MonthIndexInjective(MinusMonths(ym, 1), previous);
  }

  function Min(a: int, b: int): int
  {
    if a < b then a else b
  }

  /** `LocalDate.plusMonths(n)`: move the year-month, keep the day of month,
      and clamp it to the last day of the target month. */
  function DatePlusMonths(d: Date, n: int): (r: Date)
    requires ValidDate(d)
    ensures ValidDate(r)
    ensures YearMonthOf(r) == PlusMonths(YearMonthOf(d), n)
    ensures r.day <= d.day
    ensures r.day == d.day || r.day == DaysInMonth(r.year, r.month)
    ensures d.day <= 28 ==> r.day == d.day
  {
    var ym := PlusMonths(YearMonthOf(d), n);
    Date(ym.year, ym.month, Min(d.day, DaysInMonth(ym.year, ym.month)))
  }

  /** Moving a date by zero months leaves it where it is. */
  lemma DatePlusZeroMonths(d: Date)
    requires ValidDate(d)
    ensures DatePlusMonths(d, 0) == d
  {
    MonthIndexInjective(PlusMonths(YearMonthOf(d), 0), YearMonthOf(d));
  }

  // ---------------------------------------------------------------------------
  // Ordering (chronological = lexicographic on year, month, day)

  predicate Before(a: Date, b: Date)
  {
    a.year < b.year
    || (a.year == b.year && a.month < b.month)
    || (a.year == b.year && a.month == b.month && a.day < b.day)
  }

  predicate AtMost(a: Date, b: Date)
  {
    a == b || Before(a, b)
  }

  /** Chronological order is a strict total order. */
  lemma BeforeTotalOrder(a: Date, b: Date, c: Date)
    ensures !Before(a, a)
    ensures Before(a, b) && Before(b, c) ==> Before(a, c)
    ensures a == b || Before(a, b) || Before(b, a)
    ensures !(Before(a, b) && Before(b, a))
  {
  }

  // ---------------------------------------------------------------------------
  // Day arithmetic

  function NextDay(d: Date): (r: Date)
    requires ValidDate(d)
    ensures ValidDate(r)
    ensures Before(d, r)
  {
    if d.day < DaysInMonth(d.year, d.month) then Date(d.year, d.month, d.day + 1)
    else if d.month < 12 then Date(d.year, d.month + 1, 1)
    else Date(d.year + 1, 1, 1)
  }

  function PreviousDay(d: Date): (r: Date)
    requires ValidDate(d)
    ensures ValidDate(r)
    ensures Before(r, d)
  {
    if d.day > 1 then Date(d.year, d.month, d.day - 1)
    else if d.month > 1 then Date(d.year, d.month - 1, DaysInMonth(d.year, d.month - 1))
    else Date(d.year - 1, 12, 31)
  }

  /** Nothing lies strictly between a day and the next one. */
  lemma NextDayAdjacent(d: Date, e: Date)
    requires ValidDate(d) && ValidDate(e)
    ensures Before(d, e) <==> AtMost(NextDay(d), e)
  {
  }

  lemma NextPreviousInverse(d: Date)
    requires ValidDate(d)
    ensures PreviousDay(NextDay(d)) == d
    ensures NextDay(PreviousDay(d)) == d
  {
  }

  /** The date `n` days after (or, for negative `n`, before) `d`. */
  function AddDays(d: Date, n: int): (r: Date)
    requires ValidDate(d)
    ensures ValidDate(r)
    decreases if n < 0 then -n else n
  {
    if n == 0 then d
    else if n > 0 then AddDays(NextDay(d), n - 1)
    else AddDays(PreviousDay(d), n + 1)
  }

  /** Moving forward lands later, moving back lands earlier. */
  lemma {:induction false} AddDaysOrder(d: Date, n: int)
    requires ValidDate(d)
    ensures n > 0 ==> Before(d, AddDays(d, n))
    ensures n < 0 ==> Before(AddDays(d, n), d)
    decreases if n < 0 then -n else n
  {
    if n > 1 {
      AddDaysOrder(NextDay(d), n - 1);
      BeforeTotalOrder(d, NextDay(d), AddDays(d, n));
    } else if n < -1 {
      AddDaysOrder(PreviousDay(d), n + 1);
      BeforeTotalOrder(AddDays(d, n), PreviousDay(d), d);
    }
  }

  /** Days forward then back again (or back then forward) return to the start. */
  lemma {:induction false} AddDaysInverse(d: Date, n: int)
    requires ValidDate(d)
    ensures AddDays(AddDays(d, n), -n) == d
    decreases if n < 0 then -n else n
  {
    if n > 0 {
      AddDaysInverse(NextDay(d), n - 1);
      AddDaysBackStep(AddDays(d, n), n);
      NextPreviousInverse(d);
    } else if n < 0 {
      AddDaysInverse(PreviousDay(d), n + 1);
      AddDaysForwardStep(AddDays(d, n), -n);
      NextPreviousInverse(d);
    }
  }

  /** Taking the last backward step first. */
  lemma {:induction false} AddDaysBackStep(d: Date, n: int)
    requires ValidDate(d) && n > 0
    ensures AddDays(d, -n) == PreviousDay(AddDays(d, -(n - 1)))
    decreases n
  {
    if n > 1 {
      AddDaysBackStep(PreviousDay(d), n - 1);
    }
  }

  /** Taking the last forward step first. */
  lemma {:induction false} AddDaysForwardStep(d: Date, n: int)
    requires ValidDate(d) && n > 0
    ensures AddDays(d, n) == NextDay(AddDays(d, n - 1))
    decreases n
  {
    if n > 1 {
      AddDaysForwardStep(NextDay(d), n - 1);
    }
  }

  /** Starting a day later is one step more. */
  lemma AddDaysAfterNext(d: Date, n: int)
    requires ValidDate(d)
    ensures AddDays(NextDay(d), n) == AddDays(d, n + 1)
  {
    if n < 0 {
      NextPreviousInverse(d);
    }
  }

  /** Starting a day earlier is one step less. */
  lemma AddDaysAfterPrevious(d: Date, n: int)
    requires ValidDate(d)
    ensures AddDays(PreviousDay(d), n) == AddDays(d, n - 1)
  {
    if n > 0 {
      NextPreviousInverse(d);
    }
  }

  /** Moving by `a` days and then by `b` days is moving by `a + b` days. */
  lemma {:induction false} AddDaysAdd(d: Date, a: int, b: int)
    requires ValidDate(d)
    ensures AddDays(AddDays(d, a), b) == AddDays(d, a + b)
    decreases if a < 0 then -a else a
  {
    if a > 0 {
      AddDaysAdd(NextDay(d), a - 1, b);
      AddDaysAfterNext(d, a - 1 + b);
    } else if a < 0 {
      AddDaysAdd(PreviousDay(d), a + 1, b);
      AddDaysAfterPrevious(d, a + 1 + b);
    }
  }

  /** The first day of a month. */
  function FirstOf(ym: YearMonth): (d: Date)
    requires ValidYearMonth(ym)
    ensures ValidDate(d)
  {
    Date(ym.year, ym.month, 1)
  }

  /** A JavaScript local `Date` built from a year, a month and a day of month
      that may overflow: `new Date(y, m - 1, day)`, and what `setDate`,
      `setMonth` and `setFullYear` leave after normalising. Day 0 is the last
      day of the previous month, day 32 of a 31-day month the first of the
      next, and so on. */
  function LocalDate(ym: YearMonth, day: int): (d: Date)
    requires ValidYearMonth(ym)
    ensures ValidDate(d)
  {
    AddDays(FirstOf(ym), day - 1)
  }

  /** An in-range day of month needs no normalisation. */
  lemma {:induction false} LocalDateInRange(ym: YearMonth, day: int)
    requires ValidYearMonth(ym) && 1 <= day <= DaysInMonth(ym.year, ym.month)
    ensures LocalDate(ym, day) == Date(ym.year, ym.month, day)
    decreases day
  {
    if day > 1 {
      LocalDateInRange(ym, day - 1);
      AddDaysForwardStep(FirstOf(ym), day - 1);
    }
  }

  /** The day after a month's last day is the first of the next month. */
  lemma NextMonthFirst(ym: YearMonth)
    requires ValidYearMonth(ym)
    ensures AddDays(FirstOf(ym), DaysInMonth(ym.year, ym.month)) == FirstOf(PlusMonths(ym, 1))
  {
    var length := DaysInMonth(ym.year, ym.month);
    LocalDateInRange(ym, length);
    AddDaysForwardStep(FirstOf(ym), length);
    NextAndPreviousMonth(ym);
  }

  /** The same day of month, normalised, falls earlier in a month than in the
      month after it. */
  lemma MonthEarlier(ym: YearMonth, day: int)
    requires ValidYearMonth(ym)
    ensures Before(LocalDate(ym, day), LocalDate(PlusMonths(ym, 1), day))
  {
    var first, length := FirstOf(ym), DaysInMonth(ym.year, ym.month);
    NextMonthFirst(ym);
    AddDaysOrder(LocalDate(ym, day), length);
    AddDaysAdd(first, day - 1, length);
    AddDaysAdd(first, length, day - 1);
  }

  /** `new Date(0)` read as a local calendar date (time zones are not modelled). */
  const Epoch := Date(1970, 1, 1)

  // ---------------------------------------------------------------------------
  // ISO text form, as `LocalDate.toString()` writes and `LocalDate.parse` reads.

  /** `n` written with at least `width` digits. */
  function Digits(n: nat, width: nat): string
  {
    PadLeft(NatToString(n), width)
  }

  lemma DigitsFixedWidth(n: nat, width: nat)
    requires 1 <= width && n < Pow10(width)
    ensures |Digits(n, width)| == width
    ensures AllDigits(Digits(n, width))
    ensures ParseDigits(Digits(n, width)) == n
  {
    NatToStringLength(n, width);
    PadLeftDigits(NatToString(n), width);
    ParseNatToString(n);
  }

  /** The year as `LocalDate.toString()` writes it: at least four digits; a
      negative year takes a '-' and a year past 9999 a '+'. */
  function IsoYearText(year: int): string
  {
    var y := if year < 0 then -year else year;
    var sign := if year < 0 then "-" else if year > 9999 then "+" else "";
    sign + Digits(y, 4)
  }

  /** `LocalDate.toString()`: the year, then two-digit month and day. */
  function FormatIso(d: Date): string
  {
    IsoYearText(d.year) + "-" + Digits(if d.month < 0 then 0 else d.month, 2)
      + "-" + Digits(if d.day < 0 then 0 else d.day, 2)
  }

  /** The largest year a `LocalDate` holds (`Year.MAX_VALUE`); the smallest
      is its negation. */
  const MaxLocalYear := 999_999_999

  /** A date `LocalDate` can represent: a real calendar day in its year range. */
  predicate IsLocalDate(d: Date)
  {
    ValidDate(d) && -MaxLocalYear <= d.year <= MaxLocalYear
  }

  /** The year field of `ISO_LOCAL_DATE` (four to ten digits, sign style
      EXCEEDS_PAD, strict): four digits unsigned; a '+' only before more than
      four digits, which then require it; a '-' before four or more digits,
      but not before zero. */
  function ParseIsoYear(s: string): (y: Option<int>)
    ensures y.Some? && |s| > 0 && s[0] == '+' ==> y.value >= 0 && |s| > 5
    ensures y.Some? && |s| > 0 && s[0] == '-' ==> y.value < 0
    ensures y.Some? && |s| > 0 && IsDigit(s[0]) ==> 0 <= y.value <= 9999 && |s| == 4
  {
    if |s| > 0 && (s[0] == '+' || s[0] == '-') then
      var ds := s[1..];
      if AllDigits(ds) && 4 <= |ds| <= 10 then
        ParseDigitsBound(ds);
        var n: int := ParseDigits(ds);
        if s[0] == '+' && |ds| > 4 then Some(n)
        else if s[0] == '-' && n != 0 then Some(-n)
        else None
      else None
    else if |s| == 4 && AllDigits(s) then
      ParseDigitsBound(s);
      assert Pow10(4) == 10000;
      Some(ParseDigits(s))
    else None
  }

  /** `LocalDate.parse(s)` (`ISO_LOCAL_DATE`, strict): a year, '-', two month
      digits, '-', two day digits. `None` is the DateTimeParseException, also
      raised for a day that does not exist and for a year out of range. */
  function ParseIso(s: string): (r: Option<Date>)
    ensures r.Some? ==> IsLocalDate(r.value)
  {
    if |s| >= 6 && s[|s| - 6] == '-' && s[|s| - 3] == '-'
      && AllDigits(s[|s| - 5..|s| - 3]) && AllDigits(s[|s| - 2..])
    then
      match ParseIsoYear(s[..|s| - 6])
      case None => None
      case Some(y) =>
        var d := Date(y, ParseDigits(s[|s| - 5..|s| - 3]), ParseDigits(s[|s| - 2..]));
        if IsLocalDate(d) then Some(d) else None
    else
      None
  }

  /** The `yyyy-MM-dd` form alone: four unsigned year digits. This is the
      text the browser side reads as a day. */
  function ParsePlainIso(s: string): (r: Option<Date>)
    ensures r.Some? ==> ValidDate(r.value) && 0 <= r.value.year <= 9999
  {
    if |s| == 10 && s[4] == '-' && s[7] == '-'
      && AllDigits(s[..4]) && AllDigits(s[5..7]) && AllDigits(s[8..])
    then
      var d := Date(ParseDigits(s[..4]), ParseDigits(s[5..7]), ParseDigits(s[8..]));
      ParseDigitsBound(s[..4]);
      assert Pow10(4) == 10000;
      if ValidDate(d) then Some(d) else None
    else
      None
  }

  /** A digit string of length k denotes a number below 10^k. */
  lemma {:induction false} ParseDigitsBound(s: string)
    requires AllDigits(s)
    ensures ParseDigits(s) < Pow10(|s|)
  {
    if |s| > 0 {
      ParseDigitsBound(s[..|s| - 1]);
    }
  }

  /** Every date `LocalDate` can hold is read back from its text unchanged:
      `LocalDate.parse` inverts `LocalDate.toString`. */
  lemma ParseFormatIso(d: Date)
    requires IsLocalDate(d)
    ensures ParseIso(FormatIso(d)) == Some(d)
  {
    var yt, m, dd := IsoYearText(d.year), Digits(d.month, 2), Digits(d.day, 2);
    assert Pow10(2) == 100;
    DigitsFixedWidth(d.month, 2);
    DigitsFixedWidth(d.day, 2);
    IsoYearRoundTrip(d.year);
    IsoTextParts(yt, m, dd);
    assert FormatIso(d) == yt + "-" + m + "-" + dd;
  }

  /** Where `ParseIso` finds the year, month and day of a date text: the last
      six characters hold '-', the month, '-' and the day. */
  lemma IsoTextParts(yt: string, m: string, dd: string)
    requires |m| == 2 && |dd| == 2
    ensures var s := yt + "-" + m + "-" + dd;
      |s| >= 6 && s[|s| - 6] == '-' && s[|s| - 3] == '-'
      && s[..|s| - 6] == yt && s[|s| - 5..|s| - 3] == m && s[|s| - 2..] == dd
  {
    var s := yt + "-" + m + "-" + dd;
    assert s[..|s| - 6] == yt;
    assert s[|s| - 5..|s| - 3] == m;
    assert s[|s| - 2..] == dd by {
      assert s == (yt + "-" + m + "-") + dd;
    }
  }

  /** The year text reads back as the year, for every `LocalDate` year. */
  lemma IsoYearRoundTrip(year: int)
    requires -MaxLocalYear <= year <= MaxLocalYear
    ensures ParseIsoYear(IsoYearText(year)) == Some(year)
  {
    var mag: nat := if year < 0 then -year else year;
    var y := Digits(mag, 4);
    YearDigits(mag);
    var t := IsoYearText(year);
    if year < 0 {
      assert t[0] == '-' && t[1..] == y;
    } else if year > 9999 {
      assert t[0] == '+' && t[1..] == y;
    } else {
      assert t == y && IsDigit(t[0]);
    }
  }

  /** The year digits `toString` writes: at least four, at most nine for a
      `LocalDate` year, more than four exactly past 9999. */
  lemma YearDigits(mag: nat)
    requires mag <= MaxLocalYear
    ensures AllDigits(Digits(mag, 4)) && ParseDigits(Digits(mag, 4)) == mag
    ensures 4 <= |Digits(mag, 4)| <= 9
    ensures |Digits(mag, 4)| > 4 <==> mag > 9999
  {
    PadLeftDigits(NatToString(mag), 4);
    ParseNatToString(mag);
    NatToStringLength(mag, 9);
    NatToStringLength(mag, 4);
    assert Pow10(4) == 10000;
    assert Pow10(9) == 1_000_000_000 by {
      assert Pow10(4) == 10000;
      Pow10Add(4, 5);
      assert Pow10(5) == 100000;
    }
  }

  /** A date with a four-digit year is read back from its text unchanged by
      the four-digit reader. */
  lemma ParsePlainFormatIso(d: Date)
    requires ValidDate(d) && 0 <= d.year <= 9999
    ensures ParsePlainIso(FormatIso(d)) == Some(d)
  {
    assert Pow10(2) == 100 && Pow10(4) == 10000;
    var y, m, dd := Digits(d.year, 4), Digits(d.month, 2), Digits(d.day, 2);
    DigitsFixedWidth(d.year, 4);
    DigitsFixedWidth(d.month, 2);
    DigitsFixedWidth(d.day, 2);
    var s := FormatIso(d);
    assert s == y + "-" + m + "-" + dd;
    assert s[..4] == y && s[5..7] == m && s[8..] == dd;
  }
}

=== FILE: chart.dfy ===
/** The `chartData` computation of `TransactionChart`: keep the transactions
    dated inside the chosen window, classify each amount as income, expense
    or transfer, total the amounts per calendar date, order the dates, and
    turn the per-date totals into running totals. The window start and the
    current moment are parameters. */
module TransactionChart {
  import opened Wrappers
  import opened Text
  import opened Decimals
  import opened Calendar
  import opened Domain

  /** A transaction as the chart receives it: `creationDate` is the JSON text
      (`None` for `null`), `amount` the JSON number (`None` for `null`). */
  datatype ChartTransaction = ChartTransaction(
    creationDate: Option<string>,
    amount: Option<Decimal>,
    transactionType: Option<TransactionType>)

  /** A JavaScript `Date` instant: a local calendar date and the
      milliseconds elapsed since its midnight. */
  datatype Moment = Moment(date: Date, millis: int)

  /** `a <= b` on `Date` objects. */
  predicate NotAfter(a: Moment, b: Moment)
  {
    Calendar.Before(a.date, b.date) || (a.date == b.date && a.millis <= b.millis)
  }

  // ---------------------------------------------------------------------------
  // The window the time range selects

  const WeekRange := "1S"
  const MonthRange := "1M"
  const YearRange := "1A"
  const MaxRange := "Max"

  /** The range shown before the user picks one. */
  const DefaultRange := MonthRange

  /** `startDate`: a copy of the current instant moved back by the range, by
      `setDate`, `setMonth` or `setFullYear` with JavaScript's normalisation
      of a day the target month lacks; `new Date(0)` for "Max"; an unknown
      range is treated as one month. */
  function WindowStart(timeRange: string, now: Moment): (start: Moment)
    requires ValidDate(now.date)
    ensures ValidDate(start.date)
    ensures timeRange == MaxRange ==> start == Moment(Epoch, 0)
    ensures timeRange != MaxRange ==> start.millis == now.millis
  {
    var ym := YearMonthOf(now.date);
    if timeRange == WeekRange then Moment(LocalDate(ym, now.date.day - 7), now.millis)
    else if timeRange == YearRange then Moment(LocalDate(YearMonth(ym.year - 1, ym.month), now.date.day), now.millis)
    else if timeRange == MaxRange then Moment(Epoch, 0)
    else Moment(LocalDate(MinusMonths(ym, 1), now.date.day), now.millis)
  }

  /** A week back is exactly seven days back, across month and year ends. */
  lemma WeekStart(now: Moment)
    requires ValidDate(now.date)
    ensures WindowStart(WeekRange, now).date == AddDays(now.date, -7)
    ensures Calendar.Before(WindowStart(WeekRange, now).date, now.date)
  {
    var ym := YearMonthOf(now.date);
    LocalDateInRange(ym, now.date.day);
    AddDaysAdd(FirstOf(ym), now.date.day - 1, -7);
    AddDaysOrder(now.date, -7);
  }

  /** A month back keeps the day of month when the previous month has it. */
  lemma MonthStartDay(timeRange: string, now: Moment)
    requires ValidDate(now.date)
    requires timeRange != WeekRange && timeRange != YearRange && timeRange != MaxRange
    ensures var prev := MinusMonths(YearMonthOf(now.date), 1);
      now.date.day <= DaysInMonth(prev.year, prev.month) ==>
        WindowStart(timeRange, now).date == Date(prev.year, prev.month, now.date.day)
  {
    var prev := MinusMonths(YearMonthOf(now.date), 1);
    if now.date.day <= DaysInMonth(prev.year, prev.month) {
      LocalDateInRange(prev, now.date.day);
    }
  }

  /** A month back always lands before today, even when the previous month
      lacks the day (the 31st of March goes back to the 3rd of March in a
      common year). */
  lemma MonthStartBefore(timeRange: string, now: Moment)
    requires ValidDate(now.date)
    requires timeRange != WeekRange && timeRange != YearRange && timeRange != MaxRange
    ensures Calendar.Before(WindowStart(timeRange, now).date, now.date)
  {
    var cur := YearMonthOf(now.date);
    PlusMinusMonths(cur, 1);
    MonthEarlier(MinusMonths(cur, 1), now.date.day);
    LocalDateInRange(cur, now.date.day);
  }

  /** A year back keeps the date, except that the 29th of February goes to
      the 1st of March; either way it lands before today. */
  lemma YearStart(now: Moment)
    requires ValidDate(now.date)
    ensures !(now.date.month == 2 && now.date.day == 29) ==>
      WindowStart(YearRange, now).date == Date(now.date.year - 1, now.date.month, now.date.day)
    ensures now.date.month == 2 && now.date.day == 29 ==>
      WindowStart(YearRange, now).date == Date(now.date.year - 1, 3, 1)
    ensures Calendar.Before(WindowStart(YearRange, now).date, now.date)
  {
    var back := YearMonth(now.date.year - 1, now.date.month);
    assert WindowStart(YearRange, now).date == LocalDate(back, now.date.day) by {
      assert YearRange != WeekRange;
    }
    if now.date.day <= DaysInMonth(back.year, back.month) {
      LocalDateInRange(back, now.date.day);
    } else {
      YearBackOverflow(now.date, back);
      LocalDateInRange(back, 28);
      AddDaysForwardStep(FirstOf(back), 28);
    }
  }

  /** Only the 29th of February has no match a year back. */
  lemma YearBackOverflow(d: Date, back: YearMonth)
    requires ValidDate(d) && back == YearMonth(d.year - 1, d.month)
    requires d.day > DaysInMonth(back.year, back.month)
    ensures d.month == 2 && d.day == 29 && DaysInMonth(back.year, 2) == 28
  {
  }

  // ---------------------------------------------------------------------------
  // Reading the date of a transaction

  /** The test `/^\d{4}-\d{2}-\d{2}$/`. */
  predicate IsIsoDay(s: string)
  {
    |s| == 10 && s[4] == '-' && s[7] == '-' && AllDigits(s[..4]) && AllDigits(s[5..7]) && AllDigits(s[8..])
  }

  /** The `Date` constructor reads a year from 0 to 99 as 1900 to 1999. */
  function ConstructorYear(year: int): int
  {
    if 0 <= year <= 99 then 1900 + year else year
  }

  /** `new Date(year, month - 1, day)` at local midnight: month and day
      overflow into the following (or preceding) months and years. */
  function NewLocalDate(year: int, month: int, day: int): (d: Date)
    ensures ValidDate(d)
  {
    LocalDate(FromMonthIndex(ConstructorYear(year) * 12 + month - 1), day)
  }

  /** The local calendar date the chart gives a transaction: a `yyyy-MM-dd`
      text is read field by field; `new Date(null)` is the epoch; any other
      text is an invalid date (`None`), which no comparison admits. */
  function DayOf(t: ChartTransaction): (d: Option<Date>)
    ensures d.Some? ==> ValidDate(d.value)
  {
    match t.creationDate
    case None => Some(Epoch)
    case Some(s) =>
      if IsIsoDay(s) then Some(NewLocalDate(ParseDigits(s[..4]), ParseDigits(s[5..7]), ParseDigits(s[8..])))
      else None
  }

  /** A date the backend writes with `LocalDate.toString()` is read back as
      the same calendar date, for years from 100 to 9999. */
  lemma DayOfIsoText(d: Date, amount: Option<Decimal>, ty: Option<TransactionType>)
    requires ValidDate(d) && 100 <= d.year <= 9999
    ensures DayOf(ChartTransaction(Some(FormatIso(d)), amount, ty)) == Some(d)
  {
    var s := FormatIso(d);
    ParsePlainFormatIso(d);
    assert IsIsoDay(s);
    var ym := FromMonthIndex(d.year * 12 + d.month - 1);
    MonthIndexInjective(ym, YearMonthOf(d));
    LocalDateInRange(ym, d.day);
  }

  // ---------------------------------------------------------------------------
  // Window and classification

  /** The three series of the chart. */
  datatype Series = Income | Expense | Transfer

  /** ENTRADA is income, SAIDA and CARTAO are expense, MOVIMENTACAO is a
      transfer; a record of no known type feeds no series. */
  function SeriesOf(t: Option<TransactionType>): Option<Series>
  {
    match t
    case Some(ENTRADA) => Some(Income)
    case Some(SAIDA) => Some(Expense)
    case Some(CARTAO) => Some(Expense)
    case Some(MOVIMENTACAO) => Some(Transfer)
    case None => None
  }

  /** What the chart keeps of a transaction it counts. A `null` amount adds
      as 0 (`x += null` leaves a number unchanged). */
  datatype Entry = Entry(day: Date, series: Option<Series>, amount: Decimal)

  function EntryOf(t: ChartTransaction): Option<Entry>
  {
    match DayOf(t)
    case Some(d) => Some(Entry(d, SeriesOf(t.transactionType), t.amount.GetOr(Zero)))
    case None => None
  }

  /** `start <= date && date <= now`, the date at local midnight. */
  predicate InWindow(day: Date, start: Moment, now: Moment)
  {
    NotAfter(start, Moment(day, 0)) && NotAfter(Moment(day, 0), now)
  }

  /** The transactions inside the window, in input order. */
  function Windowed(ts: seq<ChartTransaction>, start: Moment, now: Moment): (es: seq<Entry>)
    ensures |es| <= |ts|
    ensures forall k :: 0 <= k < |es| ==> ValidDate(es[k].day) && InWindow(es[k].day, start, now)
    ensures forall k :: 0 <= k < |es| ==> exists i :: 0 <= i < |ts| && EntryOf(ts[i]) == Some(es[k])
    ensures forall i :: 0 <= i < |ts| && EntryOf(ts[i]).Some? && InWindow(EntryOf(ts[i]).value.day, start, now) ==>
      EntryOf(ts[i]).value in es
    ensures |ts| == 1 ==>
      es == (if EntryOf(ts[0]).Some? && InWindow(EntryOf(ts[0]).value.day, start, now) then [EntryOf(ts[0]).value] else [])
  {
    if |ts| == 0 then []
    else
      var rest := Windowed(ts[..|ts| - 1], start, now);
      var t := ts[|ts| - 1];
      assert ts == ts[..|ts| - 1] + [t];
      assert forall k :: 0 <= k < |rest| ==> exists i :: 0 <= i < |ts| && EntryOf(ts[i]) == Some(rest[k]) by {
        forall k | 0 <= k < |rest|
          ensures exists i :: 0 <= i < |ts| && EntryOf(ts[i]) == Some(rest[k])
        {
          var i :| 0 <= i < |ts| - 1 && EntryOf(ts[..|ts| - 1][i]) == Some(rest[k]);
          assert ts[i] == ts[..|ts| - 1][i];
        }
      }
      match EntryOf(t)
      case Some(e) => if InWindow(e.day, start, now) then rest + [e] else rest
      case None => rest
  }

  /** Windowing two runs of transactions windows the first, then the second:
      every transaction counts once, in input order, so equal transactions
      are all kept. */
  lemma {:induction false} WindowedAppend(a: seq<ChartTransaction>, b: seq<ChartTransaction>, start: Moment, now: Moment)
    ensures Windowed(a + b, start, now) == Windowed(a, start, now) + Windowed(b, start, now)
  {
    if |b| == 0 {
      assert a + b == a;
    } else {
      var init := b[..|b| - 1];
      assert (a + b)[..|a + b| - 1] == a + init;
      assert (a + b)[|a + b| - 1] == b[|b| - 1];
      WindowedAppend(a, init, start, now);
    }
  }

  /** The amounts of one series, on one day (`Some(d)`) or on any day. */
  function SeriesAmounts(es: seq<Entry>, s: Series, day: Option<Date>): (xs: seq<Decimal>)
    ensures |xs| <= |es|
  {
    if |es| == 0 then []
    else
      var rest := SeriesAmounts(es[..|es| - 1], s, day);
      var e := es[|es| - 1];
      if e.series == Some(s) && (day.None? || day == Some(e.day)) then rest + [e.amount] else rest
  }

  /** The amount a series moved on one day. */
  function DayTotal(es: seq<Entry>, day: Date, s: Series): Decimal
  {
    Sum(SeriesAmounts(es, s, Some(day)))
  }

  /** The amount a series moved over the whole window. */
  function WindowTotal(es: seq<Entry>, s: Series): Decimal
  {
    Sum(SeriesAmounts(es, s, None))
  }

  /** The days that have at least one counted transaction. */
  function Days(es: seq<Entry>): set<Date>
  {
    set k | 0 <= k < |es| :: es[k].day
  }

  // ---------------------------------------------------------------------------
  // Grouping by date

  /** The accumulator entry `{ date, income, expense, transfer }`. */
  datatype Bucket = Bucket(date: Date, income: Decimal, expense: Decimal, transfer: Decimal)

  function Value(b: Bucket, s: Series): Decimal
  {
    match s
    case Income => b.income
    case Expense => b.expense
    case Transfer => b.transfer
  }

  /** `acc[date].income += amount` and its siblings. */
  function Credit(b: Bucket, s: Option<Series>, a: Decimal): (r: Bucket)
    ensures r.date == b.date
    ensures forall k :: Value(r, k) == if s == Some(k) then Add(Value(b, k), a) else Value(b, k)
  {
    match s
    case Some(Income) => b.(income := Add(b.income, a))
    case Some(Expense) => b.(expense := Add(b.expense, a))
    case Some(Transfer) => b.(transfer := Add(b.transfer, a))
    case None => b
  }

  /** One series' values, bucket by bucket. */
  function Column(bs: seq<Bucket>, s: Series): (xs: seq<Decimal>)
    ensures |xs| == |bs|
    ensures forall i :: 0 <= i < |bs| ==> xs[i] == Value(bs[i], s)
  {
    seq(|bs|, i requires 0 <= i < |bs| => Value(bs[i], s))
  }

  function Dates(bs: seq<Bucket>): set<Date>
  {
    set i | 0 <= i < |bs| :: bs[i].date
  }

  predicate DistinctDates(bs: seq<Bucket>)
  {
    forall i, j :: 0 <= i < j < |bs| ==> bs[i].date != bs[j].date
  }

  /** `acc[date]`: the position of the bucket for a date, or the length when
      there is none yet. */
  function IndexOfDate(g: seq<Bucket>, d: Date): (j: nat)
    ensures j <= |g|
    ensures j < |g| ==> g[j].date == d
    ensures j == |g| ==> forall i :: 0 <= i < |g| ==> g[i].date != d
  {
    if |g| == 0 then 0
    else if g[0].date == d then 0
    else 1 + IndexOfDate(g[1..], d)
  }

  /** The `reduce` that builds the buckets, in first-seen order. */
  function Group(es: seq<Entry>): (g: seq<Bucket>)
  {
    if |es| == 0 then []
    else
      var acc := Group(es[..|es| - 1]);
      var e := es[|es| - 1];
      var j := IndexOfDate(acc, e.day);
      var acc' := if j == |acc| then acc + [Bucket(e.day, Zero, Zero, Zero)] else acc;
      acc'[j := Credit(acc'[j], e.series, e.amount)]
  }

  /** One more entry adds its day to the days. */
  lemma DaysSnoc(es: seq<Entry>, e: Entry)
    ensures Days(es + [e]) == Days(es) + {e.day}
  {
    var all := es + [e];
    forall d | d in Days(all)
      ensures d in Days(es) + {e.day}
    {
      var k :| 0 <= k < |all| && all[k].day == d;
      if k < |es| {
        assert es[k] == all[k];
      }
    }
    forall d | d in Days(es)
      ensures d in Days(all)
    {
      var k :| 0 <= k < |es| && es[k].day == d;
      assert all[k] == es[k];
    }
    assert all[|es|] == e;
  }

  /** One bucket per day, and no bucket without a transaction. */
  lemma {:induction false} GroupDates(es: seq<Entry>)
    ensures DistinctDates(Group(es))
    ensures Dates(Group(es)) == Days(es)
  {
    if |es| > 0 {
      var init, e := es[..|es| - 1], es[|es| - 1];
      GroupDates(init);
      var acc := Group(init);
      var j := IndexOfDate(acc, e.day);
      var acc' := if j == |acc| then acc + [Bucket(e.day, Zero, Zero, Zero)] else acc;
      var g := Group(es);
      assert forall i :: 0 <= i < |g| ==> g[i].date == acc'[i].date;
      assert es == init + [e];
      DaysSnoc(init, e);
      if j == |acc| {
        DatesSnoc(acc, Bucket(e.day, Zero, Zero, Zero));
      } else {
        assert acc[j].date in Dates(acc);
      }
      DatesKept(acc', g);
    }
  }

  lemma DatesSnoc(bs: seq<Bucket>, b: Bucket)
    ensures Dates(bs + [b]) == Dates(bs) + {b.date}
  {
    var r := bs + [b];
    assert r[|bs|].date == b.date;
    forall d | d in Dates(bs)
      ensures d in Dates(r)
    {
      var i :| 0 <= i < |bs| && bs[i].date == d;
      assert r[i] == bs[i];
    }
  }

  lemma DatesKept(a: seq<Bucket>, b: seq<Bucket>)
    requires |a| == |b|
    requires forall i :: 0 <= i < |a| ==> a[i].date == b[i].date
    ensures Dates(a) == Dates(b)
  {
    forall d | d in Dates(a)
      ensures d in Dates(b)
    {
      var i :| 0 <= i < |a| && a[i].date == d;
    }
    forall d | d in Dates(b)
      ensures d in Dates(a)
    {
      var i :| 0 <= i < |b| && b[i].date == d;
    }
  }

  /** The amounts of a series over one more entry. */
  lemma SeriesAmountsSnoc(es: seq<Entry>, e: Entry, s: Series, day: Option<Date>)
    ensures SeriesAmounts(es + [e], s, day) ==
      SeriesAmounts(es, s, day) + (if e.series == Some(s) && (day.None? || day == Some(e.day)) then [e.amount] else [])
  {
    assert (es + [e])[..|es + [e]| - 1] == es;
  }

  /** A day with no entry has nothing to total. */
  lemma {:induction false} SeriesAmountsAbsentDay(es: seq<Entry>, s: Series, d: Date)
    requires d !in Days(es)
    ensures SeriesAmounts(es, s, Some(d)) == []
  {
    if |es| > 0 {
      var init := es[..|es| - 1];
      assert Days(init) <= Days(es);
      SeriesAmountsAbsentDay(init, s, d);
    }
  }

  lemma SumSnoc(xs: seq<Decimal>, x: Decimal)
    ensures Sum(xs + [x]) == Add(Sum(xs), x)
  {
    assert (xs + [x])[..|xs + [x]| - 1] == xs;
  }

  /** Each bucket holds its day's totals. */
  lemma {:induction false} GroupValues(es: seq<Entry>)
    ensures forall i, s :: 0 <= i < |Group(es)| ==> Value(Group(es)[i], s) == DayTotal(es, Group(es)[i].date, s)
  {
    if |es| > 0 {
      var init, e := es[..|es| - 1], es[|es| - 1];
      assert es == init + [e];
      GroupValues(init);
      GroupDates(init);
      var acc := Group(init);
      var j := IndexOfDate(acc, e.day);
      var acc' := if j == |acc| then acc + [Bucket(e.day, Zero, Zero, Zero)] else acc;
      var g := Group(es);
      forall i, s | 0 <= i < |g|
        ensures Value(g[i], s) == DayTotal(es, g[i].date, s)
      {
        var d := g[i].date;
        SeriesAmountsSnoc(init, e, s, Some(d));
        var before := SeriesAmounts(init, s, Some(d));
        if i == |acc| {
          SeriesAmountsAbsentDay(init, s, d);
          AddZero(e.amount);
          SumSnoc([], e.amount);
        } else if i == j {
          SumSnoc(before, e.amount);
        }
      }
    }
  }

  /** The buckets of a series add up to the series' total over the window. */
  lemma {:induction false} GroupColumnSum(es: seq<Entry>, s: Series)
    ensures Sum(Column(Group(es), s)) == WindowTotal(es, s)
  {
    if |es| > 0 {
      var init, e := es[..|es| - 1], es[|es| - 1];
      assert es == init + [e];
      GroupColumnSum(init, s);
      var acc := Group(init);
      var j := IndexOfDate(acc, e.day);
      var acc' := if j == |acc| then acc + [Bucket(e.day, Zero, Zero, Zero)] else acc;
      assert Group(es) == acc'[j := Credit(acc'[j], e.series, e.amount)];
      var column := Column(acc', s);
      assert Sum(column) == Sum(Column(acc, s)) by {
        if j == |acc| {
          PaddedColumnSum(acc, e.day, s);
        }
      }
      ColumnCredit(acc', j, e.series, e.amount, s);
      SeriesAmountsSnoc(init, e, s, None);
      if e.series == Some(s) {
        SumUpdate(column, j, e.amount);
        SumSnoc(SeriesAmounts(init, s, None), e.amount);
      } else {
        assert SeriesAmounts(es, s, None) == SeriesAmounts(init, s, None);
      }
    }
  }

  /** A new empty bucket adds nothing to a column's sum. */
  lemma PaddedColumnSum(acc: seq<Bucket>, day: Date, s: Series)
    ensures Sum(Column(acc + [Bucket(day, Zero, Zero, Zero)], s)) == Sum(Column(acc, s))
  {
    ColumnSnoc(acc, Bucket(day, Zero, Zero, Zero), s);
    SumSnoc(Column(acc, s), Zero);
    AddZero(Sum(Column(acc, s)));
  }

  lemma ColumnSnoc(bs: seq<Bucket>, b: Bucket, s: Series)
    ensures Column(bs + [b], s) == Column(bs, s) + [Value(b, s)]
  {
  }

  lemma ColumnCredit(bs: seq<Bucket>, j: nat, series: Option<Series>, a: Decimal, s: Series)
    requires j < |bs|
    ensures Column(bs[j := Credit(bs[j], series, a)], s) ==
      if series == Some(s) then Column(bs, s)[j := Add(Column(bs, s)[j], a)] else Column(bs, s)
  {
  }

  // ---------------------------------------------------------------------------
  // Ordering by date

  predicate Ascending(bs: seq<Bucket>)
  {
    forall i, j :: 0 <= i < j < |bs| ==> Calendar.Before(bs[i].date, bs[j].date)
  }

  /** Insertion into a date-ordered run of buckets. */
  function Insert(b: Bucket, sorted: seq<Bucket>): (r: seq<Bucket>)
    ensures |r| == |sorted| + 1
    ensures multiset(r) == multiset(sorted) + multiset{b}
  {
    if |sorted| == 0 then [b]
    else if Calendar.Before(b.date, sorted[0].date) then [b] + sorted
    else
      assert sorted == [sorted[0]] + sorted[1..];
      [sorted[0]] + Insert(b, sorted[1..])
  }

  /** `sort((a, b) => a.rawDate - b.rawDate)`: with distinct dates there is
      exactly one ascending order, whichever algorithm finds it. */
  function SortByDate(bs: seq<Bucket>): (r: seq<Bucket>)
    ensures multiset(r) == multiset(bs)
  {
    if |bs| == 0 then []
    else
      assert bs == bs[..|bs| - 1] + [bs[|bs| - 1]];
      Insert(bs[|bs| - 1], SortByDate(bs[..|bs| - 1]))
  }

  lemma {:induction false} InsertAscending(b: Bucket, sorted: seq<Bucket>)
    requires ValidDate(b.date) && forall i :: 0 <= i < |sorted| ==> ValidDate(sorted[i].date)
    requires Ascending(sorted)
    requires forall i :: 0 <= i < |sorted| ==> sorted[i].date != b.date
    ensures Ascending(Insert(b, sorted))
  {
    if |sorted| > 0 && !Calendar.Before(b.date, sorted[0].date) {
      var rest := sorted[1..];
      InsertAscending(b, rest);
      BeforeTotalOrder(b.date, sorted[0].date, sorted[0].date);
      InsertAboveHead(b, sorted);
      var inserted := Insert(b, rest);
      var r := [sorted[0]] + inserted;
      assert Insert(b, sorted) == r;
      forall i, j | 0 <= i < j < |r|
        ensures Calendar.Before(r[i].date, r[j].date)
      {
        assert r[j] == inserted[j - 1];
        if i > 0 {
          assert r[i] == inserted[i - 1];
        }
      }
    } else if |sorted| > 0 {
      forall k | 1 <= k < |sorted| + 1
        ensures Calendar.Before(b.date, ([b] + sorted)[k].date)
      {
        BeforeTotalOrder(b.date, sorted[0].date, sorted[k - 1].date);
      }
    }
  }

  /** When the head of a run stays first, it precedes everything the
      insertion into the rest of the run yields. */
  lemma InsertAboveHead(b: Bucket, sorted: seq<Bucket>)
    requires |sorted| > 0 && Calendar.Before(sorted[0].date, b.date) && Ascending(sorted)
    ensures forall k :: 0 <= k < |Insert(b, sorted[1..])| ==>
      Calendar.Before(sorted[0].date, Insert(b, sorted[1..])[k].date)
  {
    var rest := sorted[1..];
    var inserted := Insert(b, rest);
    forall k | 0 <= k < |inserted|
      ensures Calendar.Before(sorted[0].date, inserted[k].date)
    {
      assert inserted[k] in multiset(inserted);
      if inserted[k] != b {
        var m :| 0 <= m < |rest| && rest[m] == inserted[k];
        assert sorted[m + 1] == inserted[k];
      }
    }
  }

  lemma {:induction false} InsertColumnSum(b: Bucket, sorted: seq<Bucket>, s: Series)
    ensures Sum(Column(Insert(b, sorted), s)) == Add(Sum(Column(sorted, s)), Value(b, s))
  {
    var v := Value(b, s);
    if |sorted| == 0 {
      ColumnPrepend(b, [], s);
      SumPrepend(v, []);
      AddZero(v);
    } else if Calendar.Before(b.date, sorted[0].date) {
      ColumnPrepend(b, sorted, s);
      SumPrepend(v, Column(sorted, s));
      AddCommutes(v, Sum(Column(sorted, s)));
    } else {
      var first, rest := sorted[0], sorted[1..];
      assert sorted == [first] + rest;
      var w := Value(first, s);
      InsertColumnSum(b, rest, s);
      ColumnPrepend(first, Insert(b, rest), s);
      ColumnPrepend(first, rest, s);
      SumPrepend(w, Column(Insert(b, rest), s));
      SumPrepend(w, Column(rest, s));
      AddAssociates(w, Sum(Column(rest, s)), v);
    }
  }

  lemma ColumnPrepend(b: Bucket, bs: seq<Bucket>, s: Series)
    ensures Column([b] + bs, s) == [Value(b, s)] + Column(bs, s)
  {
  }

  /** Sorting buckets with distinct dates orders them strictly by date and
      keeps every series' total. */
  lemma {:induction false} SortByDateCorrect(bs: seq<Bucket>)
    requires DistinctDates(bs)
    requires forall i :: 0 <= i < |bs| ==> ValidDate(bs[i].date)
    ensures Ascending(SortByDate(bs))
    ensures forall s :: Sum(Column(SortByDate(bs), s)) == Sum(Column(bs, s))
  {
    if |bs| > 0 {
      var init, last := bs[..|bs| - 1], bs[|bs| - 1];
      assert bs == init + [last];
      SortByDateCorrect(init);
      var sorted := SortByDate(init);
      assert SortByDate(bs) == Insert(last, sorted);
      SortedFromInit(bs, sorted);
      InsertAscending(last, sorted);
      forall s
        ensures Sum(Column(SortByDate(bs), s)) == Sum(Column(bs, s))
      {
        InsertColumnSum(last, sorted, s);
        ColumnSnoc(init, last, s);
        SumSnoc(Column(init, s), Value(last, s));
      }
    }
  }

  /** Every bucket of an ordering of all but the last bucket has a valid date
      other than the last bucket's. */
  lemma SortedFromInit(bs: seq<Bucket>, sorted: seq<Bucket>)
    requires |bs| > 0 && DistinctDates(bs)
    requires forall i :: 0 <= i < |bs| ==> ValidDate(bs[i].date)
    requires multiset(sorted) == multiset(bs[..|bs| - 1])
    ensures forall i :: 0 <= i < |sorted| ==> sorted[i].date != bs[|bs| - 1].date && ValidDate(sorted[i].date)
  {
    var init := bs[..|bs| - 1];
    forall i | 0 <= i < |sorted|
      ensures sorted[i].date != bs[|bs| - 1].date && ValidDate(sorted[i].date)
    {
      assert sorted[i] in multiset(init);
      var m :| 0 <= m < |init| && init[m] == sorted[i];
      assert bs[m] == sorted[i];
    }
  }

  // ---------------------------------------------------------------------------
  // Running totals

  /** A point of the chart: the date and the three running totals. */
  datatype ChartPoint = ChartPoint(date: Date, income: Decimal, expense: Decimal, transfer: Decimal)

  function PointValue(p: ChartPoint, s: Series): Decimal
  {
    match s
    case Income => p.income
    case Expense => p.expense
    case Transfer => p.transfer
  }

  /** `points` are the running totals of the first buckets, date by date. */
  predicate Accumulated(bs: seq<Bucket>, points: seq<ChartPoint>)
  {
    && |points| <= |bs|
    && (forall i :: 0 <= i < |points| ==> points[i].date == bs[i].date)
    && (forall i, s :: 0 <= i < |points| ==> PointValue(points[i], s) == Sum(Column(bs[..i + 1], s)))
  }

  /** Appending the next bucket's point keeps the accumulation. */
  lemma AccumulatedExtend(bs: seq<Bucket>, points: seq<ChartPoint>, p: ChartPoint)
    requires Accumulated(bs, points) && |points| < |bs|
    requires p.date == bs[|points|].date
    requires forall s :: PointValue(p, s) == Sum(Column(bs[..|points| + 1], s))
    ensures Accumulated(bs, points + [p])
  {
    var r := points + [p];
    forall i | 0 <= i < |r|
      ensures r[i].date == bs[i].date
    {
      if i < |points| {
        assert r[i] == points[i];
      }
    }
    forall i, s | 0 <= i < |r|
      ensures PointValue(r[i], s) == Sum(Column(bs[..i + 1], s))
    {
      if i < |points| {
        assert r[i] == points[i];
      } else {
        assert r[i] == p;
      }
    }
  }

  /** The `map` with `cumulativeIncome += item.income` and its siblings. */
  method Cumulate(bs: seq<Bucket>) returns (points: seq<ChartPoint>)
    ensures |points| == |bs|
    ensures forall k :: 0 <= k < |bs| ==> points[k].date == bs[k].date
    ensures forall k, s :: 0 <= k < |bs| ==> PointValue(points[k], s) == Sum(Column(bs[..k + 1], s))
  {
    var income, expense, transfer := Zero, Zero, Zero;
    points := [];
    for k := 0 to |bs|
      invariant |points| == k
      invariant Accumulated(bs, points)
      invariant income == Sum(Column(bs[..k], Income))
      invariant expense == Sum(Column(bs[..k], Expense))
      invariant transfer == Sum(Column(bs[..k], Transfer))
    {
      PrefixSumStep(bs, k, Income);
      PrefixSumStep(bs, k, Expense);
      PrefixSumStep(bs, k, Transfer);
      income := Add(income, bs[k].income);
      expense := Add(expense, bs[k].expense);
      transfer := Add(transfer, bs[k].transfer);
      var p := ChartPoint(bs[k].date, income, expense, transfer);
      AccumulatedExtend(bs, points, p);
      points := points + [p];
    }
  }

  /** One more bucket adds its value to the running total. */
  lemma PrefixSumStep(bs: seq<Bucket>, k: int, s: Series)
    requires 0 <= k < |bs|
    ensures Sum(Column(bs[..k + 1], s)) == Add(Sum(Column(bs[..k], s)), Value(bs[k], s))
  {
    assert Column(bs[..k + 1], s) == Column(bs[..k], s) + [Value(bs[k], s)];
    SumSnoc(Column(bs[..k], s), Value(bs[k], s));
  }

  /** The totals of each of the given days, in order. */
  function DayTotals(es: seq<Entry>, days: seq<Date>, s: Series): (xs: seq<Decimal>)
    ensures |xs| == |days|
    ensures forall i :: 0 <= i < |days| ==> xs[i] == DayTotal(es, days[i], s)
  {
    seq(|days|, i requires 0 <= i < |days| => DayTotal(es, days[i], s))
  }

  function PointDates(ps: seq<ChartPoint>): (ds: seq<Date>)
    ensures |ds| == |ps|
    ensures forall i :: 0 <= i < |ps| ==> ds[i] == ps[i].date
  {
    seq(|ps|, i requires 0 <= i < |ps| => ps[i].date)
  }

  predicate PointsAscending(ps: seq<ChartPoint>)
  {
    forall i, j :: 0 <= i < j < |ps| ==> Calendar.Before(ps[i].date, ps[j].date)
  }

  /** `chartData`: no input, no points; otherwise one point per day with a
      counted transaction, in strictly ascending date order, whose values are
      the day totals of that day and every earlier one; the last point holds
      the totals of the whole window. */
  method ChartData(input: Option<seq<ChartTransaction>>, start: Moment, now: Moment) returns (points: seq<ChartPoint>)
    ensures input.None? || input.value == [] ==> points == []
    ensures ChartOf(Windowed(input.GetOr([]), start, now), points)
  {
    if input.None? || input.value == [] {
      return [];
    }
    var es := Windowed(input.value, start, now);
    var sorted := SortByDate(Group(es));
    points := Cumulate(sorted);
    OrderedDays(es);
    RunningTotals(es, sorted, points);
  }

  /** The whole `useMemo`: the window the time range selects, ending now. */
  method ChartForRange(input: Option<seq<ChartTransaction>>, timeRange: string, now: Moment) returns (points: seq<ChartPoint>)
    requires ValidDate(now.date)
    ensures input.None? || input.value == [] ==> points == []
    ensures ChartOf(Windowed(input.GetOr([]), WindowStart(timeRange, now), now), points)
  {
    points := ChartData(input, WindowStart(timeRange, now), now);
  }

  /** What the chart shows for the counted transactions `es`: one point per
      day with a transaction, in strictly ascending date order; each point's
      values are the day totals of its day and every earlier one; the last
      point holds the totals of the whole window. */
  predicate ChartOf(es: seq<Entry>, points: seq<ChartPoint>)
  {
    && PointsAscending(points)
    && (set k | 0 <= k < |points| :: points[k].date) == Days(es)
    && (forall k, s :: 0 <= k < |points| ==>
          PointValue(points[k], s) == Sum(DayTotals(es, PointDates(points)[..k + 1], s)))
    && (|points| > 0 ==> forall s :: PointValue(points[|points| - 1], s) == WindowTotal(es, s))
  }

  /** Grouping then sorting yields the days in strictly ascending order, each
      with its totals, and keeps each series' total. */
  lemma OrderedDays(es: seq<Entry>)
    requires forall k :: 0 <= k < |es| ==> ValidDate(es[k].day)
    ensures var sorted := SortByDate(Group(es));
      && Ascending(sorted)
      && Dates(sorted) == Days(es)
      && (forall i, s :: 0 <= i < |sorted| ==> Value(sorted[i], s) == DayTotal(es, sorted[i].date, s))
      && (forall s :: Sum(Column(sorted, s)) == WindowTotal(es, s))
  {
    var grouped := Group(es);
    GroupDates(es);
    GroupValues(es);
    forall i | 0 <= i < |grouped|
      ensures ValidDate(grouped[i].date)
    {
      assert grouped[i].date in Dates(grouped);
    }
    SortByDateCorrect(grouped);
    SortedBuckets(es, grouped, SortByDate(grouped));
    forall s
      ensures Sum(Column(SortByDate(grouped), s)) == WindowTotal(es, s)
    {
      GroupColumnSum(es, s);
    }
  }

  /** Running totals over the ordered days are the chart's points. */
  lemma RunningTotals(es: seq<Entry>, sorted: seq<Bucket>, points: seq<ChartPoint>)
    requires Ascending(sorted) && Dates(sorted) == Days(es)
    requires forall i, s :: 0 <= i < |sorted| ==> Value(sorted[i], s) == DayTotal(es, sorted[i].date, s)
    requires forall s :: Sum(Column(sorted, s)) == WindowTotal(es, s)
    requires |points| == |sorted|
    requires forall k :: 0 <= k < |sorted| ==> points[k].date == sorted[k].date
    requires forall k, s :: 0 <= k < |sorted| ==> PointValue(points[k], s) == Sum(Column(sorted[..k + 1], s))
    ensures ChartOf(es, points)
  {
    forall k, s | 0 <= k < |points|
      ensures PointValue(points[k], s) == Sum(DayTotals(es, PointDates(points)[..k + 1], s))
    {
      assert Column(sorted[..k + 1], s) == DayTotals(es, PointDates(points)[..k + 1], s);
    }
    if |points| > 0 {
      assert sorted[..|sorted|] == sorted;
    }
    forall d | d in Dates(sorted)
      ensures d in (set k | 0 <= k < |points| :: points[k].date)
    {
      var i :| 0 <= i < |sorted| && sorted[i].date == d;
      assert points[i].date == d;
    }
  }

  /** The sorted buckets still hold their days' totals and cover the same
      days. */
  lemma SortedBuckets(es: seq<Entry>, grouped: seq<Bucket>, sorted: seq<Bucket>)
    requires multiset(sorted) == multiset(grouped)
    requires forall i, s :: 0 <= i < |grouped| ==> Value(grouped[i], s) == DayTotal(es, grouped[i].date, s)
    requires Dates(grouped) == Days(es)
    ensures forall i, s :: 0 <= i < |sorted| ==> Value(sorted[i], s) == DayTotal(es, sorted[i].date, s)
    ensures Dates(sorted) == Days(es)
  {
    forall i | 0 <= i < |sorted|
      ensures exists m :: 0 <= m < |grouped| && grouped[m] == sorted[i]
    {
      assert sorted[i] in multiset(grouped);
    }
    forall d | d in Dates(grouped)
      ensures d in Dates(sorted)
    {
      var m :| 0 <= m < |grouped| && grouped[m].date == d;
      assert grouped[m] in multiset(sorted);
      var i :| 0 <= i < |sorted| && sorted[i] == grouped[m];
    }
  }

  /** With no negative amount, every series only grows from one point to the
      next. */
  lemma RunningTotalsGrow(es: seq<Entry>, days: seq<Date>, s: Series, k: nat)
    requires forall i :: 0 <= i < |es| ==> NonNegative(es[i].amount)
    requires k + 1 < |days|
    ensures Decimals.AtMost(Sum(DayTotals(es, days[..k + 1], s)), Sum(DayTotals(es, days[..k + 2], s)))
  {
    var next := DayTotal(es, days[k + 1], s);
    assert DayTotals(es, days[..k + 2], s) == DayTotals(es, days[..k + 1], s) + [next];
    SumSnoc(DayTotals(es, days[..k + 1], s), next);
    SeriesAmountsNonNegative(es, s, Some(days[k + 1]));
    SumNonNegative(SeriesAmounts(es, s, Some(days[k + 1])));
    AddNonNegative(Sum(DayTotals(es, days[..k + 1], s)), next);
  }

  lemma {:induction false} SeriesAmountsNonNegative(es: seq<Entry>, s: Series, day: Option<Date>)
    requires forall i :: 0 <= i < |es| ==> NonNegative(es[i].amount)
    ensures forall i :: 0 <= i < |SeriesAmounts(es, s, day)| ==> NonNegative(SeriesAmounts(es, s, day)[i])
  {
    if |es| > 0 {
      SeriesAmountsNonNegative(es[..|es| - 1], s, day);
    }
  }
}

=== FILE: crud.dfy ===
/** `useCrud(endpoint)`: the client-side list of a resource kept in step with
    the server. Each operation's HTTP exchange, and the answer to the browser's
    confirmation dialog, are parameters: the model states what the hook does
    with the list and its error message for every outcome of the call. The
    state after an operation is the state once its promise has settled. */
module Crud {
  import opened Wrappers

  /** A stored item as the client holds it: its id and the rest of it. */
  datatype Item<T> = Item(id: int, body: T)

  datatype CrudState<T> = CrudState(items: seq<Item<T>>, loading: bool, error: Option<string>)

  /** What a failed request carries: the server's `response.data.message`
      when it sent one, and the error's own `message`. */
  datatype HttpError = HttpError(serverMessage: Option<string>, message: Option<string>)

  /** The settled outcome of one request. */
  datatype Reply<R> = Ok(data: R) | Failed(err: HttpError)

  /** The hook's state before the first fetch. */
  function InitialState<T>(): (s: CrudState<T>)
    ensures s.items == [] && s.loading && s.error.None?
  {
    CrudState([], true, None)
  }

  /** A string is truthy in JavaScript when it is present and not empty. */
  predicate Truthy(s: Option<string>)
  {
    s.Some? && s.value != ""
  }

  /** `err.response?.data?.message || err.message || fallback`. */
  function ErrorMessage(err: HttpError, fallback: string): (m: string)
    ensures Truthy(err.serverMessage) ==> m == err.serverMessage.value
    ensures !Truthy(err.serverMessage) && Truthy(err.message) ==> m == err.message.value
    ensures !Truthy(err.serverMessage) && !Truthy(err.message) ==> m == fallback
    ensures fallback != "" ==> m != ""
  {
    if Truthy(err.serverMessage) then err.serverMessage.value
    else if Truthy(err.message) then err.message.value
    else fallback
  }

  const AddFallback := "Failed to add item."
  const UpdateFallback := "Failed to update item."
  const DeleteFallback := "Failed to delete item."

  /** The message a failed fetch shows. */
  function FetchFailedMessage(endpoint: string): string
  {
    "Failed to fetch " + endpoint + ". Please try again later."
  }

  /** `fetchItems`: a successful fetch replaces the list and clears the
      error; a failed one keeps the list and sets the message. Loading is
      over either way. */
  function FetchItems<T>(s: CrudState<T>, endpoint: string, reply: Reply<seq<Item<T>>>): (r: CrudState<T>)
    ensures !r.loading
    ensures reply.Ok? ==> r.items == reply.data && r.error.None?
    ensures reply.Failed? ==> r.items == s.items && r.error == Some(FetchFailedMessage(endpoint))
  {
    match reply
    case Ok(data) => CrudState(data, false, None)
    case Failed(_) => s.(loading := false, error := Some(FetchFailedMessage(endpoint)))
  }

  /** `addItem`: the item the server returns is appended; on failure the list
      is kept and the error message is both set and returned. */
  function AddItem<T>(s: CrudState<T>, reply: Reply<Item<T>>): (r: (CrudState<T>, Option<string>))
    ensures r.0.loading == s.loading
    ensures reply.Ok? ==> r.0.items == s.items + [reply.data] && r.0.error.None? && r.1.None?
    ensures reply.Failed? ==> r.0.items == s.items && r.0.error == r.1 == Some(ErrorMessage(reply.err, AddFallback))
    ensures r.1.Some? ==> r.1.value != ""
  {
    match reply
    case Ok(created) => (s.(items := s.items + [created], error := None), None)
    case Failed(err) =>
      var m := ErrorMessage(err, AddFallback);
      (s.(error := Some(m)), Some(m))
  }

  /** Every item with that id replaced by `updated`, the others kept in
      place. */
  function ReplaceById<T>(items: seq<Item<T>>, id: int, updated: Item<T>): (r: seq<Item<T>>)
    ensures |r| == |items|
    ensures forall i :: 0 <= i < |items| ==> r[i] == if items[i].id == id then updated else items[i]
  {
    seq(|items|, i requires 0 <= i < |items| => if items[i].id == id then updated else items[i])
  }

  /** `updateItem(id)`: on success every listed item with that id becomes the
      server's answer; on failure the list is kept. */
  function UpdateItem<T>(s: CrudState<T>, id: int, reply: Reply<Item<T>>): (r: (CrudState<T>, Option<string>))
    ensures r.0.loading == s.loading
    ensures reply.Ok? ==> r.0.items == ReplaceById(s.items, id, reply.data) && r.0.error.None? && r.1.None?
    ensures reply.Failed? ==> r.0.items == s.items && r.0.error == r.1 == Some(ErrorMessage(reply.err, UpdateFallback))
    ensures r.1.Some? ==> r.1.value != ""
  {
    match reply
    case Ok(updated) => (s.(items := ReplaceById(s.items, id, updated), error := None), None)
    case Failed(err) =>
      var m := ErrorMessage(err, UpdateFallback);
      (s.(error := Some(m)), Some(m))
  }

  /** The items whose id is not in `ids`, in their order. */
  function Without<T>(items: seq<Item<T>>, ids: set<int>): (r: seq<Item<T>>)
    ensures |r| <= |items|
    ensures forall i :: 0 <= i < |r| ==> r[i] in items && r[i].id !in ids
    ensures forall i :: 0 <= i < |items| && items[i].id !in ids ==> items[i] in r
  {
    if |items| == 0 then []
    else
      var rest := Without(items[..|items| - 1], ids);
      var last := items[|items| - 1];
      assert items == items[..|items| - 1] + [last];
      if last.id in ids then rest else rest + [last]
  }

  /** `deleteItem(id)`: when the user confirms and the server agrees, every
      item with that id leaves the list; a declined dialog changes nothing
      and sends no request. */
  function DeleteItem<T>(s: CrudState<T>, id: int, confirmed: bool, reply: Reply<()>): (r: (CrudState<T>, Option<string>))
    ensures !confirmed ==> r == (s, None)
    ensures confirmed && reply.Ok? ==> r.0 == s.(items := Without(s.items, {id}), error := None) && r.1.None?
    ensures confirmed && reply.Failed? ==> r.0.items == s.items && r.0.error == r.1 == Some(ErrorMessage(reply.err, DeleteFallback))
    ensures r.1.Some? ==> r.1.value != ""
  {
    if !confirmed then (s, None)
    else
      match reply
      case Ok(_) => (s.(items := Without(s.items, {id}), error := None), None)
      case Failed(err) =>
        var m := ErrorMessage(err, DeleteFallback);
        (s.(error := Some(m)), Some(m))
  }

  /** `deleteMultipleItems(ids)`: when confirmed and successful, the items
      whose id is listed leave the list. This operation never touches the
      error message: a failure is handed back to the caller as the error
      object itself, with the state as it was. */
  function DeleteMultipleItems<T>(s: CrudState<T>, ids: seq<int>, confirmed: bool, reply: Reply<()>): (r: (CrudState<T>, Option<HttpError>))
    ensures r.0.error == s.error && r.0.loading == s.loading
    ensures !confirmed ==> r == (s, None)
    ensures confirmed && reply.Ok? ==> r.0.items == Without(s.items, set k | k in ids) && r.1.None?
    ensures confirmed && reply.Failed? ==> r == (s, Some(reply.err))
  {
    if !confirmed then (s, None)
    else
      match reply
      case Ok(_) => (s.(items := Without(s.items, set k | k in ids)), None)
      case Failed(err) => (s, Some(err))
  }

  /** Filtering keeps order: it distributes over concatenation. */
  lemma {:induction false} WithoutAppend<T>(a: seq<Item<T>>, b: seq<Item<T>>, ids: set<int>)
    ensures Without(a + b, ids) == Without(a, ids) + Without(b, ids)
  {
    if |b| > 0 {
      var init := b[..|b| - 1];
      var last := b[|b| - 1];
      WithoutAppend(a, init, ids);
      assert (a + b)[..|a + b| - 1] == a + init;
      assert b[..|b| - 1] == init;
    } else {
      assert a + b == a;
    }
  }

  /** Removing nothing keeps the list. */
  lemma {:induction false} WithoutNothing<T>(items: seq<Item<T>>)
    ensures Without(items, {}) == items
  {
    if |items| > 0 {
      WithoutNothing(items[..|items| - 1]);
      assert items == items[..|items| - 1] + [items[|items| - 1]];
    }
  }

  /** Removing one set of ids and then another is removing both. */
  lemma {:induction false} WithoutTwice<T>(items: seq<Item<T>>, a: set<int>, b: set<int>)
    ensures Without(Without(items, a), b) == Without(items, a + b)
  {
    if |items| > 0 {
      var init := items[..|items| - 1];
      var last := items[|items| - 1];
      WithoutTwice(init, a, b);
      var once := Without(init, a);
      if last.id !in a {
        assert (once + [last])[..|once + [last]| - 1] == once;
      }
    }
  }

  /** Adding an item whose id is new and then deleting that id restores the
      list. */
  lemma AddThenDelete<T>(s: CrudState<T>, created: Item<T>)
    requires forall i :: 0 <= i < |s.items| ==> s.items[i].id != created.id
    ensures var added := AddItem(s, Ok(created)).0;
      DeleteItem(added, created.id, true, Ok(())).0.items == s.items
  {
    WithoutAppend(s.items, [created], {created.id});
    WithoutNothing(s.items);
    assert Without(s.items, {created.id}) == Without(s.items, {}) by {
      WithoutUnlisted(s.items, {created.id});
    }
    assert Without([created], {created.id}) == [];
  }

  /** Removing ids no listed item has keeps the list. */
  lemma {:induction false} WithoutUnlisted<T>(items: seq<Item<T>>, ids: set<int>)
    requires forall i :: 0 <= i < |items| ==> items[i].id !in ids
    ensures Without(items, ids) == items
  {
    if |items| > 0 {
      WithoutUnlisted(items[..|items| - 1], ids);
      assert items == items[..|items| - 1] + [items[|items| - 1]];
    }
  }

  /** Deleting several ids at once leaves the list that deleting them one by
      one leaves. */
  lemma DeleteMultipleAsSingles<T>(s: CrudState<T>, x: int, y: int)
    ensures DeleteMultipleItems(s, [x, y], true, Ok(())).0.items ==
      DeleteItem(DeleteItem(s, x, true, Ok(())).0, y, true, Ok(())).0.items
  {
    WithoutTwice(s.items, {x}, {y});
    assert (set k | k in [x, y]) == {x} + {y};
  }

  /** Updating twice with the same answer is updating once. */
  lemma UpdateIdempotent<T>(s: CrudState<T>, id: int, updated: Item<T>)
    requires updated.id == id
    ensures UpdateItem(UpdateItem(s, id, Ok(updated)).0, id, Ok(updated)) == UpdateItem(s, id, Ok(updated))
  {
    var once := ReplaceById(s.items, id, updated);
    assert ReplaceById(once, id, updated) == once;
  }
}

=== FILE: dashboard_service.dfy ===
/** `DashboardService`: the income, spending and planned-budget totals of the
    previous, current and next month. The repository queries become
    selections over the stored records; today's date and the security
    principal are parameters. */
module DashboardService {
  import opened Wrappers
  import opened Decimals
  import opened Calendar
  import opened Domain

  /** The authenticated principal: a `User` (whose id may be null) or any
      other object, such as the anonymous principal. */
  datatype Principal = UserPrincipal(id: Option<UserId>) | OtherPrincipal

  /** `MonthSummaryDTO`; the month stands in for the locale-formatted title. */
  datatype MonthSummary = MonthSummary(
    month: YearMonth,
    totalSpent: Decimal,
    totalIncome: Decimal,
    plannedBudget: Decimal)

  /** `reduce(BigDecimal.ZERO, BigDecimal::add)` over possibly-null amounts:
      the sum, or `None` for the NullPointerException a null amount causes. */
  function SumPresent(xs: seq<Option<Decimal>>): (r: Option<Decimal>)
    ensures r.Some? <==> forall i :: 0 <= i < |xs| ==> xs[i].Some?
  {
    if |xs| == 0 then Some(Zero)
    else
      match SumPresent(xs[..|xs| - 1])
      case None => None
      case Some(total) =>
        match xs[|xs| - 1]
        case None => None
        case Some(x) => Some(Add(total, x))
  }

  /** `findByYearAndMonth(year, month, userId)`: the user's transactions dated
      in the month, in store order. */
  function InMonth(stored: seq<Transaction>, month: YearMonth, user: UserId): (r: seq<Transaction>)
    ensures |r| <= |stored|
    ensures forall i :: 0 <= i < |r| ==>
      r[i] in stored && r[i].user == Some(user) && r[i].creationDate.Some? && YearMonthOf(r[i].creationDate.value) == month
    ensures forall i :: 0 <= i < |stored| ==>
      (stored[i].user == Some(user) && stored[i].creationDate.Some? && YearMonthOf(stored[i].creationDate.value) == month
       ==> stored[i] in r)
    ensures |stored| == 1 ==>
      r == (if stored[0].user == Some(user) && stored[0].creationDate.Some?
              && YearMonthOf(stored[0].creationDate.value) == month
            then [stored[0]] else [])
  {
    if |stored| == 0 then []
    else
      var rest := InMonth(stored[..|stored| - 1], month, user);
      var t := stored[|stored| - 1];
      assert stored == stored[..|stored| - 1] + [t];
      assert |stored| == 1 ==> rest == [];
      if t.user == Some(user) && t.creationDate.Some? && YearMonthOf(t.creationDate.value) == month
      then rest + [t] else rest
  }

  /** `findByYearAndMonthAndUserId`: the user's plannings for the month. */
  function PlanningsInMonth(stored: seq<MonthlyPlanning>, month: YearMonth, user: UserId): (r: seq<MonthlyPlanning>)
    ensures |r| <= |stored|
    ensures forall i :: 0 <= i < |r| ==>
      r[i] in stored && r[i].user == Some(user) && r[i].year == month.year && r[i].month == month.month
    ensures forall i :: 0 <= i < |stored| ==>
      (stored[i].user == Some(user) && stored[i].year == month.year && stored[i].month == month.month ==> stored[i] in r)
    ensures |stored| == 1 ==>
      r == (if stored[0].user == Some(user) && stored[0].year == month.year && stored[0].month == month.month
            then [stored[0]] else [])
  {
    if |stored| == 0 then []
    else
      var rest := PlanningsInMonth(stored[..|stored| - 1], month, user);
      var p := stored[|stored| - 1];
      assert stored == stored[..|stored| - 1] + [p];
      assert |stored| == 1 ==> rest == [];
      if p.user == Some(user) && p.year == month.year && p.month == month.month then rest + [p] else rest
  }

  /** Selecting from two runs of records selects from the first, then the
      second: each stored record is counted once, in store order. */
  lemma {:induction false} InMonthAppend(a: seq<Transaction>, b: seq<Transaction>, month: YearMonth, user: UserId)
    ensures InMonth(a + b, month, user) == InMonth(a, month, user) + InMonth(b, month, user)
  {
    if |b| == 0 {
      assert a + b == a;
    } else {
      var init := b[..|b| - 1];
      assert (a + b)[..|a + b| - 1] == a + init;
      assert (a + b)[|a + b| - 1] == b[|b| - 1];
      InMonthAppend(a, init, month, user);
    }
  }

  lemma {:induction false} PlanningsInMonthAppend(a: seq<MonthlyPlanning>, b: seq<MonthlyPlanning>, month: YearMonth, user: UserId)
    ensures PlanningsInMonth(a + b, month, user) == PlanningsInMonth(a, month, user) + PlanningsInMonth(b, month, user)
  {
    if |b| == 0 {
      assert a + b == a;
    } else {
      var init := b[..|b| - 1];
      assert (a + b)[..|a + b| - 1] == a + init;
      assert (a + b)[|a + b| - 1] == b[|b| - 1];
      PlanningsInMonthAppend(a, init, month, user);
    }
  }

  /** The amounts of the transactions of one type, in order. */
  function AmountsOfType(ts: seq<Transaction>, ty: TransactionType): (r: seq<Option<Decimal>>)
    ensures |r| <= |ts|
  {
    if |ts| == 0 then []
    else
      var rest := AmountsOfType(ts[..|ts| - 1], ty);
      var t := ts[|ts| - 1];
      if t.transactionType == Some(ty) then rest + [t.amount] else rest
  }

  /** What `getPlannedValue` gives for each planning, in order. */
  function PlannedValues(ps: seq<MonthlyPlanning>): (r: seq<Option<Decimal>>)
    ensures |r| == |ps|
    ensures forall i :: 0 <= i < |ps| ==> r[i] == ps[i].estimatedAmount
  {
    seq(|ps|, i requires 0 <= i < |ps| => MonthlyPlanningPlannedValue(ps[i]))
  }

  /** The totals of one month's records: income over ENTRADA, spending over
      SAIDA only, the budget over the plannings' estimates. */
  function Summarize(month: YearMonth, ts: seq<Transaction>, ps: seq<MonthlyPlanning>): (r: Result<MonthSummary, ServiceError>)
    ensures r.Success? ==> r.value.month == month
    ensures r.Success? <==>
      && SumPresent(AmountsOfType(ts, ENTRADA)).Some?
      && SumPresent(AmountsOfType(ts, SAIDA)).Some?
      && SumPresent(PlannedValues(ps)).Some?
  {
    var income := SumPresent(AmountsOfType(ts, ENTRADA));
    var spent := SumPresent(AmountsOfType(ts, SAIDA));
    var planned := SumPresent(PlannedValues(ps));
    if income.Some? && spent.Some? && planned.Some? then
      Success(MonthSummary(month, spent.value, income.value, planned.value))
    else
      Failure(NullValue)
  }

  /** `createSummaryForMonth`. */
  function CreateSummaryForMonth(month: YearMonth, user: UserId, stored: seq<Transaction>, plannings: seq<MonthlyPlanning>): (r: Result<MonthSummary, ServiceError>)
    ensures r.Success? ==> r.value.month == month
  {
    Summarize(month, InMonth(stored, month, user), PlanningsInMonth(plannings, month, user))
  }

  const PreviousKey := "previous"
  const CurrentKey := "current"
  const NextKey := "next"

  /** `getMonthlySummaries`: for a `User` principal with an id, the summaries
      of the month before today's, today's month and the month after; for any
      other principal, no entries. A null amount anywhere in the three months
      is a NullPointerException. */
  function GetMonthlySummaries(principal: Principal, today: Date, stored: seq<Transaction>, plannings: seq<MonthlyPlanning>): (r: Result<map<string, MonthSummary>, ServiceError>)
    ensures !(principal.UserPrincipal? && principal.id.Some?) ==> r == Success(map[])
    ensures r.Success? && r.value != map[] ==>
      && r.value.Keys == {PreviousKey, CurrentKey, NextKey}
      && r.value[CurrentKey].month == YearMonthOf(today)
      && r.value[PreviousKey].month == MinusMonths(YearMonthOf(today), 1)
      && r.value[NextKey].month == PlusMonths(YearMonthOf(today), 1)
  {
    match principal
    case UserPrincipal(Some(user)) =>
      var current := YearMonthOf(today);
      var previous := MinusMonths(current, 1);
      var next := PlusMonths(current, 1);
      var p := CreateSummaryForMonth(previous, user, stored, plannings);
      var c := CreateSummaryForMonth(current, user, stored, plannings);
      var n := CreateSummaryForMonth(next, user, stored, plannings);
      if p.Success? && c.Success? && n.Success? then
        Success(map[PreviousKey := p.value, CurrentKey := c.value, NextKey := n.value])
      else
        Failure(NullValue)
    case _ => Success(map[])
  }

  /** With a signed-in user and a valid date, the three keys are always
      present, and the months either side of today's wrap across the year:
      December's next month is January of the following year and January's
      previous month is December of the year before. */
  lemma SummaryMonths(principal: Principal, today: Date, stored: seq<Transaction>, plannings: seq<MonthlyPlanning>)
    requires principal.UserPrincipal? && principal.id.Some?
    requires ValidDate(today)
    requires GetMonthlySummaries(principal, today, stored, plannings).Success?
    ensures var m := GetMonthlySummaries(principal, today, stored, plannings).value;
      && m.Keys == {PreviousKey, CurrentKey, NextKey}
      && m[NextKey].month == (if today.month == 12 then YearMonth(today.year + 1, 1) else YearMonth(today.year, today.month + 1))
      && m[PreviousKey].month == (if today.month == 1 then YearMonth(today.year - 1, 12) else YearMonth(today.year, today.month - 1))
  {
    NextAndPreviousMonth(YearMonthOf(today));
  }

  /** Adding an amount to a sum: the running total grows by exactly it. */
  lemma {:induction false} SumPresentAppend(xs: seq<Option<Decimal>>, x: Decimal)
    requires SumPresent(xs).Some?
    ensures SumPresent(xs + [Some(x)]) == Some(Add(SumPresent(xs).value, x))
  {
    assert (xs + [Some(x)])[..|xs + [Some(x)]| - 1] == xs;
  }

  /** The amounts of a type over an appended record. */
  lemma AmountsOfTypeAppend(ts: seq<Transaction>, t: Transaction, ty: TransactionType)
    ensures AmountsOfType(ts + [t], ty) == AmountsOfType(ts, ty) + (if t.transactionType == Some(ty) then [t.amount] else [])
  {
    assert (ts + [t])[..|ts + [t]| - 1] == ts;
  }

  /** An ENTRADA transaction adds its amount to the income and nothing to the
      spending. */
  lemma IncomeCounts(month: YearMonth, ts: seq<Transaction>, ps: seq<MonthlyPlanning>, t: Transaction)
    requires Summarize(month, ts, ps).Success?
    requires t.transactionType == Some(ENTRADA) && t.amount.Some?
    ensures var before, after := Summarize(month, ts, ps), Summarize(month, ts + [t], ps);
      && after.Success?
      && after.value.totalIncome == Add(before.value.totalIncome, t.amount.value)
      && after.value.totalSpent == before.value.totalSpent
      && after.value.plannedBudget == before.value.plannedBudget
  {
    AmountsOfTypeAppend(ts, t, ENTRADA);
    AmountsOfTypeAppend(ts, t, SAIDA);
    SumPresentAppend(AmountsOfType(ts, ENTRADA), t.amount.value);
  }

  /** A SAIDA transaction adds its amount to the spending and nothing to the
      income. */
  lemma SpendingCounts(month: YearMonth, ts: seq<Transaction>, ps: seq<MonthlyPlanning>, t: Transaction)
    requires Summarize(month, ts, ps).Success?
    requires t.transactionType == Some(SAIDA) && t.amount.Some?
    ensures var before, after := Summarize(month, ts, ps), Summarize(month, ts + [t], ps);
      && after.Success?
      && after.value.totalSpent == Add(before.value.totalSpent, t.amount.value)
      && after.value.totalIncome == before.value.totalIncome
      && after.value.plannedBudget == before.value.plannedBudget
  {
    AmountsOfTypeAppend(ts, t, ENTRADA);
    AmountsOfTypeAppend(ts, t, SAIDA);
    SumPresentAppend(AmountsOfType(ts, SAIDA), t.amount.value);
  }

  /** Card purchases, transfers and untyped records count towards no total,
      whatever their amount (even a null one). */
  lemma OtherTypesIgnored(month: YearMonth, ts: seq<Transaction>, ps: seq<MonthlyPlanning>, t: Transaction)
    requires t.transactionType != Some(ENTRADA) && t.transactionType != Some(SAIDA)
    ensures Summarize(month, ts + [t], ps) == Summarize(month, ts, ps)
  {
    AmountsOfTypeAppend(ts, t, ENTRADA);
    AmountsOfTypeAppend(ts, t, SAIDA);
  }

  /** A month with no records has all totals zero. */
  lemma EmptyMonth(month: YearMonth)
    ensures Summarize(month, [], []) == Success(MonthSummary(month, Zero, Zero, Zero))
  {
    assert PlannedValues([]) == [];
  }

  /** The budget is the sum of the plannings' estimates: a planning adds its
      estimate, and a null estimate fails the summary. */
  lemma BudgetCounts(month: YearMonth, ts: seq<Transaction>, ps: seq<MonthlyPlanning>, p: MonthlyPlanning)
    requires Summarize(month, ts, ps).Success?
    ensures p.estimatedAmount.None? ==> Summarize(month, ts, ps + [p]).Failure?
    ensures p.estimatedAmount.Some? ==>
      var before, after := Summarize(month, ts, ps), Summarize(month, ts, ps + [p]);
      && after.Success?
      && after.value.plannedBudget == Add(before.value.plannedBudget, p.estimatedAmount.value)
      && after.value.totalIncome == before.value.totalIncome
      && after.value.totalSpent == before.value.totalSpent
  {
    assert PlannedValues(ps + [p]) == PlannedValues(ps) + [p.estimatedAmount];
    if p.estimatedAmount.Some? {
      SumPresentAppend(PlannedValues(ps), p.estimatedAmount.value);
    } else {
      var xs := PlannedValues(ps + [p]);
      assert xs[|xs| - 1].None?;
    }
  }
}

=== FILE: decimal.dfy ===
/** Exact decimal numbers in the shape of `java.math.BigDecimal`: an unscaled
    integer and a scale, denoting unscaled * 10^-scale. Money is this type
    throughout the model, in the backend (where it is BigDecimal) and in the
    frontend (where it is a JavaScript number, whose floating-point rounding
    the model does not reproduce). */
module Decimals {
  import opened Text

  datatype Decimal = Decimal(unscaled: int, scale: nat)

  /** `BigDecimal.ZERO`, and the JavaScript literal `0` a running sum starts from. */
  const Zero := Decimal(0, 0)

  function Max(a: nat, b: nat): nat
  {
    if a < b then b else a
  }

  /** The value of `d` counted in units of 10^-s. */
  function Scaled(d: Decimal, s: nat): int
    requires d.scale <= s
  {
    d.unscaled * Pow10(s - d.scale)
  }

  /** Counting in a finer unit multiplies by the ratio of the units. */
  lemma ScaledRefine(d: Decimal, s: nat, t: nat)
    requires d.scale <= s <= t
    ensures Scaled(d, t) == Scaled(d, s) * Pow10(t - s)
  {
    Pow10Add(s - d.scale, t - s);
    assert t - d.scale == (s - d.scale) + (t - s);
  }

  /** Two decimals denote the same number (BigDecimal.compareTo == 0). */
  predicate SameValue(a: Decimal, b: Decimal)
  {
    var m := Max(a.scale, b.scale);
    Scaled(a, m) == Scaled(b, m)
  }

  /** a <= b as numbers (BigDecimal.compareTo <= 0). */
  predicate AtMost(a: Decimal, b: Decimal)
  {
    var m := Max(a.scale, b.scale);
    Scaled(a, m) <= Scaled(b, m)
  }

  predicate NonNegative(d: Decimal)
  {
    d.unscaled >= 0
  }

  /** Comparing at any common scale agrees with comparing at the smallest one. */
  lemma CompareAtScale(a: Decimal, b: Decimal, s: nat)
    requires a.scale <= s && b.scale <= s
    ensures SameValue(a, b) <==> Scaled(a, s) == Scaled(b, s)
    ensures AtMost(a, b) <==> Scaled(a, s) <= Scaled(b, s)
  {
    var m := Max(a.scale, b.scale);
    ScaledRefine(a, m, s);
    ScaledRefine(b, m, s);
    MultiplyPreservesOrder(Scaled(a, m), Scaled(b, m), Pow10(s - m));
  }

  /** Multiplying by a positive factor keeps equality and order. */
  lemma MultiplyPreservesOrder(x: int, y: int, p: int)
    requires p >= 1
    ensures x == y <==> x * p == y * p
    ensures x <= y <==> x * p <= y * p
  {
    assert x * p - y * p == (x - y) * p;
  }

  /** `BigDecimal.add`, and JavaScript `+` on amounts: exact, with the larger scale. */
  function Add(a: Decimal, b: Decimal): (r: Decimal)
    ensures r.scale == Max(a.scale, b.scale)
  {
    var m := Max(a.scale, b.scale);
    Decimal(Scaled(a, m) + Scaled(b, m), m)
  }

  /** Addition is exact: at every common scale the counts add up. */
  lemma AddScaled(a: Decimal, b: Decimal, s: nat)
    requires a.scale <= s && b.scale <= s
    ensures Scaled(Add(a, b), s) == Scaled(a, s) + Scaled(b, s)
  {
    var m := Max(a.scale, b.scale);
    ScaledRefine(a, m, s);
    ScaledRefine(b, m, s);
    var p := Pow10(s - m);
    assert Scaled(Add(a, b), s) == (Scaled(a, m) + Scaled(b, m)) * p;
  }

  lemma AddCommutes(a: Decimal, b: Decimal)
    ensures Add(a, b) == Add(b, a)
  {
  }

  lemma AddZero(a: Decimal)
    ensures Add(Zero, a) == a
    ensures Add(a, Zero) == a
  {
  }

  /** A decimal is determined by its scale and its count at that scale. */
  lemma ScaledSelf(d: Decimal)
    ensures Scaled(d, d.scale) == d.unscaled
  {
  }

  lemma AddAssociates(a: Decimal, b: Decimal, c: Decimal)
    ensures Add(Add(a, b), c) == Add(a, Add(b, c))
  {
    var l, r := Add(Add(a, b), c), Add(a, Add(b, c));
    var s := l.scale;
    assert r.scale == s;
    AddScaled(Add(a, b), c, s);
    AddScaled(a, b, s);
    AddScaled(a, Add(b, c), s);
    AddScaled(b, c, s);
    ScaledSelf(l);
    ScaledSelf(r);
  }

  /** Adding a non-negative amount never decreases a number. */
  lemma AddNonNegative(a: Decimal, b: Decimal)
    requires NonNegative(b)
    ensures AtMost(a, Add(a, b))
    ensures NonNegative(a) ==> NonNegative(Add(a, b))
  {
    var m := Max(a.scale, b.scale);
    AddScaled(a, b, m);
    CompareAtScale(a, Add(a, b), m);
    assert Scaled(b, m) >= 0;
  }

  lemma AtMostTransitive(a: Decimal, b: Decimal, c: Decimal)
    requires AtMost(a, b) && AtMost(b, c)
    ensures AtMost(a, c)
  {
    var s := Max(Max(a.scale, b.scale), c.scale);
    CompareAtScale(a, b, s);
    CompareAtScale(b, c, s);
    CompareAtScale(a, c, s);
  }

  function Negate(d: Decimal): Decimal
  {
    Decimal(-d.unscaled, d.scale)
  }

  /** `BigDecimal.subtract`: exact, with the larger scale. */
  function Subtract(a: Decimal, b: Decimal): (r: Decimal)
  {
    Add(a, Negate(b))
  }

  lemma SubtractScaled(a: Decimal, b: Decimal, s: nat)
    requires a.scale <= s && b.scale <= s
    ensures Scaled(Subtract(a, b), s) == Scaled(a, s) - Scaled(b, s)
  {
    AddScaled(a, Negate(b), s);
  }

  // ---------------------------------------------------------------------------
  // Left-fold sums: Java's `reduce(BigDecimal.ZERO, BigDecimal::add)` and a
  // JavaScript `+=` loop starting from 0.

  function Sum(xs: seq<Decimal>): Decimal
  {
    if |xs| == 0 then Zero else Add(Sum(xs[..|xs| - 1]), xs[|xs| - 1])
  }

  /** Summing a concatenation adds the two partial sums. */
  lemma {:induction false} SumAppend(xs: seq<Decimal>, ys: seq<Decimal>)
    ensures Sum(xs + ys) == Add(Sum(xs), Sum(ys))
  {
    if |ys| == 0 {
      assert xs + ys == xs;
      AddZero(Sum(xs));
    } else {
      var ys' := ys[..|ys| - 1];
      assert (xs + ys)[..|xs + ys| - 1] == xs + ys';
      SumAppend(xs, ys');
      AddAssociates(Sum(xs), Sum(ys'), ys[|ys| - 1]);
    }
  }

  lemma MultiplySuccessor(n: int, x: int)
    ensures (n + 1) * x == n * x + x
  {
  }

  /** Summing n copies of one amount multiplies it by n. */
  lemma {:induction false} SumOfEqual(xs: seq<Decimal>, d: Decimal, s: nat)
    requires forall i :: 0 <= i < |xs| ==> xs[i] == d
    requires d.scale <= s
    ensures Sum(xs).scale <= d.scale
    ensures Scaled(Sum(xs), s) == |xs| * Scaled(d, s)
  {
    if |xs| > 0 {
      var init := xs[..|xs| - 1];
      SumOfEqual(init, d, s);
      AddScaled(Sum(init), d, s);
      assert Sum(xs) == Add(Sum(init), d);
      MultiplySuccessor(|init|, Scaled(d, s));
    }
  }

  /** Summing from the front: the first amount plus the sum of the rest. */
  lemma {:induction false} SumPrepend(x: Decimal, xs: seq<Decimal>)
    ensures Sum([x] + xs) == Add(x, Sum(xs))
  {
    if |xs| == 0 {
      assert [x] + xs == [x];
      AddZero(x);
    } else {
      var init := xs[..|xs| - 1];
      assert ([x] + xs)[..|[x] + xs| - 1] == [x] + init;
      SumPrepend(x, init);
      AddAssociates(x, Sum(init), xs[|xs| - 1]);
    }
  }

  /** Adding `a` to one of the amounts adds `a` to their sum. */
  lemma {:induction false} SumUpdate(xs: seq<Decimal>, j: nat, a: Decimal)
    requires j < |xs|
    ensures Sum(xs[j := Add(xs[j], a)]) == Add(Sum(xs), a)
  {
    var ys := xs[j := Add(xs[j], a)];
    var init := xs[..|xs| - 1];
    var last := xs[|xs| - 1];
    if j == |xs| - 1 {
      assert ys[..|ys| - 1] == init;
      AddAssociates(Sum(init), last, a);
    } else {
      assert ys[..|ys| - 1] == init[j := Add(init[j], a)];
      SumUpdate(init, j, a);
      AddAssociates(Sum(init), a, last);
      AddCommutes(a, last);
      AddAssociates(Sum(init), last, a);
    }
  }

  /** A sum of non-negative amounts is non-negative. */
  lemma {:induction false} SumNonNegative(xs: seq<Decimal>)
    requires forall i :: 0 <= i < |xs| ==> NonNegative(xs[i])
    ensures NonNegative(Sum(xs))
  {
    if |xs| > 0 {
      SumNonNegative(xs[..|xs| - 1]);
      AddNonNegative(Sum(xs[..|xs| - 1]), xs[|xs| - 1]);
    }
  }

  // ---------------------------------------------------------------------------
  // RoundingMode.HALF_UP

  function Abs(x: int): nat
  {
    if x < 0 then -x else x
  }

  /** `q` is num/den rounded HALF_UP: the nearest integer, and on a tie the one
      farther from zero. */
  predicate IsHalfUpRounding(num: int, den: int, q: int)
    requires den > 0
  {
    var err := num - q * den;
    && 2 * Abs(err) <= den
    && (2 * Abs(err) == den ==> Abs(q * den) > Abs(num))
  }

  lemma HalfUpNonNegative(n: nat, den: int)
    requires den > 0
    ensures IsHalfUpRounding(n, den, (2 * n + den) / (2 * den))
  {
    var q := (2 * n + den) / (2 * den);
    var r := (2 * n + den) % (2 * den);
    assert 2 * n + den == q * (2 * den) + r;
    assert 0 <= r < 2 * den;
    assert 2 * (n - q * den) == r - den;
    assert q >= 0;
  }

  /** num/den rounded HALF_UP to an integer. */
  function RoundHalfUp(num: int, den: int): (q: int)
    requires den > 0
    ensures IsHalfUpRounding(num, den, q)
  {
    if num >= 0 then
      HalfUpNonNegative(num, den);
      (2 * num + den) / (2 * den)
    else
      HalfUpNonNegative(-num, den);
      var q' := (2 * -num + den) / (2 * den);
      assert -num - q' * den == -(num - (-q') * den);
      -q'
  }

  lemma NonZeroMultiple(k: int, den: int)
    requires den > 0 && k != 0
    ensures Abs(k * den) >= den
  {
    if k > 0 {
      assert k * den == (k - 1) * den + den;
    } else {
      assert -(k * den) == (-k - 1) * den + den;
    }
  }

  /** Two neighbouring integers cannot both be the HALF_UP result. */
  lemma HalfUpNoNeighbour(num: int, den: int, q: int)
    requires den > 0
    requires IsHalfUpRounding(num, den, q)
    ensures !IsHalfUpRounding(num, den, q + 1)
  {
  }

  /** HALF_UP rounding is a function: at most one integer qualifies. */
  lemma HalfUpUnique(num: int, den: int, q1: int, q2: int)
    requires den > 0
    requires IsHalfUpRounding(num, den, q1) && IsHalfUpRounding(num, den, q2)
    ensures q1 == q2
  {
    if q1 < q2 {
      HalfUpOrdered(num, den, q1, q2);
    } else if q2 < q1 {
      HalfUpOrdered(num, den, q2, q1);
    }
  }

  lemma HalfUpOrdered(num: int, den: int, lo: int, hi: int)
    requires den > 0 && lo < hi
    requires IsHalfUpRounding(num, den, lo)
    ensures !IsHalfUpRounding(num, den, hi)
  {
    var e1, e2 := num - lo * den, num - hi * den;
    assert e1 - e2 == (hi - lo) * den;
    NonZeroMultiple(hi - lo, den);
    HalfUpNoNeighbour(num, den, lo);
    if hi > lo + 1 {
      assert (hi - lo) * den == den + (hi - lo - 1) * den;
      NonZeroMultiple(hi - lo - 1, den);
    }
  }

  /** `a.divide(BigDecimal.valueOf(n), 2, RoundingMode.HALF_UP)`. */
  function DivideToCents(a: Decimal, n: int): (r: Decimal)
    requires n > 0
    ensures r.scale == 2
    ensures IsHalfUpRounding(a.unscaled * 100, Pow10(a.scale) * n, r.unscaled)
  {
    Decimal(RoundHalfUp(a.unscaled * 100, Pow10(a.scale) * n), 2)
  }
}

=== FILE: domain.dfy ===
/** The records the backend services and the frontend exchange: transactions,
    accounts, categories and monthly planning entries, in the shape the
    services use them (Java `null` is `None`). */
module Domain {
  import opened Wrappers
  import opened Text
  import opened Decimals
  import opened Calendar

  /** `TransactionType`: income, expense, transfer between accounts, credit card. */
  datatype TransactionType = ENTRADA | SAIDA | MOVIMENTACAO | CARTAO

  /** `TransactionType.name()`. */
  function TypeName(t: TransactionType): string
  {
    match t
    case ENTRADA => "ENTRADA"
    case SAIDA => "SAIDA"
    case MOVIMENTACAO => "MOVIMENTACAO"
    case CARTAO => "CARTAO"
  }

  /** `TransactionType.valueOf(s)`: exact, case-sensitive; `None` is the
      IllegalArgumentException. */
  function TypeValueOf(s: string): (r: Option<TransactionType>)
  {
    if s == "ENTRADA" then Some(ENTRADA)
    else if s == "SAIDA" then Some(SAIDA)
    else if s == "MOVIMENTACAO" then Some(MOVIMENTACAO)
    else if s == "CARTAO" then Some(CARTAO)
    else None
  }

  /** `valueOf` accepts exactly the constant names, each for its own constant. */
  lemma TypeValueOfName(s: string, t: TransactionType)
    ensures TypeValueOf(s) == Some(t) <==> s == TypeName(t)
  {
  }

  type UserId = int

  /** Why a service call throws: no authenticated user (IllegalStateException
      from `getCurrentUserOrThrow`), an id with no stored record
      (RuntimeException), or a dereferenced `null` (NullPointerException). */
  datatype ServiceError = NotAuthenticated | NotFound(id: int) | NullValue

  /** A category or an account as a transaction refers to it: only its id and
      its name matter to the services modelled. */
  datatype Ref = Ref(id: Option<int>, name: Option<string>)

  datatype Transaction = Transaction(
    id: Option<int>,
    name: Option<string>,
    amount: Option<Decimal>,
    creationDate: Option<Date>,
    transactionType: Option<TransactionType>,
    category: Option<Ref>,
    outAccount: Option<Ref>,
    inAccount: Option<Ref>,
    user: Option<UserId>,
    totalInstallments: Option<int>,
    installmentNumber: Option<int>)

  /** `new Transaction()`: every field null. */
  const EmptyTransaction := Transaction(None, None, None, None, None, None, None, None, None, None, None)

  datatype Account = Account(
    id: Option<int>,
    name: Option<string>,
    initialBalance: Option<Decimal>,
    currentBalance: Option<Decimal>,
    user: Option<UserId>)

  /** `MonthlyPlanning`: an estimated amount for a category in a month; month
      and year are Java `int`s (0 when never set). */
  datatype MonthlyPlanning = MonthlyPlanning(
    id: Option<int>,
    month: int,
    year: int,
    category: Option<Ref>,
    estimatedAmount: Option<Decimal>,
    user: Option<UserId>)

  /** `Planning`: the same entry without an owner. */
  datatype Planning = Planning(
    id: Option<int>,
    month: int,
    year: int,
    category: Option<Ref>,
    estimatedAmount: Option<Decimal>)

  // ---------------------------------------------------------------------------
  // The "%d-%02d" year-month key

  /** `%02d`: zero-padded to two characters; the sign counts toward the width. */
  function TwoDigits(n: int): string
  {
    if 0 <= n < 10 then "0" + NatToString(n) else IntToString(n)
  }

  /** `"%d-%02d".formatted(year, month)`. */
  function YearMonthKey(year: int, month: int): (key: string)
  {
    IntToString(year) + "-" + TwoDigits(month)
  }

  /** `MonthlyPlanning.getYearMonth()`; `YearMonthKeyShape` and
      `YearMonthKeyInjective` state what the key holds. */
  function MonthlyPlanningYearMonth(p: MonthlyPlanning): string
  {
    YearMonthKey(p.year, p.month)
  }

  /** `Planning.getYearMonth()`: the same format through `String.format`. */
  function PlanningYearMonth(p: Planning): string
  {
    YearMonthKey(p.year, p.month)
  }

  /** `MonthlyPlanning.getPlannedValue()`. */
  function MonthlyPlanningPlannedValue(p: MonthlyPlanning): Option<Decimal>
  {
    p.estimatedAmount
  }

  /** A calendar month is written with exactly two digits, which read back as
      the month. */
  lemma TwoDigitsMonth(month: int)
    requires 1 <= month <= 12
    ensures |TwoDigits(month)| == 2
    ensures AllDigits(TwoDigits(month))
    ensures ParseDigits(TwoDigits(month)) == month
  {
    var s := TwoDigits(month);
    ParseNatToString(month);
    if month < 10 {
      ParseDigitsAppend("0", NatToString(month));
    } else {
      NatToStringLength(month, 2);
      assert Pow10(2) == 100;
    }
  }

  /** The key is the year, a '-', and the month as two digits. */
  lemma YearMonthKeyShape(year: int, month: int)
    requires 1 <= month <= 12
    ensures var key := YearMonthKey(year, month);
      && key[..|key| - 3] == IntToString(year)
      && key[|key| - 3] == '-'
      && AllDigits(key[|key| - 2..])
      && ParseDigits(key[|key| - 2..]) == month
  {
    TwoDigitsMonth(month);
    var key := YearMonthKey(year, month);
    assert key[|key| - 2..] == TwoDigits(month);
    assert key[..|key| - 3] == IntToString(year);
  }

  /** With a four-digit year the key has the shape YYYY-MM. */
  lemma YearMonthKeyFourDigitYear(year: int, month: int)
    requires 1000 <= year <= 9999 && 1 <= month <= 12
    ensures |YearMonthKey(year, month)| == 7
  {
    TwoDigitsMonth(month);
    NatToStringLength(year, 4);
    NatToStringLength(year, 3);
    assert Pow10(3) == 1000 && Pow10(4) == 10000;
  }

  /** Distinct calendar months get distinct keys. */
  lemma YearMonthKeyInjective(y1: int, m1: int, y2: int, m2: int)
    requires 1 <= m1 <= 12 && 1 <= m2 <= 12
    requires YearMonthKey(y1, m1) == YearMonthKey(y2, m2)
    ensures y1 == y2 && m1 == m2
  {
    YearMonthKeyShape(y1, m1);
    YearMonthKeyShape(y2, m2);
    IntToStringInjective(y1, y2);
  }

  /** A planning and a monthly planning for the same month share the key. */
  lemma PlanningKeysAgree(p: Planning, q: MonthlyPlanning)
    requires p.year == q.year && p.month == q.month
    ensures PlanningYearMonth(p) == MonthlyPlanningYearMonth(q)
  {
  }
}

=== FILE: excel_roundtrip.dfy ===
/** What an exported workbook gives back when it is imported again: the
    export and the import of `ExcelService` as a pair. */
module ExcelRoundTrip {
  import opened Wrappers
  import opened Text
  import opened Decimals
  import opened Calendar
  import opened JavaNumbers
  import opened Domain
  import opened Workbooks
  import opened ExcelService

  // ---------------------------------------------------------------------------
  // What survives the trip, written independently of the cell layout

  /** A reference comes back as its name alone, and only when that name is
      non-empty (a null name is written as a blank cell, read as ""). */
  function ImportedRef(r: Option<Ref>): Option<Ref>
  {
    match r
    case None => None
    case Some(ref) => if ref.name.Some? && |ref.name.value| > 0 then Some(Ref(None, ref.name)) else None
  }

  /** An exported transaction as the import rebuilds it: the name (empty for
      a null name), date, amount in `Double.toString` digits, type and
      reference names; id, owner and installment fields are not exported. */
  function ImportedTransaction(t: Transaction): Transaction
    requires Exportable(t)
  {
    EmptyTransaction.(
      name := Some(t.name.GetOr("")),
      creationDate := t.creationDate,
      amount := Some(Canonical(t.amount.value)),
      transactionType := t.transactionType,
      category := ImportedRef(t.category),
      outAccount := ImportedRef(t.outAccount),
      inAccount := ImportedRef(t.inAccount))
  }

  function ImportedTransactions(ts: seq<Transaction>): seq<Transaction>
    requires forall k :: 0 <= k < |ts| ==> Exportable(ts[k])
  {
    if |ts| == 0 then [] else [ImportedTransaction(ts[0])] + ImportedTransactions(ts[1..])
  }

  /** An exported planning as the import rebuilds it: kept only with a
      positive month and year, then with its category name and amount and
      without id or owner. */
  function ImportedPlanning(p: MonthlyPlanning): Option<MonthlyPlanning>
    requires p.estimatedAmount.Some?
  {
    if p.month > 0 && p.year > 0
    then Some(MonthlyPlanning(None, p.month, p.year, ImportedRef(p.category), Some(Canonical(p.estimatedAmount.value)), None))
    else None
  }

  function ImportedPlannings(ps: seq<MonthlyPlanning>): seq<MonthlyPlanning>
    requires forall k :: 0 <= k < |ps| ==> ps[k].estimatedAmount.Some?
  {
    if |ps| == 0 then []
    else (match ImportedPlanning(ps[0]) case Some(p) => [p] case None => []) + ImportedPlannings(ps[1..])
  }

  /** A transaction whose date is set and is a date `LocalDate` can hold. */
  predicate DateWritable(t: Transaction)
  {
    t.creationDate.Some? && IsLocalDate(t.creationDate.value)
  }

  // ---------------------------------------------------------------------------
  // One cell at a time

  /** A reference column reads back as the reference's non-empty name. */
  lemma RefCellRoundTrip(r: Option<Ref>)
    ensures ParseRefCell(RefCell(r)) == ImportedRef(r)
  {
  }

  /** The ISO date text reads back as the date. */
  lemma DateCellRoundTrip(d: Date)
    requires IsLocalDate(d)
    ensures ParseDateCell(Some(StringCell(FormatIso(d)))) == Some(d)
  {
    ParseFormatIso(d);
  }

  /** The type name reads back as the type. */
  lemma TypeCellRoundTrip(t: TransactionType)
    ensures ParseTypeCell(Some(StringCell(TypeName(t)))) == Some(t)
  {
    TypeValueOfName(TypeName(t), t);
  }

  /** A month or year written as a number reads back through
      `(int) Double.parseDouble` unchanged. */
  lemma IntCellRoundTrip(m: int)
    requires IsJavaInt(m)
    ensures ParseIntCell(Some(NumericCell(Decimal(m, 0), None))) == m
  {
    IntegralCellRoundTrip(m);
  }

  // ---------------------------------------------------------------------------
  // One row at a time

  /** The cells of an exported transaction row, column by column. */
  lemma ExportedTransactionCells(t: Transaction)
    requires Exportable(t)
    ensures var row := ExportTransactionRow(t).value;
      && GetCell(row, 0) == Some(TextCell(t.name))
      && GetCell(row, 1) == Some(StringCell(FormatIso(t.creationDate.value)))
      && GetCell(row, 2) == Some(NumericCell(t.amount.value, None))
      && GetCell(row, 3) == Some(StringCell(TypeName(t.transactionType.value)))
      && GetCell(row, 4) == RefCell(t.category)
      && GetCell(row, 5) == RefCell(t.outAccount)
      && GetCell(row, 6) == RefCell(t.inAccount)
  {
  }

  /** A row whose cells read as the fields of `t` parses to `t`. */
  lemma TransactionRowOf(row: Row, t: Transaction)
    requires GetCell(row, 0).Some? && t.name == Some(CellText(GetCell(row, 0)))
    requires t.amount.Some? && ParseAmountCell(GetCell(row, 2)) == t.amount
    requires ParseDateCell(GetCell(row, 1)) == t.creationDate
    requires ParseTypeCell(GetCell(row, 3)) == t.transactionType
    requires ParseRefCell(GetCell(row, 4)) == t.category
    requires ParseRefCell(GetCell(row, 5)) == t.outAccount
    requires ParseRefCell(GetCell(row, 6)) == t.inAccount
    requires t.id.None? && t.user.None? && t.totalInstallments.None? && t.installmentNumber.None?
    ensures ParseTransactionRow(row) == Some(t)
  {
  }

  /** An exported transaction row parses back to the imported transaction. */
  lemma TransactionRowRoundTrip(t: Transaction)
    requires Exportable(t) && DateWritable(t)
    ensures ParseTransactionRow(ExportTransactionRow(t).value) == Some(ImportedTransaction(t))
  {
    var row := ExportTransactionRow(t).value;
    ExportedTransactionCells(t);
    DateCellRoundTrip(t.creationDate.value);
    TypeCellRoundTrip(t.transactionType.value);
    RefCellRoundTrip(t.category);
    RefCellRoundTrip(t.outAccount);
    RefCellRoundTrip(t.inAccount);
    AmountCellRoundTrip(t.amount.value);
    TransactionRowOf(row, ImportedTransaction(t));
  }

  /** An amount written as a number reads back as its canonical value. */
  lemma AmountCellRoundTrip(d: Decimal)
    ensures ParseAmountCell(Some(NumericCell(d, None))) == Some(Canonical(d))
  {
  }

  /** A planning row whose cells read as the given month, year, category and
      amount parses to that planning when month and year are positive. */
  lemma PlanningRowOf(row: Row, month: int, year: int, category: Option<Ref>, amount: Decimal)
    requires ParseIntCell(GetCell(row, 0)) == month && ParseIntCell(GetCell(row, 1)) == year
    requires ParseRefCell(GetCell(row, 2)) == category
    requires ParseAmountCell(GetCell(row, 3)) == Some(amount)
    ensures ParsePlanningRow(row)
         == if month > 0 && year > 0 then Some(MonthlyPlanning(None, month, year, category, Some(amount), None)) else None
  {
  }

  /** An exported planning row parses back to the planning when month and
      year are positive, and is dropped otherwise. */
  lemma PlanningRowRoundTrip(p: MonthlyPlanning)
    requires p.estimatedAmount.Some? && IsJavaInt(p.month) && IsJavaInt(p.year)
    ensures ParsePlanningRow(ExportPlanningRow(p).value) == ImportedPlanning(p)
  {
    var row := ExportPlanningRow(p).value;
    assert GetCell(row, 0) == Some(NumericCell(Decimal(p.month, 0), None));
    assert GetCell(row, 1) == Some(NumericCell(Decimal(p.year, 0), None));
    assert GetCell(row, 2) == RefCell(p.category);
    assert GetCell(row, 3) == Some(NumericCell(p.estimatedAmount.value, None));
    IntCellRoundTrip(p.month);
    IntCellRoundTrip(p.year);
    RefCellRoundTrip(p.category);
    PlanningRowOf(row, p.month, p.year, ImportedRef(p.category), Canonical(p.estimatedAmount.value));
  }

  // ---------------------------------------------------------------------------
  // Whole sheets

  /** Unwrapping rows that are all present. */
  function Unwrap(rows: seq<Option<Row>>): seq<Row>
    requires forall k :: 0 <= k < |rows| ==> rows[k].Some?
  {
    seq(|rows|, k requires 0 <= k < |rows| => rows[k].value)
  }

  /** A sheet written as a header row followed by present rows has those rows
      as its data rows. */
  lemma DataRowsAfterHeader(name: string, header: Row, rows: seq<Option<Row>>)
    requires forall k :: 0 <= k < |rows| ==> rows[k].Some?
    ensures DataRows(Sheet(name, [Some(header)] + rows)) == Unwrap(rows)
  {
    var data := Unwrap(rows);
    assert rows == seq(|data|, i requires 0 <= i < |data| => Some(data[i]));
    PresentRowsAllPresent(data);
    PresentRowsAppend([Some(header)], rows);
  }

  /** Rows that each parse to the imported form of the matching transaction
      parse, together, to the imported transactions. */
  lemma {:induction false} TransactionRowsOf(rows: seq<Row>, ts: seq<Transaction>)
    requires |rows| == |ts|
    requires forall k :: 0 <= k < |ts| ==> Exportable(ts[k])
    requires forall k :: 0 <= k < |ts| ==> ParseTransactionRow(rows[k]) == Some(ImportedTransaction(ts[k]))
    ensures ParseTransactionRows(rows) == ImportedTransactions(ts)
  {
    if |ts| > 0 {
      TransactionRowsOf(rows[1..], ts[1..]);
    }
  }

  lemma {:induction false} TransactionRowsRoundTrip(ts: seq<Transaction>)
    requires forall k :: 0 <= k < |ts| ==> Exportable(ts[k]) && DateWritable(ts[k])
    ensures ParseTransactionRows(Unwrap(ExportTransactionRows(ts).value)) == ImportedTransactions(ts)
  {
    var rows := Unwrap(ExportTransactionRows(ts).value);
    forall k | 0 <= k < |ts|
      ensures ParseTransactionRow(rows[k]) == Some(ImportedTransaction(ts[k]))
    {
      TransactionRowRoundTrip(ts[k]);
    }
    TransactionRowsOf(rows, ts);
  }

  /** Rows that each parse to the imported form of the matching planning
      parse, together, to the imported plannings. */
  lemma {:induction false} PlanningRowsOf(rows: seq<Row>, ps: seq<MonthlyPlanning>)
    requires |rows| == |ps|
    requires forall k :: 0 <= k < |ps| ==> ps[k].estimatedAmount.Some?
    requires forall k :: 0 <= k < |ps| ==> ParsePlanningRow(rows[k]) == ImportedPlanning(ps[k])
    ensures ParsePlanningRows(rows) == ImportedPlannings(ps)
  {
    if |ps| > 0 {
      PlanningRowsOf(rows[1..], ps[1..]);
    }
  }

  lemma {:induction false} PlanningRowsRoundTrip(ps: seq<MonthlyPlanning>)
    requires forall k :: 0 <= k < |ps| ==> ps[k].estimatedAmount.Some? && IsJavaInt(ps[k].month) && IsJavaInt(ps[k].year)
    ensures ParsePlanningRows(Unwrap(ExportPlanningRows(ps).value)) == ImportedPlannings(ps)
  {
    var rows := Unwrap(ExportPlanningRows(ps).value);
    forall k | 0 <= k < |ps|
      ensures ParsePlanningRow(rows[k]) == ImportedPlanning(ps[k])
    {
      PlanningRowRoundTrip(ps[k]);
    }
    PlanningRowsOf(rows, ps);
  }

  // ---------------------------------------------------------------------------
  // Whole workbooks

  /** The sheet names the export writes: the transaction sheet is not found
      under the planning name. */
  lemma SheetNamesDiffer(name: string, planning: string)
    requires name == TransactionsSheetName && planning == PlanningSheetName
    ensures !EqualsIgnoreCase(planning, name)
  {
    assert |ToLower(planning)| != |ToLower(name)|;
  }

  /** The exported transaction sheet comes first and is found by its name. */
  lemma ExportedTransactionSheetFound(wb: Workbook, rows: seq<Option<Row>>)
    requires |wb| >= 1 && wb[0] == Sheet(TransactionsSheetName, [Some(HeaderRow(TransactionHeaders))] + rows)
    ensures FindTransactionSheet(wb) == Some(0)
  {
    TransactionHeaderDetected(rows);
    assert SheetByName(wb, TransactionsSheetName) == Some(0);
  }

  /** Without a planning list the only sheet is the transaction sheet, which
      the planning search passes over. */
  lemma NoPlanningSheet(wb: Workbook)
    requires |wb| == 1 && wb[0].name == TransactionsSheetName
    ensures FindPlanningSheet(wb, Some(0)).None?
  {
    SheetNamesDiffer(wb[0].name, PlanningSheetName);
    assert SheetByName(wb, PlanningSheetName).None?;
  }

  /** The exported planning sheet comes second and is found by its name. */
  lemma ExportedPlanningSheetFound(wb: Workbook, rows: seq<Option<Row>>)
    requires |wb| == 2 && wb[0].name == TransactionsSheetName
    requires wb[1] == Sheet(PlanningSheetName, [Some(HeaderRow(PlanningHeaders))] + rows)
    ensures FindPlanningSheet(wb, Some(0)) == Some(1)
  {
    SheetNamesDiffer(wb[0].name, PlanningSheetName);
    PlanningHeaderDetected(rows);
    assert SheetByName(wb, PlanningSheetName) == Some(1);
  }

  /** The sheets `exportToExcel` writes: the transaction sheet, then the
      planning sheet when there is a planning list. */
  lemma ExportedSheets(ts: seq<Transaction>, plannings: Option<seq<MonthlyPlanning>>)
    requires ExportToExcel(ts, plannings).Success?
    ensures var wb := ExportToExcel(ts, plannings).value;
      && |wb| >= 1
      && wb[0] == Sheet(TransactionsSheetName, [Some(HeaderRow(TransactionHeaders))] + ExportTransactionRows(ts).value)
      && (plannings.None? ==> |wb| == 1)
      && (plannings.Some? ==>
            && |wb| == 2
            && wb[1] == Sheet(PlanningSheetName, [Some(HeaderRow(PlanningHeaders))] + ExportPlanningRows(plannings.value).value))
  {
  }

  /** The transactions imported from a workbook whose first sheet is an
      exported transaction sheet. */
  lemma {:induction false} TransactionsImported(wb: Workbook, ts: seq<Transaction>)
    requires forall k :: 0 <= k < |ts| ==> Exportable(ts[k]) && DateWritable(ts[k])
    requires |wb| >= 1 && wb[0] == Sheet(TransactionsSheetName, [Some(HeaderRow(TransactionHeaders))] + ExportTransactionRows(ts).value)
    ensures ImportData(wb).transactions == ImportedTransactions(ts)
  {
    var transRows := ExportTransactionRows(ts).value;
    ExportedTransactionSheetFound(wb, transRows);
    DataRowsAfterHeader(TransactionsSheetName, HeaderRow(TransactionHeaders), transRows);
    TransactionRowsRoundTrip(ts);
  }

  /** The plannings imported from a workbook of an exported transaction sheet
      and an exported planning sheet. */
  lemma {:induction false} PlanningsImported(wb: Workbook, ts: seq<Transaction>, ps: seq<MonthlyPlanning>)
    requires forall k :: 0 <= k < |ts| ==> Exportable(ts[k]) && DateWritable(ts[k])
    requires forall k :: 0 <= k < |ps| ==> ps[k].estimatedAmount.Some? && IsJavaInt(ps[k].month) && IsJavaInt(ps[k].year)
    requires |wb| == 2 && wb[0] == Sheet(TransactionsSheetName, [Some(HeaderRow(TransactionHeaders))] + ExportTransactionRows(ts).value)
    requires wb[1] == Sheet(PlanningSheetName, [Some(HeaderRow(PlanningHeaders))] + ExportPlanningRows(ps).value)
    ensures ImportData(wb).monthlyPlannings == ImportedPlannings(ps)
  {
    var planRows := ExportPlanningRows(ps).value;
    ExportedTransactionSheetFound(wb, ExportTransactionRows(ts).value);
    ExportedPlanningSheetFound(wb, planRows);
    DataRowsAfterHeader(PlanningSheetName, HeaderRow(PlanningHeaders), planRows);
    PlanningRowsRoundTrip(ps);
  }

  /** Importing an exported workbook gives back every exported transaction
      and the exported plannings with positive month and year, as
      `ImportedTransactions` and `ImportedPlannings` describe them; without a
      planning list no planning comes back. */
  lemma {:induction false} ExportImportRoundTrip(ts: seq<Transaction>, plannings: Option<seq<MonthlyPlanning>>, wb: Workbook)
    requires ExportToExcel(ts, plannings) == Success(wb)
    requires forall k :: 0 <= k < |ts| ==> DateWritable(ts[k])
    requires plannings.Some? ==> forall k :: 0 <= k < |plannings.value| ==>
      IsJavaInt(plannings.value[k].month) && IsJavaInt(plannings.value[k].year)
    ensures ImportData(wb).transactions == ImportedTransactions(ts)
    ensures plannings.None? ==> ImportData(wb).monthlyPlannings == []
    ensures plannings.Some? ==> ImportData(wb).monthlyPlannings == ImportedPlannings(plannings.value)
  {
    ExportedSheets(ts, plannings);
    TransactionsImported(wb, ts);
    if plannings.Some? {
      PlanningsImported(wb, ts, plannings.value);
    } else {
      ExportedTransactionSheetFound(wb, ExportTransactionRows(ts).value);
      NoPlanningSheet(wb);
    }
  }

  // ---------------------------------------------------------------------------
  // A workbook holding only a planning sheet, under any name

  /** A label of another length is not matched, whatever the case. */
  lemma LabelLengthMismatch(text: string, expected: string)
    requires |text| > 0 && text[0] > ' ' && text[|text| - 1] > ' '
    requires |text| != |expected|
    ensures !Matches(Some(StringCell(text)), expected)
  {
    TrimNoBlankEnds(text);
  }

  /** A header whose labels all differ in length from `expected` does not
      carry it. */
  lemma HeaderRowLacksLabel(labels: seq<string>, expected: string)
    requires forall k :: 0 <= k < |labels| ==>
      |labels[k]| > 0 && labels[k][0] > ' ' && labels[k][|labels[k]| - 1] > ' ' && |labels[k]| != |expected|
    ensures !HasLabel(HeaderRow(labels), expected)
  {
    var row := HeaderRow(labels);
    forall c | 0 <= c < |row|
      ensures !Matches(row[c], expected)
    {
      LabelLengthMismatch(labels[c], expected);
    }
  }

  /** The planning header carries no "Nome" label, so a planning sheet is
      never taken for a transaction sheet. */
  lemma PlanningHeaderLacksName(labels: seq<string>)
    requires |labels| == 4 && labels[0] == MonthLabel && labels[1] == YearLabel
    requires labels[2] == CategoryLabel && labels[3] == EstimatedLabel
    ensures !TransactionHeader(HeaderRow(labels))
  {
    assert |NameLabel| == 4;
    assert |labels[0]| == 3 && |labels[1]| == 3 && |labels[2]| == 9 && |labels[3]| == 14;
    forall k | 0 <= k < |labels|
      ensures |labels[k]| > 0 && labels[k][0] > ' ' && labels[k][|labels[k]| - 1] > ' ' && |labels[k]| != |NameLabel|
    {
      if k == 0 {
      } else if k == 1 {
      } else if k == 2 {
      } else {
      }
    }
    HeaderRowLacksLabel(labels, NameLabel);
  }

  /** A sheet headed by the planning header passes the planning check. */
  lemma PlanningHeadedSheet(sheet: Sheet, rows: seq<Option<Row>>)
    requires sheet.rows == [Some(HeaderRow(PlanningHeaders))] + rows
    ensures IsPlanningSheet(sheet)
  {
    PlanningHeaderDetected(rows);
    assert GetRow(sheet, 0) == Some(HeaderRow(PlanningHeaders));
  }

  /** A sheet headed by the planning header fails the transaction check. */
  lemma PlanningHeadedNotTransaction(sheet: Sheet, rows: seq<Option<Row>>)
    requires sheet.rows == [Some(HeaderRow(PlanningHeaders))] + rows
    ensures !IsTransactionSheet(sheet)
  {
    PlanningHeaderLacksName(PlanningHeaders);
    assert GetRow(sheet, 0) == Some(HeaderRow(PlanningHeaders));
  }

  /** With no sheet passing the transaction check there is no transaction
      sheet. */
  lemma NoTransactionSheet(wb: Workbook)
    requires forall j :: 0 <= j < |wb| ==> !IsTransactionSheet(wb[j])
    ensures FindTransactionSheet(wb).None?
  {
    var byName := SheetByName(wb, TransactionsSheetName);
    if byName.Some? {
      assert !IsTransactionSheet(wb[byName.value]);
    }
    assert FirstPassing(wb, IsTransactionSheet, None, 0).None?;
  }

  /** The one sheet of a workbook is its planning sheet when it passes the
      planning check and is not the transaction sheet. */
  lemma OnlyPlanningSheet(wb: Workbook)
    requires |wb| == 1 && IsPlanningSheet(wb[0])
    ensures FindPlanningSheet(wb, None) == Some(0)
  {
  }

  /** In a workbook of one sheet with the planning header there is no
      transaction sheet. */
  lemma PlanningOnlyNoTransactionSheet(wb: Workbook, rows: seq<Option<Row>>)
    requires |wb| == 1 && wb[0].rows == [Some(HeaderRow(PlanningHeaders))] + rows
    ensures FindTransactionSheet(wb).None?
  {
    PlanningHeadedNotTransaction(wb[0], rows);
    assert forall j :: 0 <= j < |wb| ==> wb[j] == wb[0];
    NoTransactionSheet(wb);
  }

  /** In a workbook of one sheet with the planning header, that sheet is the
      planning sheet. */
  lemma PlanningOnlyPlanningSheet(wb: Workbook, rows: seq<Option<Row>>)
    requires |wb| == 1 && wb[0].rows == [Some(HeaderRow(PlanningHeaders))] + rows
    ensures FindPlanningSheet(wb, None) == Some(0)
  {
    PlanningHeadedSheet(wb[0], rows);
    OnlyPlanningSheet(wb);
  }

  /** A sheet of a header and one exported planning row parses to that
      planning as `ImportedPlannings` describes it. */
  lemma OnePlanningRow(sheet: Sheet, header: Row, p: MonthlyPlanning)
    requires p.estimatedAmount.Some? && IsJavaInt(p.month) && IsJavaInt(p.year)
    requires sheet.rows == [Some(header), Some(ExportPlanningRow(p).value)]
    ensures ParsePlanning(sheet) == ImportedPlannings([p])
  {
    var data := ExportPlanningRow(p).value;
    assert sheet.rows == [Some(header)] + [Some(data)];
    DataRowsAfterHeader(sheet.name, header, [Some(data)]);
    assert Unwrap([Some(data)]) == [data];
    PlanningRowRoundTrip(p);
    PlanningRowsOf([data], [p]);
  }

  /** Which sheets the import takes decides what it returns. */
  lemma ImportPlanningSheetOnly(wb: Workbook)
    requires FindTransactionSheet(wb).None? && FindPlanningSheet(wb, None) == Some(0)
    ensures ImportData(wb) == ImportedData([], ParsePlanning(wb[0]))
  {
  }

  /** A workbook whose one sheet, under any name, holds the planning header
      and one planning row imports no transaction and that one planning. */
  lemma PlanningOnlyImport(name: string, p: MonthlyPlanning)
    requires p.estimatedAmount.Some? && IsJavaInt(p.month) && IsJavaInt(p.year)
    ensures var wb := [Sheet(name, [Some(HeaderRow(PlanningHeaders)), Some(ExportPlanningRow(p).value)])];
      ImportData(wb) == ImportedData([], ImportedPlannings([p]))
  {
    var data := ExportPlanningRow(p).value;
    var wb := [Sheet(name, [Some(HeaderRow(PlanningHeaders)), Some(data)])];
    assert wb[0].rows == [Some(HeaderRow(PlanningHeaders))] + [Some(data)];
    PlanningOnlyNoTransactionSheet(wb, [Some(data)]);
    PlanningOnlyPlanningSheet(wb, [Some(data)]);
    ImportPlanningSheetOnly(wb);
    OnePlanningRow(wb[0], HeaderRow(PlanningHeaders), p);
  }

  /** The sheet "Minhas Metas" with the header M&ecirc;s, Ano, Categoria,
      Valor Estimado and the row 1, 2025, "Alimenta&ccedil;&atilde;o",
      1500.00 imports no transaction and one planning for January 2025 of
      1500.0 under that category. */
  lemma MinhasMetasExample()
    ensures var row := [Some(NumericCell(Decimal(1, 0), None)), Some(NumericCell(Decimal(2025, 0), None)),
                        Some(StringCell("Alimenta\U{00E7}\U{00E3}o")), Some(NumericCell(Decimal(150000, 2), None))];
      var data := ImportData([Sheet("Minhas Metas", [Some(HeaderRow(PlanningHeaders)), Some(row)])]);
      && data.transactions == []
      && data.monthlyPlannings == [MonthlyPlanning(None, 1, 2025, Some(Ref(None, Some("Alimenta\U{00E7}\U{00E3}o"))), Some(Decimal(15000, 1)), None)]
  {
    var category := Ref(None, Some("Alimenta\U{00E7}\U{00E3}o"));
    var p := MonthlyPlanning(None, 1, 2025, Some(category), Some(Decimal(150000, 2)), None);
    PlanningOnlyImport("Minhas Metas", p);
    assert Canonical(Decimal(150000, 2)) == Decimal(15000, 1);
  }
}

=== FILE: excel_service.dfy ===
/** `ExcelService`: spreadsheet export of transactions and monthly plannings,
    and the import that finds the two kinds of sheet by their header cells and
    turns data rows back into records. */
module ExcelService {
  import opened Wrappers
  import opened Text
  import opened Decimals
  import opened Calendar
  import opened JavaNumbers
  import opened Domain
  import opened Workbooks

  const TransactionHeaders: seq<string> :=
    ["Nome", "Data", "Valor", "Tipo", "Categoria", "Conta Sa\U{00ED}da", "Conta Entrada"]
  const TransactionsSheetName: string := "Transa\U{00E7}\U{00F5}es"

  const PlanningHeaders: seq<string> := ["M\U{00EA}s", "Ano", "Categoria", "Valor Estimado"]
  const PlanningSheetName: string := "Planejamento"

  /** The labels the import looks for in a header row. */
  const NameLabel: string := "Nome"
  const DateLabel: string := "Data"
  const AmountLabel: string := "Valor"
  const MonthLabel: string := "M\U{00EA}s"
  const MonthAsciiLabel: string := "Mes"
  const YearLabel: string := "Ano"
  const CategoryLabel: string := "Categoria"
  const EstimatedLabel: string := "Valor Estimado"

  // ---------------------------------------------------------------------------
  // getCellValueAsString

  /** `getCellValueAsString`: the raw text of a text cell, `Double.toString`
      of a number, "true"/"false" of a boolean, "" for a missing cell or any
      other type. */
  function CellText(c: Option<Cell>): (s: string)
    ensures c.None? || c == Some(OtherCell) ==> s == ""
    ensures c.Some? && c.value.StringCell? ==> s == c.value.text
    ensures c.Some? && c.value.NumericCell? ==> s == DoubleToString(c.value.number)
    ensures c.Some? && c.value.BooleanCell? ==> (s == "true" <==> c.value.flag) && (s == "false" <==> !c.value.flag)
  {
    match c
    case None => ""
    case Some(StringCell(text)) => text
    case Some(NumericCell(number, _)) => DoubleToString(number)
    case Some(BooleanCell(flag)) => if flag then "true" else "false"
    case Some(OtherCell) => ""
  }

  // ---------------------------------------------------------------------------
  // Recognising the two kinds of sheet by their first row

  /** A header cell is present and, trimmed, matches `expected` ignoring case. */
  predicate Matches(c: Option<Cell>, expected: string)
  {
    c.Some? && EqualsIgnoreCase(expected, Trim(CellText(c)))
  }

  /** Some header cell carries the label `expected`. */
  predicate HasLabel(header: Row, expected: string)
  {
    exists column :: 0 <= column < |header| && Matches(header[column], expected)
  }

  /** Some cell before column `i` carries the label `expected`. */
  predicate HasLabelBefore(header: Row, i: nat, expected: string)
    requires i <= |header|
  {
    i > 0 && (HasLabelBefore(header, i - 1, expected) || Matches(header[i - 1], expected))
  }

  /** The column-by-column search finds a label exactly when some cell
      before `i` carries it. */
  lemma {:induction false} HasLabelBeforeExists(header: Row, i: nat, expected: string)
    requires i <= |header|
    ensures HasLabelBefore(header, i, expected) <==> exists c :: 0 <= c < i && Matches(header[c], expected)
  {
    if i > 0 {
      HasLabelBeforeExists(header, i - 1, expected);
      var m := Matches(header[i - 1], expected);
      if m {
        assert 0 <= i - 1 < i && Matches(header[i - 1], expected);
      } else {
        forall c | 0 <= c < i && Matches(header[c], expected)
          ensures c < i - 1
        {
        }
      }
    }
  }

  /** Searching the whole header finds exactly the labels it carries. */
  lemma HasLabelWhole(header: Row, expected: string)
    ensures HasLabelBefore(header, |header|, expected) == HasLabel(header, expected)
  {
    HasLabelBeforeExists(header, |header|, expected);
  }

  /** A transaction header carries the labels "Nome", "Data" and "Valor". */
  predicate TransactionHeader(header: Row)
  {
    HasLabel(header, NameLabel) && HasLabel(header, DateLabel) && HasLabel(header, AmountLabel)
  }

  /** A planning header carries "M&ecirc;s" or "Mes", "Ano", "Categoria" and
      "Valor Estimado". */
  predicate PlanningHeader(header: Row)
  {
    && (HasLabel(header, MonthLabel) || HasLabel(header, MonthAsciiLabel))
    && HasLabel(header, YearLabel)
    && HasLabel(header, CategoryLabel)
    && HasLabel(header, EstimatedLabel)
  }

  /** Row 0 exists and is a transaction header. */
  predicate IsTransactionSheet(sheet: Sheet)
  {
    GetRow(sheet, 0).Some? && TransactionHeader(GetRow(sheet, 0).value)
  }

  /** Row 0 exists and is a planning header. */
  predicate IsPlanningSheet(sheet: Sheet)
  {
    GetRow(sheet, 0).Some? && PlanningHeader(GetRow(sheet, 0).value)
  }

  /** `isTransactionSheet`: one pass over the header cells raising a flag per
      label found. */
  method ScanTransactionHeader(sheet: Sheet) returns (isTransactions: bool)
    ensures isTransactions == IsTransactionSheet(sheet)
  {
    var header := GetRow(sheet, 0);
    if header.None? {
      return false;
    }
    var row := header.value;
    var name, date, amount := NameLabel, DateLabel, AmountLabel;
    var hasName, hasDate, hasAmount := false, false, false;
    for i := 0 to |row|
      invariant hasName == HasLabelBefore(row, i, name)
      invariant hasDate == HasLabelBefore(row, i, date)
      invariant hasAmount == HasLabelBefore(row, i, amount)
    {
      if Matches(row[i], name) {
        hasName := true;
      }
      if Matches(row[i], date) {
        hasDate := true;
      }
      if Matches(row[i], amount) {
        hasAmount := true;
      }
    }
    HasLabelWhole(row, name);
    HasLabelWhole(row, date);
    HasLabelWhole(row, amount);
    return hasName && hasDate && hasAmount;
  }

  /** `isPlanningSheet`: the same pass with the planning labels; "M&ecirc;s"
      and "Mes" raise the same flag. */
  method ScanPlanningHeader(sheet: Sheet) returns (isPlanning: bool)
    ensures isPlanning == IsPlanningSheet(sheet)
  {
    var header := GetRow(sheet, 0);
    if header.None? {
      return false;
    }
    var row := header.value;
    var month, mes, year, category, estimated := MonthLabel, MonthAsciiLabel, YearLabel, CategoryLabel, EstimatedLabel;
    var hasMonth, hasYear, hasCategory, hasEstimated := false, false, false, false;
    for i := 0 to |row|
      invariant hasMonth == (HasLabelBefore(row, i, month) || HasLabelBefore(row, i, mes))
      invariant hasYear == HasLabelBefore(row, i, year)
      invariant hasCategory == HasLabelBefore(row, i, category)
      invariant hasEstimated == HasLabelBefore(row, i, estimated)
    {
      if Matches(row[i], month) || Matches(row[i], mes) {
        hasMonth := true;
      }
      if Matches(row[i], year) {
        hasYear := true;
      }
      if Matches(row[i], category) {
        hasCategory := true;
      }
      if Matches(row[i], estimated) {
        hasEstimated := true;
      }
    }
    HasLabelWhole(row, month);
    HasLabelWhole(row, mes);
    HasLabelWhole(row, year);
    HasLabelWhole(row, category);
    HasLabelWhole(row, estimated);
    return hasMonth && hasYear && hasCategory && hasEstimated;
  }

  // ---------------------------------------------------------------------------
  // Choosing the sheets in importData

  /** The scan over `getSheetAt(i)`: the first sheet from `from` on that
      passes the structure check `passes`, passing over the sheet `skip`. */
  function FirstPassing(wb: Workbook, passes: Sheet -> bool, skip: Option<nat>, from: nat): (r: Option<nat>)
    requires from <= |wb|
    ensures r.Some? ==> from <= r.value < |wb| && passes(wb[r.value]) && skip != Some(r.value)
    ensures r.Some? ==> forall j :: from <= j < r.value ==> !passes(wb[j]) || skip == Some(j)
    ensures r.None? <==> forall j :: from <= j < |wb| ==> !passes(wb[j]) || skip == Some(j)
    decreases |wb| - from
  {
    if from == |wb| then None
    else if skip != Some(from) && passes(wb[from]) then Some(from)
    else FirstPassing(wb, passes, skip, from + 1)
  }

  /** The sheet chosen for one role: the sheet called `name` (ignoring case)
      if it passes the check `passes`, otherwise the first passing sheet
      other than `skip`. The sheet found by name is not compared with
      `skip`. */
  function FindSheet(wb: Workbook, name: string, passes: Sheet -> bool, skip: Option<nat>): (r: Option<nat>)
    ensures r.Some? ==> r.value < |wb| && passes(wb[r.value])
    ensures var byName := SheetByName(wb, name);
      byName.Some? && passes(wb[byName.value]) ==> r == byName
    ensures var byName := SheetByName(wb, name);
      !(byName.Some? && passes(wb[byName.value])) ==>
        && (r.Some? ==> skip != r)
        && (r.Some? ==> forall j :: 0 <= j < r.value ==> !passes(wb[j]) || skip == Some(j))
        && (r.None? <==> forall j :: 0 <= j < |wb| ==> !passes(wb[j]) || skip == Some(j))
    ensures skip.None? ==> (r.None? <==> forall j :: 0 <= j < |wb| ==> !passes(wb[j]))
  {
    var byName := SheetByName(wb, name);
    if byName.Some? && passes(wb[byName.value]) then byName
    else FirstPassing(wb, passes, skip, 0)
  }

  /** The transaction sheet: the sheet named "Transa&ccedil;&otilde;es" if it
      passes the transaction check, otherwise the first sheet that does. */
  function FindTransactionSheet(wb: Workbook): Option<nat>
  {
    FindSheet(wb, TransactionsSheetName, IsTransactionSheet, None)
  }

  /** The planning sheet: the sheet named "Planejamento" if it passes the
      planning check, otherwise the first passing sheet other than the
      transaction sheet. */
  function FindPlanningSheet(wb: Workbook, transactionSheet: Option<nat>): Option<nat>
  {
    FindSheet(wb, PlanningSheetName, IsPlanningSheet, transactionSheet)
  }

  // ---------------------------------------------------------------------------
  // Data rows

  /** The rows after the first one the iterator visits (the header). */
  function DataRows(sheet: Sheet): seq<Row>
  {
    var present := PresentRows(sheet.rows);
    if |present| == 0 then [] else present[1..]
  }

  /** The `while (rows.hasNext())` loop with its `rowNumber` counter: missing
      rows are not visited, and the first visited row is skipped. */
  method CollectDataRows(sheet: Sheet) returns (data: seq<Row>)
    ensures data == DataRows(sheet)
  {
    data := [];
    var rowNumber := 0;
    for i := 0 to |sheet.rows|
      invariant rowNumber == (if |PresentRows(sheet.rows[..i])| == 0 then 0 else 1)
      invariant data == (if rowNumber == 0 then [] else PresentRows(sheet.rows[..i])[1..])
    {
      PresentRowsAppend(sheet.rows[..i], [sheet.rows[i]]);
      assert sheet.rows[..i + 1] == sheet.rows[..i] + [sheet.rows[i]];
      assert PresentRows([sheet.rows[i]]) == if sheet.rows[i].Some? then [sheet.rows[i].value] else [];
      if sheet.rows[i].Some? {
        if rowNumber == 0 {
          rowNumber := rowNumber + 1;
        } else {
          data := data + [sheet.rows[i].value];
        }
      }
    }
    assert sheet.rows[..|sheet.rows|] == sheet.rows;
  }

  /** The creation date: the date of a date-formatted numeric cell, otherwise
      the cell text read by `LocalDate.parse`; unreadable dates stay null. */
  function ParseDateCell(c: Option<Cell>): (d: Option<Date>)
    ensures c.None? ==> d.None?
    ensures c.Some? && c.value.NumericCell? && c.value.dateValue.Some? ==> d == c.value.dateValue
    ensures c.Some? && !(c.value.NumericCell? && c.value.dateValue.Some?) ==> d == ParseIso(CellText(c))
    ensures d.Some? && !(c.Some? && c.value.NumericCell? && c.value.dateValue.Some?) ==> IsLocalDate(d.value)
  {
    match c
    case None => None
    case Some(NumericCell(_, Some(date))) => Some(date)
    case Some(_) => ParseIso(CellText(c))
  }

  /** An amount: `BigDecimal.valueOf` of a numeric cell, `new BigDecimal` of
      any other cell's text; unreadable amounts stay null. */
  function ParseAmountCell(c: Option<Cell>): (a: Option<Decimal>)
    ensures c.None? ==> a.None?
    ensures c.Some? && c.value.NumericCell? ==> a == Some(Canonical(c.value.number))
    ensures c.Some? && c.value.StringCell? ==> a == ParseBigDecimal(c.value.text)
    ensures c == Some(OtherCell) || (c.Some? && c.value.BooleanCell?) ==> a.None?
  {
    match c
    case None => None
    case Some(NumericCell(number, _)) => Some(Canonical(number))
    case Some(_) => ParseBigDecimal(CellText(c))
  }

  /** A transaction type by its exact constant name; anything else stays null. */
  function ParseTypeCell(c: Option<Cell>): (t: Option<TransactionType>)
    ensures t.Some? ==> c.Some? && CellText(c) == TypeName(t.value)
  {
    match c
    case None => None
    case Some(_) =>
      TypeValueOf(CellText(c))
  }

  /** A category or account reference: present exactly for a non-empty name,
      and then carrying that name and no id. */
  function ParseRefCell(c: Option<Cell>): (r: Option<Ref>)
    ensures r.Some? <==> |CellText(c)| > 0
    ensures r.Some? ==> r.value == Ref(None, Some(CellText(c)))
  {
    match c
    case None => None
    case Some(_) =>
      var name := CellText(c);
      if |name| > 0 then Some(Ref(None, Some(name))) else None
  }

  /** One data row of the transaction sheet; `None` when the row is skipped as
      empty (cells 0 and 2 missing) or dropped as incomplete (no name or no
      readable amount). */
  function ParseTransactionRow(row: Row): (r: Option<Transaction>)
    ensures GetCell(row, 0).None? && GetCell(row, 2).None? ==> r.None?
    ensures r.Some? <==> GetCell(row, 0).Some? && ParseAmountCell(GetCell(row, 2)).Some?
    ensures r.Some? ==> r.value.name == Some(CellText(GetCell(row, 0)))
    ensures r.Some? ==> r.value.amount == ParseAmountCell(GetCell(row, 2))
    ensures r.Some? ==> r.value.creationDate == ParseDateCell(GetCell(row, 1))
    ensures r.Some? ==> r.value.transactionType == ParseTypeCell(GetCell(row, 3))
    ensures r.Some? ==> r.value.category == ParseRefCell(GetCell(row, 4))
    ensures r.Some? ==> r.value.outAccount == ParseRefCell(GetCell(row, 5))
    ensures r.Some? ==> r.value.inAccount == ParseRefCell(GetCell(row, 6))
    ensures r.Some? ==> r.value.id.None? && r.value.user.None?
  {
    if GetCell(row, 0).None? && GetCell(row, 2).None? then None
    else
      var name := if GetCell(row, 0).Some? then Some(CellText(GetCell(row, 0))) else None;
      var t := EmptyTransaction.(
        name := name,
        creationDate := ParseDateCell(GetCell(row, 1)),
        amount := ParseAmountCell(GetCell(row, 2)),
        transactionType := ParseTypeCell(GetCell(row, 3)),
        category := ParseRefCell(GetCell(row, 4)),
        outAccount := ParseRefCell(GetCell(row, 5)),
        inAccount := ParseRefCell(GetCell(row, 6)));
      if t.name.Some? && t.amount.Some? then Some(t) else None
  }

  /** What one data row adds to the list: its transaction, or nothing. */
  function RowTransactions(row: Row): (ts: seq<Transaction>)
    ensures |ts| <= 1
    ensures forall k :: 0 <= k < |ts| ==> ts[k].name.Some? && ts[k].amount.Some?
  {
    match ParseTransactionRow(row) case Some(t) => [t] case None => []
  }

  /** The kept transactions of a run of data rows, in row order. */
  function ParseTransactionRows(rows: seq<Row>): (ts: seq<Transaction>)
    ensures |ts| <= |rows|
    ensures forall k :: 0 <= k < |ts| ==> ts[k].name.Some? && ts[k].amount.Some?
  {
    if |rows| == 0 then []
    else RowTransactions(rows[0]) + ParseTransactionRows(rows[1..])
  }

  /** `parseTransactions`. */
  function ParseTransactions(sheet: Sheet): (ts: seq<Transaction>)
    ensures forall k :: 0 <= k < |ts| ==> ts[k].name.Some? && ts[k].amount.Some?
  {
    ParseTransactionRows(DataRows(sheet))
  }

  /** `(int) Double.parseDouble(text)` of a month or year cell; the field keeps
      its default 0 when the cell is missing or its text is not a number. */
  function ParseIntCell(c: Option<Cell>): (n: int)
    ensures IsJavaInt(n)
    ensures ParseDouble(CellText(c)).None? ==> n == 0
    ensures ParseDouble(CellText(c)).Some? ==> n == DoubleToInt(ParseDouble(CellText(c)).value)
  {
    match ParseDouble(CellText(c))
    case None => 0
    case Some(d) => DoubleToInt(d)
  }

  /** How Java reads a few month or year texts: a type suffix, an infinity,
      NaN and an exponent. */
  lemma IntCellExamples()
    ensures ParseIntCell(Some(StringCell("3d"))) == 3
    ensures ParseIntCell(Some(StringCell("Infinity"))) == IntMax
    ensures ParseIntCell(Some(StringCell("NaN"))) == 0
    ensures ParseIntCell(Some(StringCell("2.024E3"))) == 2024
  {
    DoubleSuffixExample();
    DoubleInfinityExample();
    DoubleNaNExample();
    DoubleExponentExample();
    assert TruncateTowardZero(Decimal(3, 0)) == 3;
    assert TruncateTowardZero(Decimal(2024, 0)) == 2024;
  }

  /** How `new BigDecimal` reads amounts in exponent form. */
  lemma AmountCellExamples()
    ensures ParseAmountCell(Some(StringCell("1E+3"))) == Some(Decimal(1000, 0))
    ensures ParseAmountCell(Some(StringCell("2.50e-1"))) == Some(Decimal(250, 3))
  {
    BigDecimalPositiveExponentExample();
    BigDecimalNegativeExponentExample();
  }

  /** One data row of the planning sheet; `None` when skipped as empty (cells 2
      and 3 missing) or dropped (month or year not positive, or no readable
      amount). */
  function ParsePlanningRow(row: Row): (r: Option<MonthlyPlanning>)
    ensures GetCell(row, 2).None? && GetCell(row, 3).None? ==> r.None?
    ensures r.Some? ==> r.value.month > 0 && r.value.year > 0 && r.value.estimatedAmount.Some?
    ensures r.Some? ==> r.value.month == ParseIntCell(GetCell(row, 0)) && r.value.year == ParseIntCell(GetCell(row, 1))
    ensures r.Some? ==> r.value.category == ParseRefCell(GetCell(row, 2))
    ensures r.Some? ==> r.value.estimatedAmount == ParseAmountCell(GetCell(row, 3))
    ensures r.Some? ==> r.value.id.None? && r.value.user.None?
    ensures (&& !(GetCell(row, 2).None? && GetCell(row, 3).None?)
             && ParseIntCell(GetCell(row, 0)) > 0 && ParseIntCell(GetCell(row, 1)) > 0
             && ParseAmountCell(GetCell(row, 3)).Some?) ==> r.Some?
  {
    if GetCell(row, 2).None? && GetCell(row, 3).None? then None
    else
      var mp := MonthlyPlanning(None, ParseIntCell(GetCell(row, 0)), ParseIntCell(GetCell(row, 1)),
        ParseRefCell(GetCell(row, 2)), ParseAmountCell(GetCell(row, 3)), None);
      if mp.month > 0 && mp.year > 0 && mp.estimatedAmount.Some? then Some(mp) else None
  }

  /** What one planning row adds to the list: its planning, or nothing. */
  function RowPlannings(row: Row): (ps: seq<MonthlyPlanning>)
    ensures |ps| <= 1
    ensures forall k :: 0 <= k < |ps| ==> ps[k].month > 0 && ps[k].year > 0 && ps[k].estimatedAmount.Some?
  {
    match ParsePlanningRow(row) case Some(p) => [p] case None => []
  }

  function ParsePlanningRows(rows: seq<Row>): (ps: seq<MonthlyPlanning>)
    ensures |ps| <= |rows|
    ensures forall k :: 0 <= k < |ps| ==> ps[k].month > 0 && ps[k].year > 0 && ps[k].estimatedAmount.Some?
  {
    if |rows| == 0 then []
    else
      RowPlannings(rows[0]) + ParsePlanningRows(rows[1..])
  }

  /** `parsePlanning`. */
  function ParsePlanning(sheet: Sheet): (ps: seq<MonthlyPlanning>)
    ensures forall k :: 0 <= k < |ps| ==> ps[k].month > 0 && ps[k].year > 0 && ps[k].estimatedAmount.Some?
  {
    ParsePlanningRows(DataRows(sheet))
  }

  /** The parse loop over the data rows collects each row's kept transaction. */
  lemma {:induction false} ParseTransactionRowsAsConcat(rows: seq<Row>)
    ensures ParseTransactionRows(rows) == ConcatRows(RowTransactions, rows)
  {
    if |rows| > 0 {
      ParseTransactionRowsAsConcat(rows[1..]);
    }
  }

  /** Parsing a run of rows is parsing its two halves one after the other: the
      output keeps the row order. */
  lemma ParseTransactionRowsAppend(a: seq<Row>, b: seq<Row>)
    ensures ParseTransactionRows(a + b) == ParseTransactionRows(a) + ParseTransactionRows(b)
  {
    ParseTransactionRowsAsConcat(a + b);
    ParseTransactionRowsAsConcat(a);
    ParseTransactionRowsAsConcat(b);
    ConcatRowsAppend(RowTransactions, a, b);
  }

  /** The parse loop over the data rows collects each row's kept planning. */
  lemma {:induction false} ParsePlanningRowsAsConcat(rows: seq<Row>)
    ensures ParsePlanningRows(rows) == ConcatRows(RowPlannings, rows)
  {
    if |rows| > 0 {
      ParsePlanningRowsAsConcat(rows[1..]);
    }
  }

  lemma ParsePlanningRowsAppend(a: seq<Row>, b: seq<Row>)
    ensures ParsePlanningRows(a + b) == ParsePlanningRows(a) + ParsePlanningRows(b)
  {
    ParsePlanningRowsAsConcat(a + b);
    ParsePlanningRowsAsConcat(a);
    ParsePlanningRowsAsConcat(b);
    ConcatRowsAppend(RowPlannings, a, b);
  }

  // ---------------------------------------------------------------------------
  // importData

  datatype ImportedData = ImportedData(transactions: seq<Transaction>, monthlyPlannings: seq<MonthlyPlanning>)

  /** `importData` once the bytes are read as a workbook. */
  function ImportData(wb: Workbook): (data: ImportedData)
    ensures FindTransactionSheet(wb).None? ==> data.transactions == []
    ensures FindTransactionSheet(wb).Some? ==> data.transactions == ParseTransactions(wb[FindTransactionSheet(wb).value])
    ensures FindPlanningSheet(wb, FindTransactionSheet(wb)).None? ==> data.monthlyPlannings == []
    ensures var p := FindPlanningSheet(wb, FindTransactionSheet(wb));
      p.Some? ==> data.monthlyPlannings == ParsePlanning(wb[p.value])
  {
    var transactionSheet := FindTransactionSheet(wb);
    var transactions := if transactionSheet.Some? then ParseTransactions(wb[transactionSheet.value]) else [];
    var planSheet := FindPlanningSheet(wb, transactionSheet);
    var plannings := if planSheet.Some? then ParsePlanning(wb[planSheet.value]) else [];
    ImportedData(transactions, plannings)
  }

  // ---------------------------------------------------------------------------
  // exportToExcel

  /** The null dereference that aborts the export, by the field read. */
  datatype ExportError = NullCreationDate | NullAmount | NullTransactionType | NullEstimatedAmount

  /** `setCellValue(String)`: a null string leaves a blank cell. */
  function TextCell(s: Option<string>): (c: Cell)
    ensures CellText(Some(c)) == s.GetOr("")
  {
    match s
    case Some(text) => StringCell(text)
    case None => OtherCell
  }

  /** A reference column: no cell without a reference, its name otherwise. */
  function RefCell(r: Option<Ref>): (c: Option<Cell>)
    ensures r.None? <==> c.None?
  {
    match r
    case None => None
    case Some(ref) => Some(TextCell(ref.name))
  }

  function HeaderRow(labels: seq<string>): (row: Row)
    ensures |row| == |labels|
    ensures forall i :: 0 <= i < |labels| ==> row[i] == Some(StringCell(labels[i]))
  {
    seq(|labels|, i requires 0 <= i < |labels| => Some(StringCell(labels[i])))
  }

  /** A transaction's row: name, ISO date text, amount, type name, then the
      category, out-account and in-account names where present. */
  function ExportTransactionRow(t: Transaction): (r: Result<Row, ExportError>)
    ensures r.Success? <==> t.creationDate.Some? && t.amount.Some? && t.transactionType.Some?
    ensures r.Success? ==> |r.value| == 7
  {
    if t.creationDate.None? then Failure(NullCreationDate)
    else if t.amount.None? then Failure(NullAmount)
    else if t.transactionType.None? then Failure(NullTransactionType)
    else Success([
      Some(TextCell(t.name)),
      Some(StringCell(FormatIso(t.creationDate.value))),
      Some(NumericCell(t.amount.value, None)),
      Some(StringCell(TypeName(t.transactionType.value))),
      RefCell(t.category),
      RefCell(t.outAccount),
      RefCell(t.inAccount)])
  }

  /** A planning's row: month and year as numbers, the category name where
      present, the estimated amount. */
  function ExportPlanningRow(p: MonthlyPlanning): (r: Result<Row, ExportError>)
    ensures r.Success? <==> p.estimatedAmount.Some?
    ensures r.Success? ==> |r.value| == 4
  {
    if p.estimatedAmount.None? then Failure(NullEstimatedAmount)
    else Success([
      Some(NumericCell(Decimal(p.month, 0), None)),
      Some(NumericCell(Decimal(p.year, 0), None)),
      RefCell(p.category),
      Some(NumericCell(p.estimatedAmount.value, None))])
  }

  predicate Exportable(t: Transaction)
  {
    t.creationDate.Some? && t.amount.Some? && t.transactionType.Some?
  }

  function ExportTransactionRows(ts: seq<Transaction>): (r: Result<seq<Option<Row>>, ExportError>)
    ensures r.Success? <==> forall k :: 0 <= k < |ts| ==> Exportable(ts[k])
    ensures r.Success? ==> |r.value| == |ts|
    ensures r.Success? ==> forall k :: 0 <= k < |ts| ==> r.value[k] == Some(ExportTransactionRow(ts[k]).value)
  {
    if |ts| == 0 then Success([])
    else match ExportTransactionRow(ts[0])
      case Failure(e) => Failure(e)
      case Success(row) =>
        match ExportTransactionRows(ts[1..])
        case Failure(e) => Failure(e)
        case Success(rows) => Success([Some(row)] + rows)
  }

  function ExportPlanningRows(ps: seq<MonthlyPlanning>): (r: Result<seq<Option<Row>>, ExportError>)
    ensures r.Success? <==> forall k :: 0 <= k < |ps| ==> ps[k].estimatedAmount.Some?
    ensures r.Success? ==> |r.value| == |ps|
    ensures r.Success? ==> forall k :: 0 <= k < |ps| ==> r.value[k] == Some(ExportPlanningRow(ps[k]).value)
  {
    if |ps| == 0 then Success([])
    else match ExportPlanningRow(ps[0])
      case Failure(e) => Failure(e)
      case Success(row) =>
        match ExportPlanningRows(ps[1..])
        case Failure(e) => Failure(e)
        case Success(rows) => Success([Some(row)] + rows)
  }

  /** `exportToExcel` up to writing the bytes: a transaction sheet, and a
      planning sheet when the planning list is not null. */
  function ExportToExcel(ts: seq<Transaction>, plannings: Option<seq<MonthlyPlanning>>): (r: Result<Workbook, ExportError>)
    ensures r.Success? <==>
      && (forall k :: 0 <= k < |ts| ==> Exportable(ts[k]))
      && (plannings.Some? ==> forall k :: 0 <= k < |plannings.value| ==> plannings.value[k].estimatedAmount.Some?)
    ensures r.Success? ==> |r.value| == if plannings.Some? then 2 else 1
    ensures r.Success? ==> r.value[0].name == TransactionsSheetName
    ensures r.Success? ==> GetRow(r.value[0], 0) == Some(HeaderRow(TransactionHeaders))
    ensures r.Success? && plannings.Some? ==> r.value[1].name == PlanningSheetName
    ensures r.Success? && plannings.Some? ==> GetRow(r.value[1], 0) == Some(HeaderRow(PlanningHeaders))
  {
    match ExportTransactionRows(ts)
    case Failure(e) => Failure(e)
    case Success(rows) =>
      var transSheet := Sheet(TransactionsSheetName, [Some(HeaderRow(TransactionHeaders))] + rows);
      match plannings
      case None => Success([transSheet])
      case Some(ps) =>
        match ExportPlanningRows(ps)
        case Failure(e) => Failure(e)
        case Success(planRows) => Success([transSheet, Sheet(PlanningSheetName, [Some(HeaderRow(PlanningHeaders))] + planRows)])
  }

  /** A text cell whose text has no blank at either end carries that text as
      its label. */
  lemma TextCellMatches(text: string)
    requires |text| > 0 && text[0] > ' ' && text[|text| - 1] > ' '
    ensures Matches(Some(StringCell(text)), text)
  {
    TrimNoBlankEnds(text);
  }

  /** Each label the export writes without blank ends is found in its header row. */
  lemma HeaderRowHasLabel(labels: seq<string>, k: int)
    requires 0 <= k < |labels|
    requires |labels[k]| > 0 && labels[k][0] > ' ' && labels[k][|labels[k]| - 1] > ' '
    ensures HasLabel(HeaderRow(labels), labels[k])
  {
    TextCellMatches(labels[k]);
    assert Matches(HeaderRow(labels)[k], labels[k]);
  }

  /** The export's transaction header is recognised by the import. */
  lemma TransactionHeaderDetected(rows: seq<Option<Row>>)
    ensures IsTransactionSheet(Sheet(TransactionsSheetName, [Some(HeaderRow(TransactionHeaders))] + rows))
  {
    var sheet := Sheet(TransactionsSheetName, [Some(HeaderRow(TransactionHeaders))] + rows);
    assert GetRow(sheet, 0) == Some(HeaderRow(TransactionHeaders));
    TransactionHeaderRow(TransactionHeaders);
  }

  lemma TransactionHeaderRow(labels: seq<string>)
    requires |labels| >= 3 && labels[0] == NameLabel && labels[1] == DateLabel && labels[2] == AmountLabel
    ensures TransactionHeader(HeaderRow(labels))
  {
    HeaderRowHasLabel(labels, 0);
    HeaderRowHasLabel(labels, 1);
    HeaderRowHasLabel(labels, 2);
  }

  /** The export's planning header is recognised by the import. */
  lemma PlanningHeaderDetected(rows: seq<Option<Row>>)
    ensures IsPlanningSheet(Sheet(PlanningSheetName, [Some(HeaderRow(PlanningHeaders))] + rows))
  {
    var sheet := Sheet(PlanningSheetName, [Some(HeaderRow(PlanningHeaders))] + rows);
    assert GetRow(sheet, 0) == Some(HeaderRow(PlanningHeaders));
    PlanningHeaderRow(PlanningHeaders);
  }

  lemma PlanningHeaderRow(labels: seq<string>)
    requires |labels| >= 4 && labels[0] == MonthLabel && labels[1] == YearLabel
    requires labels[2] == CategoryLabel && labels[3] == EstimatedLabel
    ensures PlanningHeader(HeaderRow(labels))
  {
    HeaderRowHasLabel(labels, 0);
    HeaderRowHasLabel(labels, 1);
    HeaderRowHasLabel(labels, 2);
    HeaderRowHasLabel(labels, 3);
  }
}

=== FILE: filters.dfy ===
/** `useTransactionFilters`: the filter form state of the transactions page
    and the query parameters it sends to the search endpoint. A JavaScript
    object of strings is a map from field name to value; a field the object
    lacks reads as `undefined`, which every operation here treats like the
    empty string. */
module TransactionFilters {

  type Filters = map<string, string>

  const NameKey := "name"
  const StartDateKey := "startDate"
  const EndDateKey := "endDate"
  const CategoryIdKey := "categoryId"
  const TransactionTypeKey := "transactionType"

  /** The five fields the form keeps and the search understands. */
  const FilterKeys: set<string> := {NameKey, StartDateKey, EndDateKey, CategoryIdKey, TransactionTypeKey}

  /** `filters[k] || ''`: the value of a field, the empty string when absent. */
  function Lookup(m: Filters, k: string): string
  {
    if k in m then m[k] else ""
  }

  /** The initial state: exactly the five fields, each taken from the caller's
      initial filters when given there and empty otherwise. */
  function InitialFilters(initial: Filters): (r: Filters)
    ensures r.Keys == FilterKeys
    ensures forall k :: k in FilterKeys ==> r[k] == Lookup(initial, k)
  {
    map k | k in FilterKeys :: Lookup(initial, k)
  }

  /** `handleChange(field, value)`: one field set, the others kept. */
  function HandleChange(f: Filters, field: string, value: string): (r: Filters)
    ensures r.Keys == f.Keys + {field}
    ensures Lookup(r, field) == value
    ensures forall k :: k != field ==> Lookup(r, k) == Lookup(f, k)
  {
    f[field := value]
  }

  /** `clearFilters`: the five fields, all empty. */
  function ClearFilters(): (r: Filters)
    ensures r.Keys == FilterKeys
    ensures forall k :: Lookup(r, k) == ""
  {
    map k | k in FilterKeys :: ""
  }

  /** `getFilterParams`: the query parameters, one per filter field that has a
      non-empty value, carrying that value. */
  function GetFilterParams(f: Filters): (r: Filters)
    ensures forall k :: k in r <==> k in FilterKeys && Lookup(f, k) != ""
    ensures forall k :: k in r ==> r[k] == Lookup(f, k)
  {
    map k | k in FilterKeys && Lookup(f, k) != "" :: f[k]
  }

  /** Parameters depend only on the values of the five fields. */
  lemma ParamsDependOnFieldValues(f: Filters, g: Filters)
    requires forall k :: k in FilterKeys ==> Lookup(f, k) == Lookup(g, k)
    ensures GetFilterParams(f) == GetFilterParams(g)
  {
    var pf, pg := GetFilterParams(f), GetFilterParams(g);
    assert pf.Keys == pg.Keys;
    forall k | k in pf
      ensures pf[k] == pg[k]
    {
      assert Lookup(f, k) == pf[k] && Lookup(g, k) == pg[k];
    }
  }

  /** After clearing, no parameter is sent: the search is unfiltered. */
  lemma ClearedSendsNothing()
    ensures GetFilterParams(ClearFilters()) == map[]
  {
    assert GetFilterParams(ClearFilters()).Keys == {};
  }

  /** The initial state sends exactly the fields the caller gave non-empty. */
  lemma InitialParams(initial: Filters)
    ensures GetFilterParams(InitialFilters(initial)) == GetFilterParams(initial)
  {
    ParamsDependOnFieldValues(InitialFilters(initial), initial);
  }

  /** Changing one of the five fields changes only its parameter: a non-empty
      value is sent as given, an empty one drops the parameter. */
  lemma ChangeParams(f: Filters, field: string, value: string)
    requires field in FilterKeys
    ensures GetFilterParams(HandleChange(f, field, value)) ==
      if value == "" then GetFilterParams(f) - {field} else GetFilterParams(f)[field := value]
  {
    var before := GetFilterParams(f);
    var after := GetFilterParams(HandleChange(f, field, value));
    var expected := if value == "" then before - {field} else before[field := value];
    assert after.Keys == expected.Keys;
    forall k | k in after
      ensures after[k] == expected[k]
    {
      if k != field {
        assert Lookup(HandleChange(f, field, value), k) == Lookup(f, k);
        assert after[k] == Lookup(HandleChange(f, field, value), k);
      }
    }
  }

  /** A field outside the five is kept in the state but never sent. */
  lemma UnknownFieldNotSent(f: Filters, field: string, value: string)
    requires field !in FilterKeys
    ensures GetFilterParams(HandleChange(f, field, value)) == GetFilterParams(f)
  {
    ParamsDependOnFieldValues(HandleChange(f, field, value), f);
  }
}

=== FILE: javanumbers.dfy ===
/** The Java number/text conversions the spreadsheet import goes through:
    `Double.toString` (what `String.valueOf` of a numeric cell yields),
    `new BigDecimal(String)`, `Double.parseDouble` and the `(int)` cast.
    Numbers are exact decimals here: a double's binary rounding is not
    modelled, but its infinities and NaN are. */
module JavaNumbers {
  import opened Wrappers
  import opened Text
  import opened Decimals

  const IntMin: int := -0x8000_0000
  const IntMax: int := 0x7fff_ffff

  predicate IsJavaInt(x: int)
  {
    IntMin <= x <= IntMax
  }

  lemma SameValueTransitive(a: Decimal, b: Decimal, c: Decimal)
    requires SameValue(a, b) && SameValue(b, c)
    ensures SameValue(a, c)
  {
    var s := Max(Max(a.scale, b.scale), c.scale);
    CompareAtScale(a, b, s);
    CompareAtScale(b, c, s);
    CompareAtScale(a, c, s);
  }

  /** The digits `Double.toString` prints for a number: trailing fractional
      zeros removed, but at least one fractional digit kept. */
  function Canonical(d: Decimal): (c: Decimal)
    ensures c.scale >= 1
    ensures c.scale == 1 || c.unscaled % 10 != 0
    decreases d.scale
  {
    if d.scale == 0 then
      Decimal(d.unscaled * 10, 1)
    else if d.scale > 1 && d.unscaled % 10 == 0 then
      Canonical(Decimal(d.unscaled / 10, d.scale - 1))
    else
      d
  }

  /** Dropping trailing zeros does not change the number. */
  lemma {:induction false} CanonicalSameValue(d: Decimal)
    ensures SameValue(Canonical(d), d)
    decreases d.scale
  {
    if d.scale > 1 && d.unscaled % 10 == 0 {
      var e := Decimal(d.unscaled / 10, d.scale - 1);
      assert SameValue(e, d) by {
        ScaledRefine(e, e.scale, d.scale);
      }
      CanonicalSameValue(e);
      SameValueTransitive(Canonical(e), e, d);
    }
  }

  /** `Double.toString` in plain notation: optional '-', integer digits, '.',
      fractional digits. */
  function DoubleToString(d: Decimal): (s: string)
  {
    var c := Canonical(d);
    SignedPlain(c.unscaled, c.scale)
  }

  /** The digits of `mag`, zero-padded to more than `scale` digits, with a '.'
      before the last `scale` of them. */
  function PlainDigits(mag: nat, scale: nat): (s: string)
    ensures |s| > scale + 1
  {
    var all := PadLeft(NatToString(mag), scale + 1);
    all[..|all| - scale] + "." + all[|all| - scale..]
  }

  /** Index of the first '.' in `s`, or |s| when there is none. */
  function DotIndex(s: string): (k: nat)
    ensures k <= |s|
    ensures k < |s| ==> s[k] == '.'
    ensures forall i :: 0 <= i < k ==> s[i] != '.'
  {
    if |s| == 0 then 0 else if s[0] == '.' then 0 else 1 + DotIndex(s[1..])
  }

  /** An unsigned plain decimal: digits, optionally a '.' and more digits, at
      least one digit in all. The scale is the number of fractional digits. */
  function ParseUnsigned(s: string): (r: Option<Decimal>)
    ensures r.Some? ==> r.value.unscaled >= 0
  {
    var k := DotIndex(s);
    var whole := s[..k];
    var fraction := if k < |s| then s[k + 1..] else "";
    if AllDigits(whole) && AllDigits(fraction) && |whole| + |fraction| > 0 then
      AllDigitsConcat(whole, fraction);
      Some(Decimal(ParseDigits(whole + fraction), |fraction|))
    else
      None
  }

  /** An optional sign and an unsigned plain decimal: the significand that
      `new BigDecimal(String)` and `Double.parseDouble` both accept. */
  function ParsePlain(s: string): (r: Option<Decimal>)
  {
    if |s| > 0 && (s[0] == '-' || s[0] == '+') then
      match ParseUnsigned(s[1..])
      case None => None
      case Some(d) => Some(if s[0] == '-' then Negate(d) else d)
    else
      ParseUnsigned(s)
  }

  predicate IsExponentMark(c: char)
  {
    c == 'e' || c == 'E'
  }

  /** Index of the first exponent mark in `s`, or |s| when there is none. */
  function ExponentIndex(s: string): (k: nat)
    ensures k <= |s|
    ensures k < |s| ==> IsExponentMark(s[k])
    ensures forall i :: 0 <= i < k ==> !IsExponentMark(s[i])
  {
    if |s| == 0 then 0 else if IsExponentMark(s[0]) then 0 else 1 + ExponentIndex(s[1..])
  }

  /** An exponent: an optional sign and at least one digit. */
  function ParseExponent(s: string): (r: Option<int>)
  {
    var digits := if |s| > 0 && (s[0] == '-' || s[0] == '+') then s[1..] else s;
    if |digits| > 0 && AllDigits(digits) then
      var n: int := ParseDigits(digits);
      Some(if s[0] == '-' then -n else n)
    else
      None
  }

  /** A decimal numeral: a plain significand, then optionally an exponent
      mark and an exponent. The result is the significand and the exponent,
      0 when there is none. */
  function ParseNumeral(s: string): (r: Option<(Decimal, int)>)
  {
    var k := ExponentIndex(s);
    match ParsePlain(s[..k])
    case None => None
    case Some(d) =>
      if k == |s| then Some((d, 0))
      else
        match ParseExponent(s[k + 1..])
        case None => None
        case Some(e) => Some((d, e))
  }

  /** d * 10^e. The scale is d's scale less e, as `BigDecimal` sets it, when
      that is not negative; otherwise the value is written out at scale 0. */
  function Shift(d: Decimal, e: int): (r: Decimal)
    ensures e >= 0 ==> r.unscaled * Pow10(d.scale) == d.unscaled * Pow10(e + r.scale)
    ensures e < 0 ==> r.unscaled * Pow10(d.scale - e) == d.unscaled * Pow10(r.scale)
    ensures d.scale - e >= 0 ==> r.scale == d.scale - e
  {
    if d.scale - e >= 0 then
      Decimal(d.unscaled, d.scale - e)
    else
      Pow10Add(e - d.scale, d.scale);
      Decimal(d.unscaled * Pow10(e - d.scale), 0)
  }

  /** `new BigDecimal(s)`; `None` is the NumberFormatException. A non-zero
      exponent must fit an `int`, and so must the scale it leads to. */
  function ParseBigDecimal(s: string): (r: Option<Decimal>)
    ensures ParseNumeral(s).None? ==> r.None?
    ensures ParseNumeral(s).Some? && !IsJavaInt(ParseNumeral(s).value.1) ==> r.None?
  {
    match ParseNumeral(s)
    case None => None
    case Some((d, e)) =>
      if e == 0 then Some(d)
      else if IsJavaInt(e) && IsJavaInt(d.scale - e) then Some(Shift(d, e))
      else None
  }

  /** A text without an exponent mark is read as its plain significand. */
  lemma PlainTextIsBigDecimal(s: string)
    requires ExponentIndex(s) == |s|
    ensures ParseBigDecimal(s) == ParsePlain(s)
  {
    assert s[..|s|] == s;
  }

  /** A `double` as the import uses it: a finite value (held exactly), an
      infinity, or NaN. */
  datatype JavaDouble = Finite(value: Decimal) | PositiveInfinity | NegativeInfinity | NaN

  /** The type suffixes a Java floating-point literal may end with. */
  predicate IsTypeSuffix(c: char)
  {
    c == 'f' || c == 'F' || c == 'd' || c == 'D'
  }

  /** After an optional sign, "Infinity" or "NaN". */
  function SpecialValue(t: string): (r: Option<JavaDouble>)
    ensures r.Some? ==> !r.value.Finite?
  {
    var unsigned := if |t| > 0 && (t[0] == '-' || t[0] == '+') then t[1..] else t;
    if unsigned == "Infinity" then
      Some(if t[0] == '-' then NegativeInfinity else PositiveInfinity)
    else if unsigned == "NaN" then
      Some(NaN)
    else
      None
  }

  /** A decimal numeral, optionally followed by one type suffix. */
  function ParseFinite(t: string): (r: Option<JavaDouble>)
    ensures r.Some? ==> r.value.Finite?
  {
    var body := if |t| > 0 && IsTypeSuffix(t[|t| - 1]) then t[..|t| - 1] else t;
    match ParseNumeral(body)
    case None => None
    case Some((d, e)) => Some(Finite(Shift(d, e)))
  }

  /** `Double.parseDouble(s)` for decimal text: surrounding blanks are
      ignored; after an optional sign, "Infinity" and "NaN" are read as such;
      otherwise a decimal numeral, optionally followed by one type suffix.
      `None` is the NumberFormatException. */
  function ParseDouble(s: string): (r: Option<JavaDouble>)
  {
    var t := Trim(s);
    if SpecialValue(t).Some? then SpecialValue(t) else ParseFinite(t)
  }

  lemma {:induction false} DotIndexAfterDigits(w: string, rest: string)
    requires AllDigits(w)
    ensures DotIndex(w + "." + rest) == |w|
  {
    if |w| > 0 {
      assert (w + "." + rest)[1..] == w[1..] + "." + rest;
      DotIndexAfterDigits(w[1..], rest);
    } else {
      assert (w + "." + rest)[0] == '.';
    }
  }

  /** Parsing what `Double.toString` printed gives back the number, in the
      scale `Double.toString` chose. */
  lemma ParseDoubleToString(d: Decimal)
    ensures ParseBigDecimal(DoubleToString(d)) == Some(Canonical(d))
    ensures ParseDouble(DoubleToString(d)) == Some(Finite(Canonical(d)))
  {
    var c := Canonical(d);
    var s := DoubleToString(d);
    ParseSignedPlain(c.unscaled, c.scale);
    SignedPlainChars(c.unscaled, c.scale);
    PlainCharsNoExponent(s);
    PlainTextIsBigDecimal(s);
    DoubleReadsBigDecimalText(s);
  }

  /** The characters a decimal numeral is written with. */
  predicate NumeralChar(c: char)
  {
    IsDigit(c) || c == '.' || c == '+' || c == '-' || IsExponentMark(c)
  }

  /** What an unsigned plain decimal is written with: digits and a '.'. */
  lemma UnsignedChars(u: string)
    requires ParseUnsigned(u).Some?
    ensures |u| > 0
    ensures forall i :: 0 <= i < |u| ==> IsDigit(u[i]) || u[i] == '.'
  {
    var k := DotIndex(u);
    var whole := u[..k];
    var fraction := if k < |u| then u[k + 1..] else "";
    forall i | 0 <= i < |u|
      ensures IsDigit(u[i]) || u[i] == '.'
    {
      if i < k {
        assert u[i] == whole[i];
      } else if i > k {
        assert u[i] == fraction[i - k - 1];
      }
    }
  }

  /** A plain significand is written with numeral characters only. */
  lemma SignificandChars(p: string)
    requires ParsePlain(p).Some?
    ensures |p| > 0
    ensures forall i :: 0 <= i < |p| ==> NumeralChar(p[i])
  {
    var signed := |p| > 0 && (p[0] == '-' || p[0] == '+');
    var u := if signed then p[1..] else p;
    UnsignedChars(u);
    forall i | 0 <= i < |p|
      ensures NumeralChar(p[i])
    {
      if signed && i > 0 {
        assert p[i] == u[i - 1];
      } else if !signed {
        assert p[i] == u[i];
      }
    }
  }

  /** An exponent is written with digits and a sign only. */
  lemma ExponentChars(x: string)
    requires ParseExponent(x).Some?
    ensures forall i :: 0 <= i < |x| ==> NumeralChar(x[i])
  {
    var signed := |x| > 0 && (x[0] == '-' || x[0] == '+');
    var digits := if signed then x[1..] else x;
    forall i | 0 <= i < |x|
      ensures NumeralChar(x[i])
    {
      if signed && i > 0 {
        assert x[i] == digits[i - 1];
      } else if !signed {
        assert x[i] == digits[i];
      }
    }
  }

  /** Every text `ParseNumeral` reads is non-empty and written with numeral
      characters only: no blank, no letter other than an exponent mark. */
  lemma NumeralChars(s: string)
    requires ParseNumeral(s).Some?
    ensures |s| > 0
    ensures forall i :: 0 <= i < |s| ==> NumeralChar(s[i])
  {
    var k := ExponentIndex(s);
    var p := s[..k];
    SignificandChars(p);
    var x := if k < |s| then s[k + 1..] else "";
    if k < |s| {
      ExponentChars(x);
    }
    forall i | 0 <= i < |s|
      ensures NumeralChar(s[i])
    {
      if i < k {
        assert s[i] == p[i];
      } else if i > k {
        assert s[i] == x[i - k - 1];
      }
    }
  }

  /** Every text `new BigDecimal` accepts, `Double.parseDouble` reads as the
      same number: it has no blank to trim, is no "Infinity" or "NaN" and has
      no type suffix. */
  lemma DoubleReadsBigDecimalText(s: string)
    requires ParseBigDecimal(s).Some?
    ensures ParseDouble(s) == Some(Finite(ParseBigDecimal(s).value))
  {
    NumeralChars(s);
    NumeralCharKind(s[0]);
    NumeralCharKind(s[|s| - 1]);
    TrimNoBlankEnds(s);
    NumeralNotSpecial(s);
    var (d, e) := ParseNumeral(s).value;
    assert ParseFinite(s) == Some(Finite(Shift(d, e)));
    assert ParseBigDecimal(s).value == Shift(d, e) by {
      if e == 0 {
        assert Shift(d, 0) == d;
      }
    }
    assert ParseDouble(s) == ParseFinite(s);
  }

  /** A text that starts with a digit is neither "Infinity" nor "NaN". */
  lemma DigitStartNotSpecial(t: string)
    requires |t| > 0 && IsDigit(t[0])
    ensures SpecialValue(t).None?
  {
    assert t != "Infinity" by {
      assert "Infinity"[0] == 'I';
    }
    assert t != "NaN" by {
      assert "NaN"[0] == 'N';
    }
  }

  /** A numeral character is not blank and not a type suffix. */
  lemma NumeralCharKind(c: char)
    requires NumeralChar(c)
    ensures c > ' ' && !IsTypeSuffix(c)
  {
  }

  /** A text of numeral characters is neither "Infinity" nor "NaN". */
  lemma NumeralNotSpecial(s: string)
    requires |s| > 0 && forall i :: 0 <= i < |s| ==> NumeralChar(s[i])
    ensures SpecialValue(s).None?
  {
    var j := if s[0] == '-' || s[0] == '+' then 1 else 0;
    if j < |s| {
      assert NumeralChar(s[j]);
      assert s[j..][0] == s[j];
    }
  }

  /** A type suffix is dropped: "3d" is 3. */
  lemma DoubleSuffixExample()
    ensures ParseDouble("3d") == Some(Finite(Decimal(3, 0)))
  {
    TrimNoBlankEnds("3d");
    DigitStartNotSpecial("3d");
    assert "3d"[..1] == "3";
    assert ExponentIndex("3") == 1;
    assert "3"[..1] == "3";
    assert DotIndex("3") == 1;
    assert "3"[..0] == "";
    assert ParseDigits("3") == 3;
    assert ParsePlain("3") == Some(Decimal(3, 0));
    assert ParseNumeral("3") == Some((Decimal(3, 0), 0));
  }

  /** "Infinity" is read as positive infinity. */
  lemma DoubleInfinityExample()
    ensures ParseDouble("Infinity") == Some(PositiveInfinity)
  {
    TrimNoBlankEnds("Infinity");
  }

  /** A '-' before "Infinity" gives negative infinity. */
  lemma DoubleNegativeInfinityExample()
    ensures ParseDouble("-Infinity") == Some(NegativeInfinity)
  {
    TrimNoBlankEnds("-Infinity");
    assert "-Infinity"[1..] == "Infinity";
  }

  /** "NaN" is read as NaN. */
  lemma DoubleNaNExample()
    ensures ParseDouble("NaN") == Some(NaN)
  {
    TrimNoBlankEnds("NaN");
  }

  /** "2.024" is 2.024: four digits at scale 3. */
  lemma PlainFractionExample2024()
    ensures ParsePlain("2.024") == Some(Decimal(2024, 3))
  {
    ParseUnsignedSplit("2", "024");
    assert "2" + "." + "024" == "2.024";
    assert "2" + "024" == "2024";
    assert ParseDigits("2024") == 2024 by {
      assert "2024"[..3] == "202" && "202"[..2] == "20" && "20"[..1] == "2" && "2"[..0] == "";
    }
  }

  /** The exponent mark of "2.024E3" is its sixth character. */
  lemma ExponentMarkExample2024E3()
    ensures ExponentIndex("2.024E3") == 5
  {
    var t := "2.024E3";
    assert t[5..] == "E3";
    assert ExponentIndex(t) == 4 + ExponentIndex(t[4..]) by {
      assert t[1..][1..][1..][1..] == t[4..];
    }
  }

  /** "2.024E3" is the significand 2.024 with the exponent 3. */
  lemma NumeralExample2024E3()
    ensures ParseNumeral("2.024E3") == Some((Decimal(2024, 3), 3))
  {
    var t := "2.024E3";
    ExponentMarkExample2024E3();
    assert t[..5] == "2.024" && t[6..] == "3";
    PlainFractionExample2024();
    assert ParseDigits("3") == 3 by {
      assert "3"[..0] == "";
    }
    assert ParseExponent("3") == Some(3);
  }

  /** An exponent moves the point: "2.024E3" is 2024. */
  lemma DoubleExponentExample()
    ensures ParseDouble("2.024E3") == Some(Finite(Decimal(2024, 0)))
  {
    var t := "2.024E3";
    assert t[0] == '2' && t[|t| - 1] == '3';
    TrimNoBlankEnds(t);
    DigitStartNotSpecial(t);
    NumeralCharKind('3');
    NumeralExample2024E3();
  }

  /** `new BigDecimal` reads a positive exponent: "1E+3" is 1000. */
  lemma BigDecimalPositiveExponentExample()
    ensures ParseBigDecimal("1E+3") == Some(Decimal(1000, 0))
  {
    var a := "1E+3";
    assert ExponentIndex(a) == 1 by {
      assert a[1..][0] == 'E';
    }
    assert a[..1] == "1" && a[2..] == "+3" && "+3"[1..] == "3";
    assert DotIndex("1") == 1 && "1"[..1] == "1" && "1"[..0] == "";
    assert ParseDigits("1") == 1 && ParseDigits("3") == 3 by {
      assert "3"[..0] == "";
    }
    assert ParsePlain("1") == Some(Decimal(1, 0));
    assert ParseExponent("+3") == Some(3);
    assert Pow10(3) == 1000;
  }

  /** "2.50" is 2.50: three digits at scale 2. */
  lemma PlainFractionExample250()
    ensures ParsePlain("2.50") == Some(Decimal(250, 2))
  {
    ParseUnsignedSplit("2", "50");
    assert "2" + "." + "50" == "2.50";
    assert "2" + "50" == "250";
    assert ParseDigits("250") == 250 by {
      assert "250"[..2] == "25" && "25"[..1] == "2" && "2"[..0] == "";
    }
  }

  /** `new BigDecimal` reads a negative exponent into the scale: "2.50e-1" is
      0.250. */
  lemma BigDecimalNegativeExponentExample()
    ensures ParseBigDecimal("2.50e-1") == Some(Decimal(250, 3))
  {
    var b := "2.50e-1";
    assert ExponentIndex(b) == 4 by {
      assert b[4..] == "e-1";
      assert b[1..][1..][1..][1..] == b[4..];
    }
    assert b[..4] == "2.50" && b[5..] == "-1" && "-1"[1..] == "1";
    PlainFractionExample250();
    assert ParseDigits("1") == 1 by {
      assert "1"[..0] == "";
    }
    assert ParseExponent("-1") == Some(-1);
  }

  /** The text `Double.toString` prints for unscaled * 10^-scale. */
  function SignedPlain(u: int, scale: nat): string
  {
    (if u < 0 then "-" else "") + PlainDigits(Abs(u), scale)
  }

  lemma ParseSignedPlain(u: int, scale: nat)
    ensures ParsePlain(SignedPlain(u, scale)) == Some(Decimal(u, scale))
  {
    var body := PlainDigits(Abs(u), scale);
    ParsePlainDigits(Abs(u), scale);
    if u < 0 {
      assert SignedPlain(u, scale) == "-" + body;
      assert ("-" + body)[1..] == body;
      assert Negate(Decimal(Abs(u), scale)) == Decimal(u, scale);
    } else {
      assert SignedPlain(u, scale) == body;
    }
  }

  /** The characters a plain numeral is written with. */
  predicate PlainChar(c: char)
  {
    IsDigit(c) || c == '.' || c == '-'
  }

  /** A text of plain characters has no exponent mark. */
  lemma {:induction false} PlainCharsNoExponent(s: string)
    requires forall i :: 0 <= i < |s| ==> PlainChar(s[i])
    ensures ExponentIndex(s) == |s|
  {
    if |s| > 0 {
      assert PlainChar(s[0]);
      assert forall i :: 0 <= i < |s[1..]| ==> s[1..][i] == s[i + 1];
      PlainCharsNoExponent(s[1..]);
    }
  }

  /** The unsigned plain digits are digits and one '.'. */
  lemma PlainDigitsChars(mag: nat, scale: nat)
    ensures forall i :: 0 <= i < |PlainDigits(mag, scale)| ==> PlainChar(PlainDigits(mag, scale)[i])
  {
    var all := PadLeft(NatToString(mag), scale + 1);
    PadLeftDigits(NatToString(mag), scale + 1);
    var s := PlainDigits(mag, scale);
    var cut := |all| - scale;
    assert s == all[..cut] + "." + all[cut..];
    forall i | 0 <= i < |s|
      ensures PlainChar(s[i])
    {
      if i < cut {
        assert s[i] == all[i];
      } else if i > cut {
        assert s[i] == all[i - 1];
      }
    }
  }

  /** `Double.toString` in plain notation writes no exponent mark. */
  lemma SignedPlainChars(u: int, scale: nat)
    ensures forall i :: 0 <= i < |SignedPlain(u, scale)| ==> PlainChar(SignedPlain(u, scale)[i])
  {
    var body := PlainDigits(Abs(u), scale);
    PlainDigitsChars(Abs(u), scale);
    var sign := if u < 0 then "-" else "";
    var s := SignedPlain(u, scale);
    assert s == sign + body;
    forall i | 0 <= i < |s|
      ensures PlainChar(s[i])
    {
      if i >= |sign| {
        assert s[i] == body[i - |sign|];
      }
    }
  }

  /** A digit string, a '.', and a digit string parse as the digits' value
      with one scale step per fractional digit. */
  lemma ParseUnsignedSplit(whole: string, fraction: string)
    requires AllDigits(whole) && AllDigits(fraction) && |whole| > 0
    ensures AllDigits(whole + fraction)
    ensures ParseUnsigned(whole + "." + fraction)
         == Some(Decimal(ParseDigits(whole + fraction), |fraction|))
  {
    AllDigitsConcat(whole, fraction);
    var body := whole + "." + fraction;
    DotIndexAfterDigits(whole, fraction);
    assert body[..|whole|] == whole;
    assert body[|whole| + 1..] == fraction;
  }

  lemma ParsePlainDigits(mag: nat, scale: nat)
    ensures ParseUnsigned(PlainDigits(mag, scale)) == Some(Decimal(mag, scale))
    ensures IsDigit(PlainDigits(mag, scale)[0])
    ensures scale >= 1 ==> IsDigit(PlainDigits(mag, scale)[|PlainDigits(mag, scale)| - 1])
  {
    var all := PadLeft(NatToString(mag), scale + 1);
    PadLeftDigits(NatToString(mag), scale + 1);
    ParseNatToString(mag);
    var whole, fraction := all[..|all| - scale], all[|all| - scale..];
    PlainDigitsSplit(all, scale);
    ParseUnsignedSplit(whole, fraction);
  }

  /** Cutting a digit string in two keeps both halves digits and their
      concatenation the original. */
  lemma PlainDigitsSplit(all: string, scale: nat)
    requires AllDigits(all) && |all| > scale
    ensures var whole, fraction := all[..|all| - scale], all[|all| - scale..];
      && AllDigits(whole) && AllDigits(fraction) && whole + fraction == all
      && (whole + "." + fraction)[0] == all[0]
      && (scale >= 1 ==> (whole + "." + fraction)[|all|] == all[|all| - 1])
  {
  }

  /** Truncation toward zero (the integer part kept by a narrowing cast),
      dropping one fractional digit at a time. */
  function TruncateTowardZero(d: Decimal): (t: int)
    ensures t > 0 ==> d.unscaled > 0
    ensures t < 0 ==> d.unscaled < 0
    decreases d.scale
  {
    if d.scale == 0 then d.unscaled
    else if d.unscaled >= 0 then TruncateTowardZero(Decimal(d.unscaled / 10, d.scale - 1))
    else -TruncateTowardZero(Decimal((-d.unscaled) / 10, d.scale - 1))
  }

  /** The truncated value is the whole number of units in the decimal: its
      magnitude times 10^scale does not exceed the decimal's and the next
      integer's does. */
  lemma TruncateBounds(d: Decimal)
    ensures var t, p := TruncateTowardZero(d), Pow10(d.scale);
      d.unscaled >= 0 ==> 0 <= t && t * p <= d.unscaled < (t + 1) * p
    ensures var t, p := TruncateTowardZero(d), Pow10(d.scale);
      d.unscaled < 0 ==> t <= 0 && -t * p <= -d.unscaled < (-t + 1) * p
  {
    if d.unscaled >= 0 {
      TruncateBoundsNat(d.unscaled, d.scale);
    } else {
      TruncateBoundsNegative(d.unscaled, d.scale);
    }
  }

  /** `TruncateBounds` for a negative unscaled value: truncation mirrors the
      non-negative case. */
  lemma TruncateBoundsNegative(u: int, s: nat)
    requires u < 0
    ensures var t := TruncateTowardZero(Decimal(u, s));
      t <= 0 && -t * Pow10(s) <= -u < (-t + 1) * Pow10(s)
  {
    if s > 0 {
      var a := TruncateTowardZero(Decimal(-u, s));
      TruncateBoundsNat(-u, s);
      assert TruncateTowardZero(Decimal(u, s)) == -a;
    }
  }

  /** `TruncateBounds` for a non-negative unscaled value. */
  lemma {:induction false} TruncateBoundsNat(u: nat, s: nat)
    decreases s
    ensures 0 <= TruncateTowardZero(Decimal(u, s))
    ensures var t := TruncateTowardZero(Decimal(u, s));
      t * Pow10(s) <= u < (t + 1) * Pow10(s)
  {
    if s > 0 {
      TruncateBoundsNat(u / 10, s - 1);
      var t := TruncateTowardZero(Decimal(u / 10, s - 1));
      assert TruncateTowardZero(Decimal(u, s)) == t;
      DigitDrop(u, t, Pow10(s - 1), Pow10(s));
    }
  }

  /** Bounds on `m / 10` in units of `p` give bounds on `m` in units of
      `10 * p`. */
  lemma DigitDrop(m: nat, t: nat, p: nat, q: nat)
    requires q == 10 * p
    requires t * p <= m / 10 < (t + 1) * p
    ensures t * q <= m < (t + 1) * q
  {
    assert m == 10 * (m / 10) + m % 10;
    assert t * q == 10 * (t * p);
    assert (t + 1) * q == 10 * ((t + 1) * p);
  }

  /** Java's `(int)` cast of a double: NaN gives 0, an infinity the bound on
      its side, and a finite value its truncation, saturated to 32 bits. */
  function DoubleToInt(x: JavaDouble): (i: int)
    ensures IsJavaInt(i)
    ensures x.Finite? && IsJavaInt(TruncateTowardZero(x.value)) ==> i == TruncateTowardZero(x.value)
    ensures x.Finite? && TruncateTowardZero(x.value) > IntMax ==> i == IntMax
    ensures x.Finite? && TruncateTowardZero(x.value) < IntMin ==> i == IntMin
    ensures x.NaN? ==> i == 0
    ensures x.PositiveInfinity? ==> i == IntMax
    ensures x.NegativeInfinity? ==> i == IntMin
  {
    match x
    case NaN => 0
    case PositiveInfinity => IntMax
    case NegativeInfinity => IntMin
    case Finite(d) =>
      var t := TruncateTowardZero(d);
      if t < IntMin then IntMin else if t > IntMax then IntMax else t
  }

  /** An integer written into a numeric cell is read back unchanged by
      `(int) Double.parseDouble(String.valueOf(cell))`. */
  lemma IntegralCellRoundTrip(m: int)
    requires IsJavaInt(m)
    ensures ParseDouble(DoubleToString(Decimal(m, 0))) == Some(Finite(Decimal(m * 10, 1)))
    ensures DoubleToInt(Finite(Decimal(m * 10, 1))) == m
  {
    assert Canonical(Decimal(m, 0)) == Decimal(m * 10, 1);
    ParseDoubleToString(Decimal(m, 0));
    TruncateTenths(m);
  }

  lemma TruncateTenths(m: int)
    ensures TruncateTowardZero(Decimal(m * 10, 1)) == m
  {
    if m >= 0 {
      assert (m * 10) / 10 == m;
    } else {
      assert (-(m * 10)) / 10 == -m;
    }
  }
}

=== FILE: ownership.dfy ===
/** Owner-scoped deletion as the services perform it: a repository lookup
    `findByIdAndUserId(id, userId)` finds a stored record only when both its
    id and its owner match, and only what it finds is deleted. The store is
    the sequence of stored records; ids are primary keys. */
module Ownership {
  import opened Wrappers
  import opened Domain

  /** What `findByIdAndUserId` compares: the record's id and its owner's id. */
  datatype Key = Key(id: Option<int>, owner: Option<UserId>)

  /** A record is targeted when one of `ids` is its id and `user` owns it. */
  predicate Targeted(k: Key, user: UserId, ids: set<int>)
  {
    k.id.Some? && k.id.value in ids && k.owner == Some(user)
  }

  /** The store after deleting every record `user` owns whose id is in `ids`;
      the remaining records keep their order. */
  function RemoveOwned<T>(stored: seq<T>, keyOf: T -> Key, user: UserId, ids: set<int>): (r: seq<T>)
    ensures |r| <= |stored|
    ensures forall i :: 0 <= i < |r| ==> r[i] in stored && !Targeted(keyOf(r[i]), user, ids)
    ensures forall i :: 0 <= i < |stored| && !Targeted(keyOf(stored[i]), user, ids) ==> stored[i] in r
  {
    if |stored| == 0 then []
    else
      var rest := RemoveOwned(stored[..|stored| - 1], keyOf, user, ids);
      var last := stored[|stored| - 1];
      assert stored == stored[..|stored| - 1] + [last];
      if Targeted(keyOf(last), user, ids) then rest else rest + [last]
  }

  /** Deleting nothing leaves the store as it is. */
  lemma {:induction false} RemoveNothing<T>(stored: seq<T>, keyOf: T -> Key, user: UserId)
    ensures RemoveOwned(stored, keyOf, user, {}) == stored
  {
    if |stored| > 0 {
      RemoveNothing(stored[..|stored| - 1], keyOf, user);
      assert stored == stored[..|stored| - 1] + [stored[|stored| - 1]];
    }
  }

  /** Deleting one set of ids and then another is deleting their union. */
  lemma {:induction false} RemoveOwnedTwice<T>(stored: seq<T>, keyOf: T -> Key, user: UserId, a: set<int>, b: set<int>)
    ensures RemoveOwned(RemoveOwned(stored, keyOf, user, a), keyOf, user, b) == RemoveOwned(stored, keyOf, user, a + b)
  {
    if |stored| > 0 {
      var init := stored[..|stored| - 1];
      var last := stored[|stored| - 1];
      RemoveOwnedTwice(init, keyOf, user, a, b);
      var once := RemoveOwned(init, keyOf, user, a);
      if !Targeted(keyOf(last), user, a) {
        assert (once + [last])[..|once + [last]| - 1] == once;
      }
    }
  }
}

=== FILE: selection.dfy ===
/** `useSelection`: the set of selected row ids behind a table's check boxes.
    Of each item the hook reads only its id, so the items are given here as
    the sequence of their ids, in display order. */
module Selection {

  type Selected = set<int>

  /** The ids of the items shown. */
  function Ids(items: seq<int>): set<int>
  {
    set x | x in items
  }

  /** No id is shown twice. */
  predicate Distinct(items: seq<int>)
  {
    forall i, j :: 0 <= i < j < |items| ==> items[i] != items[j]
  }

  /** `handleSelect(id)`: the id's check box toggled. */
  function HandleSelect(s: Selected, id: int): (r: Selected)
    ensures id in r <==> id !in s
    ensures forall x :: x != id ==> (x in r <==> x in s)
  {
    if id in s then s - {id} else s + {id}
  }

  /** `handleSelectAll(checked)`: every shown id when the header box is
      checked, nothing when it is unchecked. */
  function HandleSelectAll(items: seq<int>, checked: bool): (r: Selected)
    ensures checked ==> forall i :: 0 <= i < |items| ==> items[i] in r
    ensures forall x :: x in r ==> checked && x in items
  {
    if checked then Ids(items) else {}
  }

  /** `clearSelection`. */
  function ClearSelection(): (r: Selected)
    ensures forall x :: x !in r
  {
    {}
  }

  /** `isAllSelected` as written: there are items, and the selection has as
      many ids as there are items. It looks at sizes only. */
  predicate IsAllSelectedBySize(items: seq<int>, s: Selected)
  {
    |items| > 0 && |s| == |items|
  }

  /** What the header check box is meant to show: there are items and every
      one of them is selected. */
  predicate IsAllSelected(items: seq<int>, s: Selected)
  {
    |items| > 0 && forall i :: 0 <= i < |items| ==> items[i] in s
  }

  /** Toggling the same box twice restores the selection. */
  lemma ToggleTwice(s: Selected, id: int)
    ensures HandleSelect(HandleSelect(s, id), id) == s
  {
  }

  /** Distinct ids make as many selected ids as items. */
  lemma {:induction false} DistinctIdsCount(items: seq<int>)
    requires Distinct(items)
    ensures |Ids(items)| == |items|
  {
    if |items| > 0 {
      var rest := items[1..];
      assert Distinct(rest) by {
        forall i, j | 0 <= i < j < |rest|
          ensures rest[i] != rest[j]
        {
          assert rest[i] == items[i + 1] && rest[j] == items[j + 1];
        }
      }
      DistinctIdsCount(rest);
      assert Ids(items) == {items[0]} + Ids(rest) by {
        forall x | x in Ids(items)
          ensures x in {items[0]} + Ids(rest)
        {
          var i :| 0 <= i < |items| && items[i] == x;
          if i > 0 {
            assert rest[i - 1] == x;
          }
        }
      }
    }
  }

  /** Selecting all shows every item as selected, by either reading. */
  lemma SelectAllSelectsAll(items: seq<int>)
    requires |items| > 0 && Distinct(items)
    ensures IsAllSelected(items, HandleSelectAll(items, true))
    ensures IsAllSelectedBySize(items, HandleSelectAll(items, true))
  {
    DistinctIdsCount(items);
  }

  /** After clearing nothing is shown as all selected. */
  lemma ClearedIsNotAll(items: seq<int>)
    ensures !IsAllSelected(items, ClearSelection())
    ensures !IsAllSelectedBySize(items, ClearSelection())
  {
    if |items| > 0 {
      assert items[0] !in ClearSelection();
    }
  }

  /** Selecting all of N distinct items and then deselecting one of them
      leaves N - 1 selected and the header box unchecked. */
  lemma SelectAllThenDeselect(items: seq<int>, k: int)
    requires Distinct(items) && 0 <= k < |items|
    ensures |HandleSelect(HandleSelectAll(items, true), items[k])| == |items| - 1
    ensures !IsAllSelected(items, HandleSelect(HandleSelectAll(items, true), items[k]))
    ensures !IsAllSelectedBySize(items, HandleSelect(HandleSelectAll(items, true), items[k]))
  {
    DistinctIdsCount(items);
    assert items[k] in HandleSelectAll(items, true);
  }

  /** A set lacking one element of a superset is smaller than it. */
  lemma MissingMakesSmaller(a: set<int>, b: set<int>, x: int)
    requires a <= b && x in b && x !in a
    ensures |a| < |b|
  {
    assert b == a + (b - a);
    assert x in b - a;
  }

  /** While the selection holds only shown ids and no id is shown twice, the
      size test agrees with the intended one. */
  lemma SizeTestAgrees(items: seq<int>, s: Selected)
    requires Distinct(items) && s <= Ids(items)
    ensures IsAllSelectedBySize(items, s) <==> IsAllSelected(items, s)
  {
    DistinctIdsCount(items);
    if IsAllSelected(items, s) {
      assert Ids(items) <= s;
      assert s == Ids(items);
    }
    if IsAllSelectedBySize(items, s) && !IsAllSelected(items, s) {
      var i :| 0 <= i < |items| && items[i] !in s;
      MissingMakesSmaller(s, Ids(items), items[i]);
    }
  }

  /** The size test is fooled by a stale id. The rows 1 and 3 are all
      selected; the list then reloads with 3 gone and 2 new, and the
      selection {1, 3} has the size of the new list although row 2 is not
      selected. */
  lemma StaleSelectionFoolsSizeTest()
    ensures var before, after := [1, 3], [1, 2];
      var s := HandleSelectAll(before, true);
      IsAllSelected(before, s) && IsAllSelectedBySize(after, s) && !IsAllSelected(after, s)
  {
    var s := HandleSelectAll([1, 3], true);
    assert s == {1, 3} by {
      assert 1 == [1, 3][0] && 3 == [1, 3][1];
    }
    assert [1, 2][1] !in s;
  }
}

=== FILE: text.dfy ===
/** Character and digit-string helpers with the semantics of the Java and
    JavaScript library calls the application relies on: decimal rendering of
    integers, `String.trim`, `equalsIgnoreCase` and substring search. */
module Text {

  /** 10^k. */
  function Pow10(k: nat): (p: nat)
    ensures p >= 1
  {
    if k == 0 then 1 else 10 * Pow10(k - 1)
  }

  lemma {:induction false} Pow10Add(a: nat, b: nat)
    ensures Pow10(a + b) == Pow10(a) * Pow10(b)
  {
    if a != 0 {
      Pow10Add(a - 1, b);
      calc {
        Pow10(a + b);
        10 * Pow10(a - 1 + b);
        10 * (Pow10(a - 1) * Pow10(b));
        (10 * Pow10(a - 1)) * Pow10(b);
      }
    }
  }

  lemma {:induction false} Pow10Monotone(a: nat, b: nat)
    requires a <= b
    ensures Pow10(a) <= Pow10(b)
  {
    if a < b {
      Pow10Monotone(a, b - 1);
    }
  }

  predicate IsDigit(c: char)
  {
    '0' <= c <= '9'
  }

  predicate AllDigits(s: string)
  {
    forall i :: 0 <= i < |s| ==> IsDigit(s[i])
  }

  function DigitChar(d: nat): (c: char)
    requires d < 10
    ensures IsDigit(c)
  {
    (48 + d) as char
  }

  function DigitValue(c: char): (d: nat)
    requires IsDigit(c)
    ensures d < 10
  {
    c as int - 48
  }

  lemma DigitRoundTrip(d: nat)
    requires d < 10
    ensures DigitValue(DigitChar(d)) == d
  {
  }

  /** Decimal digits of `n`, most significant first, without leading zeros
      (Java's `Long.toString` of a non-negative value). */
  function NatToString(n: nat): (s: string)
    ensures 1 <= |s|
    ensures AllDigits(s)
    decreases n
  {
    if n < 10 then [DigitChar(n)] else NatToString(n / 10) + [DigitChar(n % 10)]
  }

  /** The number a string of decimal digits denotes. */
  function ParseDigits(s: string): nat
    requires AllDigits(s)
  {
    if |s| == 0 then 0 else 10 * ParseDigits(s[..|s| - 1]) + DigitValue(s[|s| - 1])
  }

  /** Parsing the rendering of a number gives the number back. */
  lemma {:induction false} ParseNatToString(n: nat)
    ensures ParseDigits(NatToString(n)) == n
  {
    var s := NatToString(n);
    if n >= 10 {
      assert s[..|s| - 1] == NatToString(n / 10);
      ParseNatToString(n / 10);
    }
  }

  lemma {:induction false} NatToStringInjective(a: nat, b: nat)
    requires NatToString(a) == NatToString(b)
    ensures a == b
  {
    ParseNatToString(a);
    ParseNatToString(b);
  }

  /** The rendering has at most `k` digits exactly when the number is below 10^k. */
  lemma {:induction false} NatToStringLength(n: nat, k: nat)
    requires 1 <= k
    ensures |NatToString(n)| <= k <==> n < Pow10(k)
  {
    if n >= 10 {
      if k == 1 {
        assert Pow10(1) == 10;
      } else {
        NatToStringLength(n / 10, k - 1);
        assert n / 10 < Pow10(k - 1) <==> n < Pow10(k);
      }
    } else {
      Pow10Monotone(1, k);
      assert Pow10(1) == 10;
    }
  }

  /** Splitting a digit string splits its value by the positional weight. */
  lemma AllDigitsConcat(a: string, b: string)
    requires AllDigits(a) && AllDigits(b)
    ensures AllDigits(a + b)
  {
    var ab := a + b;
    forall i | 0 <= i < |ab| ensures IsDigit(ab[i]) {
      if i < |a| { assert ab[i] == a[i]; } else { assert ab[i] == b[i - |a|]; }
    }
  }

  lemma PositionalStep(pa: int, pb: int, p: int, d: int)
    ensures 10 * (pa * p + pb) + d == pa * (10 * p) + (10 * pb + d)
  {
  }

  lemma {:induction false} ParseDigitsAppend(a: string, b: string)
    requires AllDigits(a) && AllDigits(b)
    ensures AllDigits(a + b)
    ensures ParseDigits(a + b) == ParseDigits(a) * Pow10(|b|) + ParseDigits(b)
  {
    AllDigitsConcat(a, b);
    var ab := a + b;
    if |b| == 0 {
      assert ab == a;
    } else {
      var b' := b[..|b| - 1];
      assert ab[..|ab| - 1] == a + b';
      assert ab[|ab| - 1] == b[|b| - 1];
      ParseDigitsAppend(a, b');
      PositionalStep(ParseDigits(a), ParseDigits(b'), Pow10(|b'|), DigitValue(b[|b| - 1]));
    }
  }

  function Zeros(k: nat): (s: string)
    ensures |s| == k
    ensures forall i :: 0 <= i < k ==> s[i] == '0'
  {
    seq(k, i => '0')
  }

  lemma {:induction false} ParseZeros(k: nat)
    ensures AllDigits(Zeros(k))
    ensures ParseDigits(Zeros(k)) == 0
  {
    if k > 0 {
      assert Zeros(k)[..k - 1] == Zeros(k - 1);
      ParseZeros(k - 1);
    }
  }

  /** Left-pads a digit string with zeros up to `width` characters. */
  function PadLeft(s: string, width: nat): (r: string)
  {
    if |s| < width then Zeros(width - |s|) + s else s
  }

  /** Zero padding keeps the value and reaches the width. */
  lemma PadLeftDigits(s: string, width: nat)
    requires AllDigits(s)
    ensures AllDigits(PadLeft(s, width))
    ensures |PadLeft(s, width)| == if |s| < width then width else |s|
    ensures ParseDigits(PadLeft(s, width)) == ParseDigits(s)
  {
    if |s| < width {
      ParseZeros(width - |s|);
      ParseDigitsAppend(Zeros(width - |s|), s);
    }
  }

  /** Java's `Integer.toString` / `Long.toString` / `%d`. */
  function IntToString(i: int): (s: string)
  {
    if i < 0 then "-" + NatToString(-i) else NatToString(i)
  }

  lemma {:induction false} IntToStringInjective(a: int, b: int)
    requires IntToString(a) == IntToString(b)
    ensures a == b
  {
    var sa, sb := IntToString(a), IntToString(b);
    assert sa[0] == '-' <==> a < 0;
    assert sb[0] == '-' <==> b < 0;
    if a < 0 && b < 0 {
      assert sa[1..] == NatToString(-a) && sb[1..] == NatToString(-b);
      NatToStringInjective(-a, -b);
    } else if a >= 0 && b >= 0 {
      NatToStringInjective(a, b);
    }
  }

  // ---------------------------------------------------------------------------
  // java.lang.String.trim: removes every leading and trailing char <= ' '.

  function TrimStart(s: string): (r: string)
    ensures |r| <= |s| && r == s[|s| - |r|..]
    ensures |r| > 0 ==> r[0] > ' '
  {
    if |s| > 0 && s[0] <= ' ' then TrimStart(s[1..]) else s
  }

  function TrimEnd(s: string): (r: string)
    ensures |r| <= |s| && r == s[..|r|]
    ensures |r| > 0 ==> r[|r| - 1] > ' '
  {
    if |s| > 0 && s[|s| - 1] <= ' ' then TrimEnd(s[..|s| - 1]) else s
  }

  function Trim(s: string): (r: string)
  {
    TrimEnd(TrimStart(s))
  }

  /** A string without blank ends is its own trim. */
  lemma TrimNoBlankEnds(s: string)
    requires |s| > 0 ==> s[0] > ' ' && s[|s| - 1] > ' '
    ensures Trim(s) == s
  {
  }

  // ---------------------------------------------------------------------------
  // Case folding. Java's equalsIgnoreCase and SQL lower() fold case per
  // character; the model folds the Latin-1 range (U+0000..U+00FF) exactly and
  // leaves every other character unchanged.

  function FoldCase(c: char): (f: char)
  {
    if 'A' <= c <= 'Z' || ('\U{00C0}' <= c <= '\U{00DE}' && c != '\U{00D7}') then
      (c as int + 32) as char
    else
      c
  }

  function ToLower(s: string): (r: string)
    ensures |r| == |s|
    ensures forall i :: 0 <= i < |s| ==> r[i] == FoldCase(s[i])
  {
    seq(|s|, i requires 0 <= i < |s| => FoldCase(s[i]))
  }

  /** `a.equalsIgnoreCase(b)`. */
  predicate EqualsIgnoreCase(a: string, b: string)
  {
    ToLower(a) == ToLower(b)
  }

  predicate OccursAt(s: string, sub: string, k: int)
  {
    0 <= k <= |s| - |sub| && s[k..k + |sub|] == sub
  }

  /** `s.contains(sub)`. */
  predicate Contains(s: string, sub: string)
  {
    exists k :: 0 <= k <= |s| - |sub| && OccursAt(s, sub, k)
  }
}

=== FILE: transaction_form.dfy ===
/** `TransactionForm`: the dialog that creates or edits one transaction. Its
    state holds six JavaScript values; opening the dialog fills them (from
    the transaction being edited, or with defaults and the first account),
    and submitting checks that all are filled and turns them into the
    request the backend receives. The lists of categories and accounts the
    dialog loads, today's date and the server's answer are parameters. */
module TransactionForm {
  import opened Wrappers
  import opened Text
  import opened Decimals
  import opened Calendar
  import opened JavaNumbers
  import opened Domain
  import Crud

  /** A form value: `undefined`/`null`, a string typed in or copied, or a
      number copied from a loaded transaction. */
  datatype FieldValue = Undefined | Str(text: string) | Num(number: Decimal)

  /** JavaScript truthiness: the empty string and zero are falsy. */
  predicate Filled(v: FieldValue)
  {
    match v
    case Undefined => false
    case Str(s) => s != ""
    case Num(n) => n.unscaled != 0
  }

  /** `a || b`. */
  function Or(a: FieldValue, b: FieldValue): (r: FieldValue)
    ensures Filled(a) ==> r == a
    ensures !Filled(a) ==> r == b
  {
    if Filled(a) then a else b
  }

  datatype FormData = FormData(
    name: FieldValue,
    amount: FieldValue,
    creationDate: FieldValue,
    transactionType: FieldValue,
    categoryId: FieldValue,
    accountId: FieldValue)

  /** The form's inputs, named as their `name` attributes are. */
  datatype Field = NameField | AmountField | CreationDateField | TransactionTypeField | CategoryIdField | AccountIdField

  const LoadFailedMessage := "Could not load required data. Please try again later."
  const FillAllMessage := "Please fill in all fields."
  const SaveFailedMessage := "An error occurred while saving."
  const TransactionsPath := "/transactions"

  /** The state before anything is loaded: empty fields, today's date (the
      UTC date `toISOString` gives) and the type SAIDA. */
  function NewForm(today: Date): (f: FormData)
    ensures !Filled(f.name) && !Filled(f.amount) && !Filled(f.categoryId) && !Filled(f.accountId)
    ensures f.transactionType == Str(TypeName(SAIDA))
    ensures f.creationDate == Str(FormatIso(today))
  {
    FormData(Str(""), Str(""), Str(FormatIso(today)), Str(TypeName(SAIDA)), Str(""), Str(""))
  }

  /** `x?.id` for a referenced category or account. */
  function RefId(r: Option<Ref>): (v: FieldValue)
    ensures v.Undefined? <==> r.None? || r.value.id.None?
  {
    if r.Some? && r.value.id.Some? then Num(Decimal(r.value.id.value, 0)) else Undefined
  }

  /** The JSON value of an optional text. */
  function TextValue(s: Option<string>): FieldValue
  {
    if s.Some? then Str(s.value) else Undefined
  }

  /** The state copied from a transaction being edited: its own values, the
      category's id and the id of its out-account, or failing that of its
      in-account; an id that is missing or zero becomes the empty string. */
  function EditForm(t: Transaction): (f: FormData)
    ensures f.categoryId == Or(RefId(t.category), Str(""))
    ensures Filled(RefId(t.outAccount)) ==> f.accountId == RefId(t.outAccount)
    ensures !Filled(RefId(t.outAccount)) ==> f.accountId == Or(RefId(t.inAccount), Str(""))
  {
    FormData(
      TextValue(t.name),
      if t.amount.Some? then Num(t.amount.value) else Undefined,
      if t.creationDate.Some? then Str(FormatIso(t.creationDate.value)) else Undefined,
      if t.transactionType.Some? then Str(TypeName(t.transactionType.value)) else Undefined,
      Or(RefId(t.category), Str("")),
      Or(Or(RefId(t.outAccount), RefId(t.inAccount)), Str("")))
  }

  /** Loading the categories and accounts (`None` when either request
      fails): the edited transaction's values, or for a new one the first
      account preselected. A failed load leaves the form and shows a
      message; the second component is the message shown, if any. */
  function Load(f: FormData, editing: Option<Transaction>, accounts: Option<seq<Account>>): (r: (FormData, Option<string>))
    ensures accounts.None? ==> r == (f, Some(LoadFailedMessage))
    ensures accounts.Some? && editing.Some? ==> r == (EditForm(editing.value), None)
    ensures accounts.Some? && editing.None? && |accounts.value| > 0 ==>
      r == (f.(accountId := if accounts.value[0].id.Some? then Num(Decimal(accounts.value[0].id.value, 0)) else Undefined), None)
    ensures accounts.Some? && editing.None? && |accounts.value| == 0 ==> r == (f, None)
  {
    match accounts
    case None => (f, Some(LoadFailedMessage))
    case Some(accs) =>
      if editing.Some? then (EditForm(editing.value), None)
      else if |accs| > 0 then
        var first := accs[0].id;
        (f.(accountId := if first.Some? then Num(Decimal(first.value, 0)) else Undefined), None)
      else (f, None)
  }

  /** `handleChange`: one input's new text, the others kept. */
  function HandleChange(f: FormData, field: Field, value: string): (r: FormData)
    ensures field == NameField ==> r == f.(name := Str(value))
    ensures field == AmountField ==> r == f.(amount := Str(value))
    ensures field == CreationDateField ==> r == f.(creationDate := Str(value))
    ensures field == TransactionTypeField ==> r == f.(transactionType := Str(value))
    ensures field == CategoryIdField ==> r == f.(categoryId := Str(value))
    ensures field == AccountIdField ==> r == f.(accountId := Str(value))
  {
    match field
    case NameField => f.(name := Str(value))
    case AmountField => f.(amount := Str(value))
    case CreationDateField => f.(creationDate := Str(value))
    case TransactionTypeField => f.(transactionType := Str(value))
    case CategoryIdField => f.(categoryId := Str(value))
    case AccountIdField => f.(accountId := Str(value))
  }

  /** Which account reference the saved transaction carries. */
  datatype Side = OutAccount | InAccount

  /** The body sent: the form's values, the amount as a number (`None` for
      NaN, which JSON writes as `null`), `category: {id}` and one of
      `outAccount: {id}` / `inAccount: {id}`. The form's own `categoryId`
      and `accountId` keys are not part of it. */
  datatype Payload = Payload(
    name: FieldValue,
    amount: Option<Decimal>,
    creationDate: FieldValue,
    transactionType: FieldValue,
    categoryId: FieldValue,
    side: Side,
    accountId: FieldValue)

  datatype Request = Put(path: string, body: Payload) | Post(path: string, body: Payload)

  /** `parseFloat`: a number is kept; a text is read as a plain decimal
      numeral. */
  function ParseFloat(v: FieldValue): (r: Option<Decimal>)
    ensures v.Num? ==> r == Some(v.number)
    ensures v.Undefined? ==> r.None?
  {
    match v
    case Undefined => None
    case Str(s) => ParsePlain(Trim(s))
    case Num(n) => Some(n)
  }

  /** `/transactions/{id}`. */
  function TransactionPath(id: int): string
  {
    TransactionsPath + "/" + IntToString(id)
  }

  predicate AllFilled(f: FormData)
  {
    Filled(f.name) && Filled(f.amount) && Filled(f.creationDate) && Filled(f.categoryId) && Filled(f.accountId)
  }

  /** `handleSubmit`: a form with an empty value is refused with a message;
      otherwise the request is a PUT to the transaction's own path when an
      existing transaction with a non-zero id is edited and a POST to
      `/transactions` otherwise, and the account goes out of the chosen
      account exactly for the type SAIDA. */
  function Submit(f: FormData, editing: Option<Transaction>): (r: Result<Request, string>)
    ensures r.Failure? <==> !AllFilled(f)
    ensures r.Failure? ==> r.error == FillAllMessage
    ensures r.Success? ==> r.value.body == Payload(f.name, ParseFloat(f.amount), f.creationDate, f.transactionType,
      f.categoryId, r.value.body.side, f.accountId)
    ensures r.Success? ==> (r.value.body.side == OutAccount <==> f.transactionType == Str(TypeName(SAIDA)))
    ensures r.Success? ==> (r.value.Put? <==> editing.Some? && editing.value.id.Some? && editing.value.id.value != 0)
    ensures r.Success? && r.value.Put? ==> r.value.path == TransactionPath(editing.value.id.value)
    ensures r.Success? && r.value.Post? ==> r.value.path == TransactionsPath
  {
    if !AllFilled(f) then Failure(FillAllMessage)
    else
      var side := if f.transactionType == Str(TypeName(SAIDA)) then OutAccount else InAccount;
      var body := Payload(f.name, ParseFloat(f.amount), f.creationDate, f.transactionType, f.categoryId, side, f.accountId);
      if editing.Some? && editing.value.id.Some? && editing.value.id.value != 0 then
        Success(Put(TransactionPath(editing.value.id.value), body))
      else
        Success(Post(TransactionsPath, body))
  }

  /** The message a failed save shows: the server's own, or a fixed one. */
  function SaveErrorMessage(serverMessage: Option<string>): (m: string)
    ensures Crud.Truthy(serverMessage) ==> m == serverMessage.value
    ensures !Crud.Truthy(serverMessage) ==> m == SaveFailedMessage
    ensures m != ""
  {
    if Crud.Truthy(serverMessage) then serverMessage.value else SaveFailedMessage
  }

  /** A transaction the form can show unchanged: every value present and
      non-zero, its one account on the side its type uses. */
  predicate Editable(t: Transaction)
  {
    && t.id.Some? && t.id.value != 0
    && t.name.Some? && t.name.value != ""
    && t.amount.Some? && t.amount.value.unscaled != 0
    && t.creationDate.Some? && IsLocalDate(t.creationDate.value)
    && t.category.Some? && t.category.value.id.Some? && t.category.value.id.value != 0
    && t.transactionType.Some?
    && ((t.transactionType.value == SAIDA && t.outAccount.Some? && t.outAccount.value.id.Some? && t.outAccount.value.id.value != 0)
        || (t.transactionType.value == ENTRADA && !Filled(RefId(t.outAccount))
            && t.inAccount.Some? && t.inAccount.value.id.Some? && t.inAccount.value.id.value != 0))
  }

  /** Opening an income or expense for editing and saving it untouched sends
      it back as it was: a PUT to its path carrying its name, amount, date
      (in a text the backend reads back as the same date), type, category
      and account on its own side. */
  lemma EditRoundTrip(t: Transaction)
    requires Editable(t)
    ensures var r := Submit(EditForm(t), Some(t));
      && r.Success? && r.value.Put? && r.value.path == TransactionPath(t.id.value)
      && r.value.body.name == Str(t.name.value)
      && r.value.body.amount == t.amount
      && ParseIso(r.value.body.creationDate.text) == t.creationDate
      && r.value.body.transactionType == Str(TypeName(t.transactionType.value))
      && r.value.body.categoryId == Num(Decimal(t.category.value.id.value, 0))
      && (t.transactionType.value == SAIDA ==>
            r.value.body.side == OutAccount && r.value.body.accountId == Num(Decimal(t.outAccount.value.id.value, 0)))
      && (t.transactionType.value == ENTRADA ==>
            r.value.body.side == InAccount && r.value.body.accountId == Num(Decimal(t.inAccount.value.id.value, 0)))
  {
    ParseFormatIso(t.creationDate.value);
    TypeNamesDiffer(t.transactionType.value);
  }

  /** Only SAIDA is written "SAIDA". */
  lemma TypeNamesDiffer(ty: TransactionType)
    ensures TypeName(ty) == TypeName(SAIDA) <==> ty == SAIDA
  {
    if ty != SAIDA && TypeName(ty) == TypeName(SAIDA) {
      TypeValueOfName(TypeName(ty), ty);
      TypeValueOfName(TypeName(SAIDA), SAIDA);
    }
  }

  /** A transaction of any type other than SAIDA that has an out-account
      (a transfer, a card expense) is saved with that account as its
      in-account: the form keeps one account and puts it on the side the
      type SAIDA decides. */
  lemma OutAccountMovesIn(t: Transaction)
    requires t.transactionType.Some? && t.transactionType.value != SAIDA
    requires Filled(RefId(t.outAccount))
    requires AllFilled(EditForm(t))
    ensures var r := Submit(EditForm(t), Some(t));
      r.Success? && r.value.body.side == InAccount && r.value.body.accountId == RefId(t.outAccount)
  {
    TypeNamesDiffer(t.transactionType.value);
  }

  /** Choosing the type decides the account's side: picking SAIDA in a
      filled form makes the chosen account the one paid from, any other type
      the one paid into. */
  lemma TypeChoiceDecidesSide(f: FormData, ty: TransactionType, editing: Option<Transaction>)
    requires AllFilled(f)
    ensures var r := Submit(HandleChange(f, TransactionTypeField, TypeName(ty)), editing);
      r.Success? && (r.value.body.side == OutAccount <==> ty == SAIDA)
  {
    TypeNamesDiffer(ty);
  }

  /** A new form nobody has typed in is refused. */
  lemma UntouchedNewFormRefused(today: Date, accounts: Option<seq<Account>>)
    ensures Submit(Load(NewForm(today), None, accounts).0, None) == Failure(FillAllMessage)
  {
  }

  /** A zero amount counts as empty: such a transaction cannot be saved
      through the form. */
  lemma ZeroAmountRefused(f: FormData, editing: Option<Transaction>)
    requires f.amount == Num(Zero) || f.amount == Str("")
    ensures Submit(f, editing) == Failure(FillAllMessage)
  {
  }
}

=== FILE: transaction_list.dfy ===
/** `TransactionList`: the dashboard's list of recent transactions. It shows
    the five newest of the transactions it is given, newest first, without
    reordering the caller's array (the model is a pure function of it), and
    an empty-state message when there are none. Number and date formatting
    for the pt-BR locale is not modelled: a row carries the values it
    formats. */
module TransactionList {
  import opened Wrappers
  import opened Decimals
  import opened Calendar
  import opened Domain
  import TransactionChart

  /** A transaction as the list receives it: `creationDate` is the JSON text
      (`None` for `null`). */
  datatype ListTransaction = ListTransaction(
    id: Option<int>,
    name: Option<string>,
    creationDate: Option<string>,
    amount: Option<Decimal>,
    transactionType: Option<TransactionType>,
    categoryName: Option<string>)

  const EmptyText := "Nenhuma transação recente."
  const NoCategoryText := "Sem categoria"
  const MinusSign := "- "
  const PlusSign := "+ "
  /** How many rows the dashboard shows. */
  const RecentCount := 5

  /** `new Date(creationDate)`: `null` is the epoch, a `yyyy-MM-dd` text its
      day (UTC midnight, so days compare as dates); anything else is an
      invalid date, `None`. */
  function ListDay(t: ListTransaction): (d: Option<Date>)
    ensures d.Some? ==> ValidDate(d.value)
  {
    match t.creationDate
    case None => Some(Epoch)
    case Some(s) => ParsePlainIso(s)
  }

  /** Every date can be compared: no invalid date. */
  predicate Readable(ts: seq<ListTransaction>)
  {
    forall i :: 0 <= i < |ts| ==> ListDay(ts[i]).Some?
  }

  /** The day as a number that orders days chronologically. */
  function DayStamp(d: Date): int
  {
    d.year * 512 + d.month * 32 + d.day
  }

  /** The sort key of a transaction. */
  function Stamp(t: ListTransaction): int
  {
    match ListDay(t)
    case Some(d) => DayStamp(d)
    case None => 0
  }

  /** Day stamps order valid dates as the calendar does. */
  lemma DayStampOrder(a: Date, b: Date)
    requires ValidDate(a) && ValidDate(b)
    ensures DayStamp(a) < DayStamp(b) <==> Calendar.Before(a, b)
    ensures DayStamp(a) == DayStamp(b) <==> a == b
  {
  }

  /** Newest first by `key`: no element precedes one with a greater key. */
  predicate NewestFirst(ts: seq<ListTransaction>, key: ListTransaction -> int)
  {
    forall i, j :: 0 <= i < j < |ts| ==> key(ts[j]) <= key(ts[i])
  }

  /** Insertion of a later element of the input: it goes after every element
      with a key at least as great, so equal keys keep their input order. */
  function InsertNewest(sorted: seq<ListTransaction>, t: ListTransaction, key: ListTransaction -> int): (r: seq<ListTransaction>)
    ensures multiset(r) == multiset(sorted) + multiset{t}
    ensures |r| == |sorted| + 1
  {
    if |sorted| == 0 then [t]
    else if key(sorted[0]) < key(t) then [t] + sorted
    else
      assert sorted == [sorted[0]] + sorted[1..];
      [sorted[0]] + InsertNewest(sorted[1..], t, key)
  }

  /** `[...transactions].sort((a, b) => key(b) - key(a))`: a stable sort,
      greatest key first. */
  function SortNewestFirst(ts: seq<ListTransaction>, key: ListTransaction -> int): (r: seq<ListTransaction>)
    ensures multiset(r) == multiset(ts)
    ensures |r| == |ts|
  {
    if |ts| == 0 then []
    else
      assert ts == ts[..|ts| - 1] + [ts[|ts| - 1]];
      InsertNewest(SortNewestFirst(ts[..|ts| - 1], key), ts[|ts| - 1], key)
  }

  /** Every element of the insertion result after the head, when the head
      stays first, is no newer than the head. */
  lemma InsertBelowHead(sorted: seq<ListTransaction>, t: ListTransaction, key: ListTransaction -> int)
    requires |sorted| > 0 && key(t) <= key(sorted[0]) && NewestFirst(sorted, key)
    ensures forall k :: 0 <= k < |InsertNewest(sorted[1..], t, key)| ==>
      key(InsertNewest(sorted[1..], t, key)[k]) <= key(sorted[0])
  {
    var rest := sorted[1..];
    var inserted := InsertNewest(rest, t, key);
    forall k | 0 <= k < |inserted|
      ensures key(inserted[k]) <= key(sorted[0])
    {
      assert inserted[k] in multiset(inserted);
      if inserted[k] != t {
        var m :| 0 <= m < |rest| && rest[m] == inserted[k];
        assert sorted[m + 1] == inserted[k];
      }
    }
  }

  lemma {:induction false} InsertKeepsOrder(sorted: seq<ListTransaction>, t: ListTransaction, key: ListTransaction -> int)
    requires NewestFirst(sorted, key)
    ensures NewestFirst(InsertNewest(sorted, t, key), key)
  {
    if |sorted| > 0 && key(sorted[0]) >= key(t) {
      var rest := sorted[1..];
      assert NewestFirst(rest, key);
      InsertKeepsOrder(rest, t, key);
      InsertBelowHead(sorted, t, key);
      var inserted := InsertNewest(rest, t, key);
      var r := [sorted[0]] + inserted;
      forall i, j | 0 <= i < j < |r|
        ensures key(r[j]) <= key(r[i])
      {
        assert r[j] == inserted[j - 1];
        if i > 0 {
          assert r[i] == inserted[i - 1];
        }
      }
    }
  }

  lemma {:induction false} SortIsNewestFirst(ts: seq<ListTransaction>, key: ListTransaction -> int)
    ensures NewestFirst(SortNewestFirst(ts, key), key)
  {
    if |ts| > 0 {
      SortIsNewestFirst(ts[..|ts| - 1], key);
      InsertKeepsOrder(SortNewestFirst(ts[..|ts| - 1], key), ts[|ts| - 1], key);
    }
  }

  /** The colour a row's marker and amount take. */
  datatype Tone = SuccessTone | DangerTone | InfoTone

  /** One row as displayed: the transaction (for its name and the edit and
      delete buttons), the day shown (none for a missing date), the category
      label, the sign before the amount and the amount (`value || 0`). */
  datatype Row = Row(transaction: ListTransaction, shownDay: Option<Date>, categoryLabel: string,
                     tone: Tone, sign: string, amount: Decimal)

  function RowOf(t: ListTransaction): (r: Row)
    ensures r.transaction == t
    ensures r.sign == MinusSign <==> t.transactionType == Some(SAIDA)
    ensures r.tone == SuccessTone <==> t.transactionType == Some(ENTRADA)
    ensures r.tone == DangerTone <==> t.transactionType == Some(SAIDA)
    ensures t.creationDate.None? ==> r.shownDay.None?
    ensures r.categoryLabel != ""
  {
    var tone := if t.transactionType == Some(ENTRADA) then SuccessTone
      else if t.transactionType == Some(SAIDA) then DangerTone else InfoTone;
    var category := if t.categoryName.Some? && t.categoryName.value != "" then t.categoryName.value else NoCategoryText;
    var day := if t.creationDate.None? || t.creationDate.value == "" then None else ListDay(t);
    Row(t, day, category, tone, if t.transactionType == Some(SAIDA) then MinusSign else PlusSign, t.amount.GetOr(Zero))
  }

  datatype View = EmptyState(message: string) | Rows(rows: seq<Row>)

  function Min(a: int, b: int): int
  {
    if a < b then a else b
  }

  /** What the component renders. */
  function ListView(transactions: Option<seq<ListTransaction>>): (v: View)
    requires transactions.Some? ==> Readable(transactions.value)
    ensures transactions.None? || transactions.value == [] ==> v == EmptyState(EmptyText)
    ensures transactions.Some? && transactions.value != [] ==>
      v.Rows? && |v.rows| == Min(RecentCount, |transactions.value|)
    ensures v.Rows? ==> forall i :: 0 <= i < |v.rows| ==>
      v.rows[i] == RowOf(v.rows[i].transaction) && v.rows[i].transaction in transactions.value
  {
    match transactions
    case None => EmptyState(EmptyText)
    case Some(ts) =>
      if |ts| == 0 then EmptyState(EmptyText)
      else
        var sorted := SortNewestFirst(ts, Stamp);
        var recent := sorted[..Min(RecentCount, |ts|)];
        assert forall i :: 0 <= i < |recent| ==> recent[i] in multiset(sorted);
        Rows(seq(|recent|, i requires 0 <= i < |recent| => RowOf(recent[i])))
  }

  /** In a run sorted newest first, nothing after position `n` is newer
      than anything before it. */
  lemma SortedPrefixNewest(sorted: seq<ListTransaction>, n: int, key: ListTransaction -> int)
    requires NewestFirst(sorted, key) && 0 <= n <= |sorted|
    ensures forall x, i :: x in multiset(sorted[n..]) && 0 <= i < n ==> key(x) <= key(sorted[i])
  {
    forall x, i | x in multiset(sorted[n..]) && 0 <= i < n
      ensures key(x) <= key(sorted[i])
    {
      var m :| 0 <= m < |sorted[n..]| && sorted[n..][m] == x;
      assert sorted[n + m] == x;
    }
  }

  /** The transactions the list shows, in order. */
  function Shown(v: View): (ts: seq<ListTransaction>)
    ensures v.Rows? ==> |ts| == |v.rows| && forall i :: 0 <= i < |ts| ==> ts[i] == v.rows[i].transaction
  {
    if v.Rows? then seq(|v.rows|, i requires 0 <= i < |v.rows| => v.rows[i].transaction) else []
  }

  /** The list shows the first rows of the sorted transactions. */
  lemma ShownIsSortedPrefix(ts: seq<ListTransaction>)
    requires |ts| > 0 && Readable(ts)
    ensures Shown(ListView(Some(ts))) == SortNewestFirst(ts, Stamp)[..Min(RecentCount, |ts|)]
  {
  }

  /** Splitting a sequence at `n`: what the prefix leaves is the suffix. */
  lemma PrefixRemainder(s: seq<ListTransaction>, n: int)
    requires 0 <= n <= |s|
    ensures multiset(s[..n]) <= multiset(s)
    ensures multiset(s) - multiset(s[..n]) == multiset(s[n..])
  {
    assert s == s[..n] + s[n..];
  }

  /** The first `n` of a sorted run are the `n` newest. */
  lemma {:induction false} SortedPrefixIsNewest(ts: seq<ListTransaction>, n: int, key: ListTransaction -> int)
    requires 0 <= n <= |ts|
    ensures var shown := SortNewestFirst(ts, key)[..n];
      && NewestFirst(shown, key)
      && multiset(shown) <= multiset(ts)
      && forall x, i :: x in multiset(ts) - multiset(shown) && 0 <= i < |shown| ==> key(x) <= key(shown[i])
  {
    var sorted := SortNewestFirst(ts, key);
    var shown := sorted[..n];
    SortIsNewestFirst(ts, key);
    forall i, j | 0 <= i < j < |shown|
      ensures key(shown[j]) <= key(shown[i])
    {
      assert shown[i] == sorted[i] && shown[j] == sorted[j];
    }
    PrefixRemainder(sorted, n);
    SortedPrefixNewest(sorted, n, key);
    forall x, i | x in multiset(ts) - multiset(shown) && 0 <= i < |shown|
      ensures key(x) <= key(shown[i])
    {
      assert x in multiset(sorted[n..]);
      assert shown[i] == sorted[i];
    }
  }

  /** The rows are the newest transactions, newest first: no transaction left
      out is newer than one shown, and each shown transaction is shown at
      most as often as it occurs. */
  lemma ShowsNewest(ts: seq<ListTransaction>)
    requires |ts| > 0 && Readable(ts)
    ensures var shown := Shown(ListView(Some(ts)));
      && NewestFirst(shown, Stamp)
      && multiset(shown) <= multiset(ts)
      && forall x, i :: x in multiset(ts) - multiset(shown) && 0 <= i < |shown| ==> Stamp(x) <= Stamp(shown[i])
  {
    ShownIsSortedPrefix(ts);
    SortedPrefixIsNewest(ts, Min(RecentCount, |ts|), Stamp);
  }

  /** A card expense counts as spending in the chart yet is listed with a
      plus sign and the neutral tone. */
  lemma CardExpenseListedWithPlus(t: ListTransaction)
    requires t.transactionType == Some(CARTAO)
    ensures TransactionChart.SeriesOf(t.transactionType) == Some(TransactionChart.Expense)
    ensures RowOf(t).sign == PlusSign && RowOf(t).tone == InfoTone
  {
  }
}

=== FILE: transaction_service.dfy ===
/** `TransactionService`: saving a transaction (splitting a credit-card
    purchase into monthly installments), the owner-scoped search, and
    owner-scoped deletion. The repository is the sequence of stored records
    and the authenticated user is a parameter (`None` when the security
    context holds no `User`). */
module TransactionService {
  import opened Wrappers
  import opened Text
  import opened Decimals
  import opened Calendar
  import opened Domain
  import opened Ownership

  // ---------------------------------------------------------------------------
  // save / saveInstallments

  /** `save` splits a transaction whose `totalInstallments` is set and above 1. */
  predicate IsInstallmentPlan(t: Transaction)
  {
    t.totalInstallments.Some? && t.totalInstallments.value > 1
  }

  /** What splitting `t` into its installments for `user` means: N records,
      each carrying the plan's shared fields, the amount divided by N and
      rounded HALF_UP to cents, the date moved forward one month per
      installment; the first is `t` itself (numbered 1 unless it already has
      a number), the others are new records numbered 2..N. */
  predicate IsInstallmentSplit(t: Transaction, user: UserId, saved: seq<Transaction>)
  {
    && IsInstallmentPlan(t)
    && t.amount.Some?
    && t.creationDate.Some? && ValidDate(t.creationDate.value)
    && var n := t.totalInstallments.value;
    && |saved| == n
    && (forall k :: 0 <= k < n ==>
          && saved[k].user == Some(user)
          && saved[k].name == t.name
          && saved[k].transactionType == t.transactionType
          && saved[k].category == t.category
          && saved[k].outAccount == t.outAccount
          && saved[k].inAccount == t.inAccount
          && saved[k].totalInstallments == t.totalInstallments
          && saved[k].amount == Some(DivideToCents(t.amount.value, n))
          && saved[k].creationDate == Some(DatePlusMonths(t.creationDate.value, k)))
    && saved[0].id == t.id
    && saved[0].installmentNumber == Some(t.installmentNumber.GetOr(1))
    && (forall k :: 1 <= k < n ==> saved[k].id.None? && saved[k].installmentNumber == Some(k + 1))
  }

  /** Installment `i` (2..N) as the loop of `saveInstallments` builds it. */
  function LaterInstallment(t: Transaction, user: UserId, share: Decimal, i: int): Transaction
    requires t.creationDate.Some? && ValidDate(t.creationDate.value)
  {
    EmptyTransaction.(
      user := Some(user),
      name := t.name,
      amount := Some(share),
      transactionType := t.transactionType,
      category := t.category,
      outAccount := t.outAccount,
      inAccount := t.inAccount,
      totalInstallments := t.totalInstallments,
      installmentNumber := Some(i),
      creationDate := Some(DatePlusMonths(t.creationDate.value, i - 1)))
  }

  /** `saveInstallments`: the records written, in the order written. A null
      amount or date is a NullPointerException, which rolls the whole
      `@Transactional` save back. */
  method SaveInstallments(t: Transaction, user: UserId) returns (r: Result<seq<Transaction>, ServiceError>)
    requires IsInstallmentPlan(t) && t.user == Some(user)
    requires t.creationDate.Some? ==> ValidDate(t.creationDate.value)
    ensures r.Failure? <==> t.amount.None? || t.creationDate.None?
    ensures r.Failure? ==> r.error == NullValue
    ensures r.Success? ==> IsInstallmentSplit(t, user, r.value)
  {
    if t.amount.None? {
      return Failure(NullValue);
    }
    var n := t.totalInstallments.value;
    var share := DivideToCents(t.amount.value, n);
    var first := t.(installmentNumber := Some(t.installmentNumber.GetOr(1)), amount := Some(share));
    if t.creationDate.None? {
      return Failure(NullValue);
    }
    var saved := [first];
    var i := 2;
    while i <= n
      invariant 2 <= i <= n + 1
      invariant |saved| == i - 1
      invariant saved[0] == first
      invariant forall k :: 1 <= k < |saved| ==> saved[k] == LaterInstallment(t, user, share, k + 1)
    {
      saved := saved + [LaterInstallment(t, user, share, i)];
      i := i + 1;
    }
    DatePlusZeroMonths(t.creationDate.value);
    return Success(saved);
  }

  /** `save`: the records written. Without an authenticated user it throws;
      otherwise the user is attached, and a transaction that is not an
      installment plan is written as it is. */
  method Save(user: Option<UserId>, t: Transaction) returns (r: Result<seq<Transaction>, ServiceError>)
    requires t.creationDate.Some? ==> ValidDate(t.creationDate.value)
    ensures user.None? ==> r == Failure(NotAuthenticated)
    ensures user.Some? && !IsInstallmentPlan(t) ==> r == Success([t.(user := user)])
    ensures user.Some? && IsInstallmentPlan(t) ==>
      && (r.Failure? <==> t.amount.None? || t.creationDate.None?)
      && (r.Failure? ==> r.error == NullValue)
      && (r.Success? ==> IsInstallmentSplit(t, user.value, r.value))
  {
    if user.None? {
      return Failure(NotAuthenticated);
    }
    var owned := t.(user := user);
    if IsInstallmentPlan(owned) {
      r := SaveInstallments(owned, user.value);
    } else {
      r := Success([owned]);
    }
  }

  /** The amounts of the saved records (a missing amount counts as zero). */
  function SavedAmounts(saved: seq<Transaction>): (amounts: seq<Decimal>)
    ensures |amounts| == |saved|
  {
    seq(|saved|, k requires 0 <= k < |saved| => saved[k].amount.GetOr(Zero))
  }

  /** The installments add up to the original amount to within half a cent
      per installment: counted in units of 10^-(scale + 2), the difference is
      at most N/2 cents. */
  lemma InstallmentsAddUp(t: Transaction, user: UserId, saved: seq<Transaction>)
    requires IsInstallmentSplit(t, user, saved)
    ensures Sum(SavedAmounts(saved)).scale <= 2
    ensures var a, n := t.amount.value, |saved|;
      2 * Abs(Scaled(Sum(SavedAmounts(saved)), a.scale + 2) - Scaled(a, a.scale + 2)) <= n * Pow10(a.scale)
  {
    var a, n := t.amount.value, |saved|;
    SharesAddUp(a, n, SavedAmounts(saved));
  }

  /** N equal shares of `a`, each `a` / N rounded HALF_UP to cents, make `a`
      to within N/2 cents. */
  lemma SharesAddUp(a: Decimal, n: int, shares: seq<Decimal>)
    requires n > 0 && |shares| == n
    requires forall k :: 0 <= k < n ==> shares[k] == DivideToCents(a, n)
    ensures Sum(shares).scale <= 2
    ensures 2 * Abs(Scaled(Sum(shares), a.scale + 2) - Scaled(a, a.scale + 2)) <= n * Pow10(a.scale)
  {
    var share := DivideToCents(a, n);
    var s := a.scale + 2;
    var p := Pow10(a.scale);
    SumOfEqual(shares, share, s);
    assert Scaled(share, s) == share.unscaled * p;
    assert Scaled(a, s) == a.unscaled * 100 by {
      assert Pow10(2) == 100;
    }
    RoundedShares(a.unscaled * 100, p, n, share.unscaled);
  }

  /** If q is num / (p * n) rounded HALF_UP, n times q * p is within
      p * n / 2 of num. */
  lemma RoundedShares(num: int, p: int, n: int, q: int)
    requires p > 0 && n > 0
    requires IsHalfUpRounding(num, p * n, q)
    ensures 2 * Abs(n * (q * p) - num) <= n * p
  {
    assert n * (q * p) == q * (p * n);
    assert n * p == p * n;
  }

  /** With no number on the original, the installments are numbered 1..N in
      the order they are written, and each falls in its own month: the one
      numbered n falls n - 1 months after the original's. */
  lemma InstallmentSchedule(t: Transaction, user: UserId, saved: seq<Transaction>)
    requires IsInstallmentSplit(t, user, saved)
    requires t.installmentNumber.None?
    ensures forall k :: 0 <= k < |saved| ==> saved[k].installmentNumber == Some(k + 1)
    ensures forall k :: 0 <= k < |saved| ==>
      YearMonthOf(saved[k].creationDate.value) == PlusMonths(YearMonthOf(t.creationDate.value), k)
    ensures forall j, k :: 0 <= j < k < |saved| ==>
      Calendar.Before(saved[j].creationDate.value, saved[k].creationDate.value)
  {
    forall j, k | 0 <= j < k < |saved|
      ensures Calendar.Before(saved[j].creationDate.value, saved[k].creationDate.value)
    {
      var ym := YearMonthOf(t.creationDate.value);
      var a, b := saved[j].creationDate.value, saved[k].creationDate.value;
      assert MonthIndex(YearMonthOf(a)) == MonthIndex(ym) + j;
      assert MonthIndex(YearMonthOf(b)) == MonthIndex(ym) + k;
    }
  }

  // ---------------------------------------------------------------------------
  // searchTransactions

  /** The request parameters; `None` is a parameter that was not sent. */
  datatype SearchFilter = SearchFilter(
    name: Option<string>,
    startDate: Option<Date>,
    endDate: Option<Date>,
    categoryId: Option<int>,
    transactionType: Option<string>)

  /** One JPA criteria predicate. A comparison with a SQL NULL column is not
      true, so each criterion requires the column to be present. */
  datatype Criterion =
    | OwnedBy(user: UserId)
    | NameLike(fragment: string)
    | OnOrAfter(start: Date)
    | OnOrBefore(end: Date)
    | InCategory(categoryId: int)
    | OfType(transactionType: TransactionType)

  predicate Holds(c: Criterion, t: Transaction)
  {
    match c
    case OwnedBy(u) => t.user == Some(u)
    case NameLike(fragment) => t.name.Some? && Contains(ToLower(t.name.value), fragment)
    case OnOrAfter(start) => t.creationDate.Some? && Calendar.AtMost(start, t.creationDate.value)
    case OnOrBefore(end) => t.creationDate.Some? && Calendar.AtMost(t.creationDate.value, end)
    case InCategory(id) => t.category.Some? && t.category.value.id == Some(id)
    case OfType(ty) => t.transactionType == Some(ty)
  }

  /** `cb.and(predicates)`. */
  predicate HoldsAll(cs: seq<Criterion>, t: Transaction)
  {
    forall i :: 0 <= i < |cs| ==> Holds(cs[i], t)
  }

  predicate Given(s: Option<string>)
  {
    s.Some? && s.value != ""
  }

  /** The predicate list the specification lambda builds, in its order. */
  function Criteria(user: UserId, f: SearchFilter): seq<Criterion>
  {
    [OwnedBy(user)]
    + (if Given(f.name) then [NameLike(ToLower(f.name.value))] else [])
    + (if f.startDate.Some? then [OnOrAfter(f.startDate.value)] else [])
    + (if f.endDate.Some? then [OnOrBefore(f.endDate.value)] else [])
    + (if f.categoryId.Some? then [InCategory(f.categoryId.value)] else [])
    + (if Given(f.transactionType) && TypeValueOf(f.transactionType.value).Some?
       then [OfType(TypeValueOf(f.transactionType.value).value)] else [])
  }

  /** The stored records that satisfy every criterion, in store order. */
  function Where(stored: seq<Transaction>, cs: seq<Criterion>): (r: seq<Transaction>)
    ensures |r| <= |stored|
    ensures forall i :: 0 <= i < |r| ==> r[i] in stored && HoldsAll(cs, r[i])
    ensures forall i :: 0 <= i < |stored| && HoldsAll(cs, stored[i]) ==> stored[i] in r
    ensures |stored| == 1 ==> r == (if HoldsAll(cs, stored[0]) then [stored[0]] else [])
  {
    if |stored| == 0 then []
    else
      var rest := Where(stored[..|stored| - 1], cs);
      var last := stored[|stored| - 1];
      assert stored == stored[..|stored| - 1] + [last];
      assert |stored| == 1 ==> rest == [];
      if HoldsAll(cs, last) then rest + [last] else rest
  }

  /** Filtering two runs of records filters the first, then the second: each
      match is returned once, in store order. */
  lemma {:induction false} WhereAppend(a: seq<Transaction>, b: seq<Transaction>, cs: seq<Criterion>)
    ensures Where(a + b, cs) == Where(a, cs) + Where(b, cs)
  {
    if |b| == 0 {
      assert a + b == a;
    } else {
      var init := b[..|b| - 1];
      assert (a + b)[..|a + b| - 1] == a + init;
      assert (a + b)[|a + b| - 1] == b[|b| - 1];
      WhereAppend(a, init, cs);
    }
  }

  /** `searchTransactions` without paging: no user, no results. */
  function SearchTransactions(user: Option<UserId>, stored: seq<Transaction>, f: SearchFilter): (r: seq<Transaction>)
    ensures user.None? ==> r == []
  {
    match user
    case None => []
    case Some(u) => Where(stored, Criteria(u, f))
  }

  /** What the search asks of a record, filter by filter: the user owns it;
      its name contains the name filter ignoring case; its date lies in the
      inclusive range; its category and type are the ones asked for. A filter
      that is absent or empty, and a type that is no constant's name, asks
      nothing. */
  predicate Wanted(user: UserId, f: SearchFilter, t: Transaction)
  {
    && t.user == Some(user)
    && (Given(f.name) ==> t.name.Some? && Contains(ToLower(t.name.value), ToLower(f.name.value)))
    && (f.startDate.Some? ==> t.creationDate.Some? && Calendar.AtMost(f.startDate.value, t.creationDate.value))
    && (f.endDate.Some? ==> t.creationDate.Some? && Calendar.AtMost(t.creationDate.value, f.endDate.value))
    && (f.categoryId.Some? ==> t.category.Some? && t.category.value.id == f.categoryId)
    && (Given(f.transactionType) && TypeValueOf(f.transactionType.value).Some? ==>
          t.transactionType == TypeValueOf(f.transactionType.value))
  }

  lemma HoldsAllAppend(a: seq<Criterion>, b: seq<Criterion>, t: Transaction)
    ensures HoldsAll(a + b, t) <==> HoldsAll(a, t) && HoldsAll(b, t)
  {
    if HoldsAll(a, t) && HoldsAll(b, t) {
      forall i | 0 <= i < |a + b|
        ensures Holds((a + b)[i], t)
      {
        if i >= |a| {
          assert (a + b)[i] == b[i - |a|];
        }
      }
    }
    if HoldsAll(a + b, t) {
      forall i | 0 <= i < |a|
        ensures Holds(a[i], t)
      {
        assert (a + b)[i] == a[i];
      }
      forall i | 0 <= i < |b|
        ensures Holds(b[i], t)
      {
        assert (a + b)[|a| + i] == b[i];
      }
    }
  }

  lemma HoldsAllSingle(c: Criterion, t: Transaction)
    ensures HoldsAll([c], t) <==> Holds(c, t)
  {
    assert [c][0] == c;
  }

  /** The predicate list holds exactly for the wanted records. */
  lemma CriteriaMeaning(user: UserId, f: SearchFilter, t: Transaction)
    ensures HoldsAll(Criteria(user, f), t) <==> Wanted(user, f, t)
  {
    var p0 := [OwnedBy(user)];
    var p1 := if Given(f.name) then [NameLike(ToLower(f.name.value))] else [];
    var p2 := if f.startDate.Some? then [OnOrAfter(f.startDate.value)] else [];
    var p3 := if f.endDate.Some? then [OnOrBefore(f.endDate.value)] else [];
    var p4 := if f.categoryId.Some? then [InCategory(f.categoryId.value)] else [];
    var p5 := if Given(f.transactionType) && TypeValueOf(f.transactionType.value).Some?
      then [OfType(TypeValueOf(f.transactionType.value).value)] else [];
    assert Criteria(user, f) == p0 + p1 + p2 + p3 + p4 + p5;
    HoldsAllAppend(p0, p1, t);
    HoldsAllAppend(p0 + p1, p2, t);
    HoldsAllAppend(p0 + p1 + p2, p3, t);
    HoldsAllAppend(p0 + p1 + p2 + p3, p4, t);
    HoldsAllAppend(p0 + p1 + p2 + p3 + p4, p5, t);
    HoldsAllSingle(OwnedBy(user), t);
    if Given(f.name) { HoldsAllSingle(NameLike(ToLower(f.name.value)), t); }
    if f.startDate.Some? { HoldsAllSingle(OnOrAfter(f.startDate.value), t); }
    if f.endDate.Some? { HoldsAllSingle(OnOrBefore(f.endDate.value), t); }
    if f.categoryId.Some? { HoldsAllSingle(InCategory(f.categoryId.value), t); }
    if p5 != [] { HoldsAllSingle(p5[0], t); }
  }

  /** The search returns exactly the stored records the filters want. */
  lemma SearchMeaning(user: Option<UserId>, stored: seq<Transaction>, f: SearchFilter, t: Transaction)
    ensures t in SearchTransactions(user, stored, f) <==> user.Some? && t in stored && Wanted(user.value, f, t)
  {
    if user.Some? {
      CriteriaMeaning(user.value, f, t);
      var r := SearchTransactions(user, stored, f);
      if t in r {
        var i :| 0 <= i < |r| && r[i] == t;
      }
      if t in stored && Wanted(user.value, f, t) {
        var i :| 0 <= i < |stored| && stored[i] == t;
      }
    }
  }

  // ---------------------------------------------------------------------------
  // deleteById / deleteMultiple

  function TransactionKey(t: Transaction): Key
  {
    Key(t.id, t.user)
  }

  /** `deleteById`: the store afterwards. Only a record the current user owns
      is deleted; without a user nothing is. */
  function DeleteById(user: Option<UserId>, stored: seq<Transaction>, id: int): (r: seq<Transaction>)
    ensures user.None? ==> r == stored
    ensures forall i :: 0 <= i < |r| ==> r[i] in stored && !(r[i].id == Some(id) && user.Some? && r[i].user == user)
    ensures forall i :: 0 <= i < |stored| && !(stored[i].id == Some(id) && user.Some? && stored[i].user == user) ==>
      stored[i] in r
  {
    match user
    case None => stored
    case Some(u) => RemoveOwned(stored, TransactionKey, u, {id})
  }

  /** `deleteMultiple`: one owner-scoped delete per listed id, in list order. */
  method DeleteMultiple(user: Option<UserId>, stored: seq<Transaction>, ids: seq<int>) returns (r: seq<Transaction>)
    ensures user.None? ==> r == stored
    ensures user.Some? ==> r == RemoveOwned(stored, TransactionKey, user.value, set k | 0 <= k < |ids| :: ids[k])
  {
    if user.None? {
      return stored;
    }
    var u := user.value;
    r := stored;
    RemoveNothing(stored, TransactionKey, u);
    ghost var done: set<int> := {};
    for k := 0 to |ids|
      invariant done == set j | 0 <= j < k :: ids[j]
      invariant r == RemoveOwned(stored, TransactionKey, u, done)
    {
      RemoveOwnedTwice(stored, TransactionKey, u, done, {ids[k]});
      assert DeleteById(user, r, ids[k]) == RemoveOwned(r, TransactionKey, u, {ids[k]});
      r := DeleteById(user, r, ids[k]);
      assert (set j | 0 <= j < k + 1 :: ids[j]) == done + {ids[k]};
      done := done + {ids[k]};
    }
  }

  /** Deleting several ids removes exactly the listed records the user owns:
      every other user's records and every unlisted record stay. */
  lemma DeleteMultipleMeaning(u: UserId, stored: seq<Transaction>, ids: seq<int>, t: Transaction)
    ensures var r := RemoveOwned(stored, TransactionKey, u, set k | 0 <= k < |ids| :: ids[k]);
      t in r <==> t in stored && !(t.user == Some(u) && t.id.Some? && t.id.value in ids)
  {
    var idSet := set k | 0 <= k < |ids| :: ids[k];
    var r := RemoveOwned(stored, TransactionKey, u, idSet);
    if t.id.Some? && t.id.value in ids {
      var k :| 0 <= k < |ids| && ids[k] == t.id.value;
      assert t.id.value in idSet;
    }
    if t in r {
      var i :| 0 <= i < |r| && r[i] == t;
    }
    if t in stored {
      var i :| 0 <= i < |stored| && stored[i] == t;
    }
  }
}

=== FILE: workbook.dfy ===
/** The spreadsheet structure the import and export work on, in the terms of
    Apache POI: a workbook is a sequence of named sheets, a sheet a sequence of
    rows that may be missing, a row a sequence of cells that may be missing. */
module Workbooks {
  import opened Wrappers
  import opened Text
  import opened Decimals
  import opened Calendar

  /** A cell by its type: text, a number (with the calendar date it shows when
      the cell is date-formatted), a boolean, or any other type (blank,
      formula, error). */
  datatype Cell =
    | StringCell(text: string)
    | NumericCell(number: Decimal, dateValue: Option<Date>)
    | BooleanCell(flag: bool)
    | OtherCell

  /** Column index to cell; `None` where the row has no cell. */
  type Row = seq<Option<Cell>>

  datatype Sheet = Sheet(name: string, rows: seq<Option<Row>>)

  type Workbook = seq<Sheet>

  /** `Row.getCell(column)`: `None` for a column the row does not have. */
  function GetCell(row: Row, column: int): (c: Option<Cell>)
    ensures c.Some? ==> 0 <= column < |row| && c == row[column]
  {
    if 0 <= column < |row| then row[column] else None
  }

  /** `Sheet.getRow(index)`. */
  function GetRow(sheet: Sheet, index: int): (r: Option<Row>)
    ensures r.Some? ==> 0 <= index < |sheet.rows| && r == sheet.rows[index]
  {
    if 0 <= index < |sheet.rows| then sheet.rows[index] else None
  }

  /** The rows `Sheet.iterator()` visits: the existing ones, in index order. */
  function PresentRows(rows: seq<Option<Row>>): (present: seq<Row>)
    ensures |present| <= |rows|
  {
    if |rows| == 0 then []
    else (if rows[0].Some? then [rows[0].value] else []) + PresentRows(rows[1..])
  }

  /** Visiting two runs of rows visits the first run's rows, then the second's. */
  lemma {:induction false} PresentRowsAppend(a: seq<Option<Row>>, b: seq<Option<Row>>)
    ensures PresentRows(a + b) == PresentRows(a) + PresentRows(b)
  {
    if |a| > 0 {
      assert (a + b)[1..] == a[1..] + b;
      PresentRowsAppend(a[1..], b);
    } else {
      assert a + b == b;
    }
  }

  /** What a loop over rows collects when each row adds the outputs of
      `each` for it: those outputs, concatenated in row order. */
  function ConcatRows<T>(each: Row -> seq<T>, rows: seq<Row>): seq<T>
  {
    if |rows| == 0 then [] else each(rows[0]) + ConcatRows(each, rows[1..])
  }

  /** Collecting over two runs of rows collects over the first, then the second. */
  lemma {:induction false} ConcatRowsAppend<T>(each: Row -> seq<T>, a: seq<Row>, b: seq<Row>)
    ensures ConcatRows(each, a + b) == ConcatRows(each, a) + ConcatRows(each, b)
  {
    if |a| > 0 {
      assert (a + b)[1..] == a[1..] + b;
      ConcatRowsAppend(each, a[1..], b);
    } else {
      assert a + b == b;
    }
  }

  /** When no row is missing, every row is visited. */
  lemma {:induction false} PresentRowsAllPresent(rows: seq<Row>)
    ensures PresentRows(seq(|rows|, i requires 0 <= i < |rows| => Some(rows[i]))) == rows
  {
    var wrapped := seq(|rows|, i requires 0 <= i < |rows| => Some(rows[i]));
    if |rows| > 0 {
      assert wrapped[1..] == seq(|rows[1..]|, i requires 0 <= i < |rows[1..]| => Some(rows[1..][i]));
      PresentRowsAllPresent(rows[1..]);
      assert rows == [rows[0]] + rows[1..];
    }
  }

  /** `Workbook.getSheet(name)`: the first sheet whose name matches ignoring
      case. */
  function SheetByName(wb: Workbook, name: string): (r: Option<nat>)
    ensures r.Some? ==> r.value < |wb| && EqualsIgnoreCase(name, wb[r.value].name)
    ensures r.Some? ==> forall j :: 0 <= j < r.value ==> !EqualsIgnoreCase(name, wb[j].name)
    ensures r.None? <==> forall j :: 0 <= j < |wb| ==> !EqualsIgnoreCase(name, wb[j].name)
  {
    SheetByNameFrom(wb, name, 0)
  }

  function SheetByNameFrom(wb: Workbook, name: string, from: nat): (r: Option<nat>)
    requires from <= |wb|
    ensures r.Some? ==> from <= r.value < |wb| && EqualsIgnoreCase(name, wb[r.value].name)
    ensures r.Some? ==> forall j :: from <= j < r.value ==> !EqualsIgnoreCase(name, wb[j].name)
    ensures r.None? <==> forall j :: from <= j < |wb| ==> !EqualsIgnoreCase(name, wb[j].name)
    decreases |wb| - from
  {
    if from == |wb| then None
    else if EqualsIgnoreCase(name, wb[from].name) then Some(from)
    else SheetByNameFrom(wb, name, from + 1)
  }
}

=== FILE: wrappers.dfy ===
/** Failure-carrying datatypes shared by every module: `Option` for Java's
    `null` / JavaScript's `undefined`, `Result` for an operation that throws. */
module Wrappers {

  datatype Option<+T> = None | Some(value: T) {

    function GetOr(default: T): T
    {
      match this
      case Some(v) => v
      case None => default
    }
  }

  datatype Result<+R, +E> = Success(value: R) | Failure(error: E)
}
